=== FILE: README.md ===
# searchengine services in Dafny

A model of the three services at the core of the searchengine application: a small
Spring crawler and search engine for Russian-language sites.

- **Indexing service.** Crawls each configured site from its root URL. It fetches every
  valid link it has not indexed yet, stores the page, and records the HTTP status in the
  site's `lastError`. It marks each site INDEXING, then INDEXED or FAILED. It can be
  stopped, it can re-index one page, and it can clear all tables.
- **Lemmatization service.** Splits a text into Russian words and drops interjections,
  prepositions and conjunctions. It counts the first normal form of every other word. It
  strips tags from a page. For every lemma of a page it raises the site-scoped lemma
  frequency by one and appends one posting (an `Index` row) with the in-page count as
  rank.
- **Searching service.** A singleton with six fields:
  - it turns a query into lemmas;
  - it sums the stored frequencies of every lemma asked for so far and sorts them
    ascending;
  - it intersects their pages;
  - it normalises each page's relevance against the best page;
  - it filters by site, pages the list, and builds a snippet per hit.

The model is functional. The four tables are sequences in a `Store` with one id counter.
Each service's fields form a record that the operations take and return. Everything the
code gets from outside is a parameter:
- network fetches and URL parsing (`Indexing.Env`);
- the Lucene morphology (`Lemmatizer.Morphology`);
- the Jsoup title and body text (`Searching.Html`);
- the clock.

Files, in dependency order:
- `wrappers.dfy`: `Option` and `Result`.
- `text.dfy`: the `java.lang.String` operations the code uses: `toLowerCase`,
  `toUpperCase`, `trim`, `contains`, `split` and a literal `replaceAll`.
- `treemap.dfy`: `TreeMap<String, V>` as a strictly sorted association list.
- `entities.dfy`: the entities and the repository queries.
- `links.dfy`: `isValidLink` and `isLinkFromConfig`.
- `lemmatizer.dfy`: `LemmatizationServiceImpl`.
- `indexing.dfy`: `IndexingServiceImpl` and its crawl task.
- `snippet.dfy`: `getWordsValues` and `buildSnippet`.
- `searching.dfy`: the rest of `SearchingServiceImpl`.

Source paths below are relative to the repository root. `LemmaRepository` and
`IndexRepository` are not part of this model; their queries are modelled from the method
names the services call (`findLemmaByLemmaAndSite`, `findAllByLemmaOrderByFrequencyAsc`,
`findAllByLemmaIn`).

## Model

| member | source | states |
|---|---|---|
| Entities.InsertPage | src/main/java/searchengine/model/Page.java:14 | Saving a page fails exactly when some page of any site already has that path, because the path index is unique over the table. Otherwise the page is appended with a fresh id and nothing else changes. |
| Entities.InsertPageWellFormed | src/main/java/searchengine/model/Page.java:14-38 | A successful page save keeps the store's invariants: unique ids, unique paths, one lemma row per site and text, positive ranks, postings only of stored pages. |
| Entities.DeletePage | src/main/java/searchengine/model/Index.java:19-23 | Deleting a page removes exactly the pages with that id, and by the cascade exactly the postings of that page. Sites, lemmas and the id counter are untouched. |
| Entities.DeletePageWellFormed | src/main/java/searchengine/model/Index.java:19-23 | The cascade delete keeps the store's invariants, including that every posting refers to a stored page. |
| Entities.FindPageByPath | src/main/java/searchengine/repositories/PageRepository.java:15-17 | The lookup finds nothing exactly when `existsPageByPath` is false. Otherwise it returns a stored page with that path. |
| Entities.FindSiteByUrl | src/main/java/searchengine/repositories/SiteRepository.java:17 | A found row is a stored site with that url. No row means no stored site has that url. |
| Entities.SaveSite | src/main/java/searchengine/model/Site.java:14-18 | Saving a site is an upsert by id: afterwards that id resolves to the saved row, every other site row is still present, and the other tables are unchanged. |
| Links.BlockedPatternPlain | src/main/java/searchengine/services/IndexingServiceImpl.java:64 | On a string without line terminators, the link pattern matches exactly when the string has no `.` or ends in one of the 18 suffixes. |
| Links.InvalidLinks | src/main/java/searchengine/services/IndexingServiceImpl.java:62-68 | A link that contains `#` or `?`, does not start with the current site's url once lower-cased, or matches the pattern is not valid. |
| Links.ValidLinkLowerInvariant | src/main/java/searchengine/services/IndexingServiceImpl.java:63-68 | Validity depends on the link only through its lower case: the link and its lower case are judged alike. |
| Links.SlashEndedNotBlocked | src/main/java/searchengine/services/IndexingServiceImpl.java:64 | A string with a `.` whose last character is `/` (no line terminators) does not match the pattern. |
| Links.SlashEndedAccepted | src/main/java/searchengine/services/IndexingServiceImpl.java:62-68 | The converse direction: a lower-case link that ends in `/`, has a `.`, has no `#` or `?` and starts with the site url is valid. |
| Links.RootWithoutSlashRejected | src/main/java/searchengine/services/IndexingServiceImpl.java:64 | `https://x.ru` is rejected for the site `https://x.ru/`, because it ends in the suffix `ru`. |
| Links.RootWithSlashAccepted | src/main/java/searchengine/services/IndexingServiceImpl.java:62-68 | `https://x.ru/` is accepted for the site `https://x.ru/`. |
| Links.IsLinkFromConfig | src/main/java/searchengine/services/IndexingServiceImpl.java:246-254 | The result is true exactly when some configured site url is a substring of the url. It is false for an empty configuration. |
| Links.FromConfigOrderFree | src/main/java/searchengine/services/IndexingServiceImpl.java:246-254 | Two configurations with the same entries give the same answer, whatever their order or repeats. |
| Links.ErrorPathUnderSite | src/main/java/searchengine/services/IndexingServiceImpl.java:182 | The error page's path, `url.replaceAll(siteUrl, "/")`, is `/` followed by the rest of the url when the url is the site url plus a rest in which the site url pattern does not match again. The site url is read as a pattern whose only special character is `.`. |
| Lemmatizer.AnyWordBaseBelongToParticle | src/main/java/searchengine/services/LemmatizationServiceImpl.java:51-63 | The result is true exactly when some tag string, upper-cased, contains МЕЖД, ПРЕДЛ or СОЮЗ. |
| Lemmatizer.TokensSpellText | src/main/java/searchengine/services/LemmatizationServiceImpl.java:29-33 | Every looked-up token is a non-empty run of `а-я`. The tokens, concatenated, are exactly the `а-я` characters of the lower-cased text, so `ё`, Latin letters, digits and punctuation only separate. |
| Lemmatizer.TokensAsRuns | src/main/java/searchengine/services/LemmatizationServiceImpl.java:29-33 | The tokens are the maximal runs of `а-я` in the lower-cased text, in text order (`Runs`: the non-empty pieces between characters outside `а-я`). |
| Lemmatizer.TokensSeparate | src/main/java/searchengine/services/LemmatizationServiceImpl.java:29-33 | A character whose lower case is outside `а-я` (`ё`, a Latin letter, a digit, punctuation, a space) ends a token: the tokens of `a + [c] + b` are those of `a` followed by those of `b`. So `аёб` gives `а` and `б`. |
| Lemmatizer.TokensOfWord | src/main/java/searchengine/services/LemmatizationServiceImpl.java:29-33 | A non-empty word whose lower case is all `а-я` is looked up as one token, its lower case. |
| Lemmatizer.GetLemmasFromText | src/main/java/searchengine/services/LemmatizationServiceImpl.java:25-48 | The map stays sorted. The keys are the old keys plus the first normal form of every non-particle token. Each count rises by the number of non-particle tokens with that form, and the total rises by their number. An empty text leaves the map as it was. |
| Lemmatizer.AddTokensKeys | src/main/java/searchengine/services/LemmatizationServiceImpl.java:32-44 | The loop adds to the key set exactly the forms that the non-particle tokens contribute. |
| Lemmatizer.AddTokensGet | src/main/java/searchengine/services/LemmatizationServiceImpl.java:32-44 | The loop raises each key's count by the multiplicity of that form among the contributions. |
| Lemmatizer.AddTokensSum | src/main/java/searchengine/services/LemmatizationServiceImpl.java:32-44 | The loop raises the sum of the counts by the number of contributions. |
| Lemmatizer.ParticlesContributeNothing | src/main/java/searchengine/services/LemmatizationServiceImpl.java:37-39 | Tokens that all carry a particle tag contribute nothing. |
| Lemmatizer.NoParticlesContributeAll | src/main/java/searchengine/services/LemmatizationServiceImpl.java:34-44 | Without particles, every token contributes exactly its first normal form, in token order. |
| Lemmatizer.FreshCounts | src/main/java/searchengine/services/LemmatizationServiceImpl.java:23-47 | On a fresh instance: the keys are exactly the forms of the non-particle tokens, every count is at least 1, and the counts sum to the number of non-particle tokens. |
| Lemmatizer.LemmasAccumulate | src/main/java/searchengine/services/LemmatizationServiceImpl.java:23-44 | Two calls on one instance accumulate: each count is the old count plus both texts' contributions. |
| Lemmatizer.StripWithoutLt | src/main/java/searchengine/services/LemmatizationServiceImpl.java:66-69 | A text without `<` is returned unchanged. |
| Lemmatizer.StripClean | src/main/java/searchengine/services/LemmatizationServiceImpl.java:66-69 | A text in which no position starts a tag match is returned unchanged. |
| Lemmatizer.StripOneTag | src/main/java/searchengine/services/LemmatizationServiceImpl.java:66-69 | A single tag on one line, in text that has no other `<` or `>`, is cut out and the text around it is joined: `a<b>c` becomes `ac`. |
| Lemmatizer.StripGreedy | src/main/java/searchengine/services/LemmatizationServiceImpl.java:67 | The match is greedy: when no `>` follows on the rest of the line, everything from the first `<` through the last `>` of the line goes, whatever `<` and `>` lie between, and stripping goes on in the rest. |
| Lemmatizer.StripIsClean | src/main/java/searchengine/services/LemmatizationServiceImpl.java:66-69 | No tag match is left in the result. |
| Lemmatizer.StripIdempotent | src/main/java/searchengine/services/LemmatizationServiceImpl.java:66-69 | Stripping twice is stripping once. |
| Lemmatizer.SaveLemma | src/main/java/searchengine/services/LemmatizationServiceImpl.java:75-84 | The site's row for the text is created with frequency 1 or raised by 1. The returned id is that row's. Rows of other texts or sites are unchanged. A new id is drawn only for a new row. |
| Lemmatizer.IndexEntriesRows | src/main/java/searchengine/services/LemmatizationServiceImpl.java:74-84 | After the loop, a row of a page lemma in the page's site is the old row raised by one, or a new row with frequency 1. Every other row is unchanged, whatever the in-page counts. |
| Lemmatizer.IndexEntriesPostings | src/main/java/searchengine/services/LemmatizationServiceImpl.java:85-89 | The i-th new posting belongs to the i-th map entry. It refers to the page and to that entry's lemma row in the site, and its rank is the entry's count. |
| Lemmatizer.IndexEntriesFrequency | src/main/java/searchengine/services/LemmatizationServiceImpl.java:74-84 | Each frequency rises by one for a page lemma of the page's site and stays put otherwise. Existing rows keep their ids. |
| Lemmatizer.IndexPage | src/main/java/searchengine/services/LemmatizationServiceImpl.java:71-92 | Indexing a page leaves sites and pages alone. It appends exactly one posting per lemma of the page and removes none, and it leaves the instance's collection empty. |
| Lemmatizer.IndexPageEffect | src/main/java/searchengine/services/LemmatizationServiceImpl.java:72-89 | Indexing a page as a whole: frequencies rise by one for the page's lemmas, other rows are unchanged, and the new postings match, one to one and with equal rank, the counts the lemmatizer collects from the tag-stripped content. |
| Lemmatizer.IndexPageTwice | src/main/java/searchengine/services/LemmatizationServiceImpl.java:82-89 | Indexing the same page twice appends twice as many postings, with the second batch repeating the first, and adds 2 to each of the page's lemma frequencies. Nothing is decremented. |
| Lemmatizer.IndexPageWellFormed | src/main/java/searchengine/services/LemmatizationServiceImpl.java:71-92 | Indexing a stored page keeps the store's invariants. |
| Indexing.StatusMessage | src/main/java/searchengine/services/IndexingServiceImpl.java:193-243 | Code 200 is the only code without a message. The unknown-error message goes exactly to the codes outside 200 and the eight listed ones. |
| Indexing.PageStatus | src/main/java/searchengine/services/IndexingServiceImpl.java:193-243 | The site's status never changes, only its `lastError`. For 200 nothing changes. For any other code `lastError` becomes that code's message and the site row is saved. Pages, lemmas, postings and the other sites are kept. |
| Indexing.PageStatusWellFormed | src/main/java/searchengine/services/IndexingServiceImpl.java:193-243 | Saving the site keeps the store's invariants. |
| Indexing.IndexingPage | src/main/java/searchengine/services/IndexingServiceImpl.java:157-189 | The page step returns the fetched document. It adds the url to the indexed links exactly on the success path. It raises exactly when an HTTP-status error page cannot be saved. It adds at most one page, and it changes none of the service's flags. |
| Indexing.LoadedPage | src/main/java/searchengine/services/IndexingServiceImpl.java:160-179 | On a successful fetch the step never raises. It marks the url indexed exactly when the url parsed, a site is set, and the path is free or already belongs to this site. |
| Indexing.ErrorPage | src/main/java/searchengine/services/IndexingServiceImpl.java:180-184 | On an HTTP-status error the url is not marked indexed. The page is saved without the existence check, so the step raises exactly when no site is set or the error path is taken. |
| Indexing.LoadedPageStored | src/main/java/searchengine/services/IndexingServiceImpl.java:166-177 | A fetched page with a free path is stored with the next id, the site, the URL's path, the status code and the html. The url is marked indexed and the site row is saved with the current time. |
| Indexing.IndexingPageValid | src/main/java/searchengine/services/IndexingServiceImpl.java:157-189 | The page step keeps the store's invariants. |
| Indexing.StopIndexing | src/main/java/searchengine/services/IndexingServiceImpl.java:102-114 | With no INDEXING site nothing changes. Otherwise indexing is switched off, and the current site is marked FAILED with the stop message and the current time. The call raises (second component) exactly when no pool or no site exists yet. |
| Indexing.StopValid | src/main/java/searchengine/services/IndexingServiceImpl.java:102-114 | Stopping keeps the store's invariants. |
| Indexing.Children | src/main/java/searchengine/services/IndexingServiceImpl.java:136-143 | The links that get a task are exactly the page's links that are valid, not yet indexed and seen while indexing is on. |
| Indexing.Compute | src/main/java/searchengine/services/IndexingServiceImpl.java:128-155 | The crawl only grows the indexed set and the fetch trace. Every url it fetches was valid and not indexed when the crawl began. The site object keeps its identity, and `parentLink` and `lastError` are untouched. |
| Indexing.ComputeValid | src/main/java/searchengine/services/IndexingServiceImpl.java:128-155 | A crawl keeps the store's invariants. |
| Indexing.ProcessedOnce | src/main/java/searchengine/services/IndexingServiceImpl.java:128-156 | No url is processed successfully twice: every url the crawl marks indexed occurs exactly once among the urls it fetched. Each task checks the indexed links before it fetches. A url fetched earlier but left unmarked gets the same fetch outcome again, and with unique paths that outcome cannot mark it later. |
| Indexing.RefetchLoop | src/main/java/searchengine/services/IndexingServiceImpl.java:131-177 | A page whose path belongs to another site is never stored and never marked indexed. When it links to itself, it is fetched again at every level until the depth bound runs out, and the store is unchanged. |
| Indexing.BeginSite | src/main/java/searchengine/services/IndexingServiceImpl.java:75-78 | A started site is saved INDEXING with a new id, the current time, the configured url and name, and the service's last error. It becomes the crawl's site and `parentLink`. |
| Indexing.EndSite | src/main/java/searchengine/services/IndexingServiceImpl.java:84-93 | A normal end saves the site INDEXED with the current time. An exception saves it FAILED and makes its message the service's `lastError`. |
| Indexing.CrawlSite | src/main/java/searchengine/services/IndexingServiceImpl.java:75-94 | One site's turn creates the row under the next id. That row ends with the configured url and name, INDEXED after a normal end of the traversal and FAILED after an exception. Older site rows survive and the indexed set only grows. |
| Indexing.CrawlSiteCrawled | src/main/java/searchengine/services/IndexingServiceImpl.java:75-94 | The row a site's turn leaves has an id drawn during that turn, the configured url and name, and the status of the traversal's end. |
| Indexing.StartSites | src/main/java/searchengine/services/IndexingServiceImpl.java:74-98 | The loop over the configured sites keeps older site rows and grows the indexed set. Once indexing is off, the remaining sites are skipped without any change. |
| Indexing.AllSitesFinished | src/main/java/searchengine/services/IndexingServiceImpl.java:74-98 | Without a stop request, every remaining configured site gets a row of its own: the rows' ids rise strictly with the iterations, so no two iterations share a row, each id was drawn during the loop, and each row has its site's url, name and the status of its traversal's end. |
| Indexing.StartIndexing | src/main/java/searchengine/services/IndexingServiceImpl.java:72-99 | Without a stop request, indexing stays switched on, and every configured site gets a row of its own: distinct ids, rising in configuration order and drawn during the call, each row with its site's url and name, INDEXED or FAILED as its traversal ended. Two identical configurations get two rows. |
| Indexing.StopOverwritten | src/main/java/searchengine/services/IndexingServiceImpl.java:84-110 | A stop during a site's crawl that then ends normally leaves the site INDEXED, with the stop message as its last error, and indexing off. |
| Indexing.UpdateOnePage | src/main/java/searchengine/services/IndexingServiceImpl.java:257-285 | A null url or one that does not parse changes nothing. |
| Indexing.UpdateReplaces | src/main/java/searchengine/services/IndexingServiceImpl.java:263-281 | Re-indexing switches indexing on. Every page that had the URL's path is gone from the store afterwards. The site used is the row found for `https://host/`. |
| Indexing.UpdateStoresPage | src/main/java/searchengine/services/IndexingServiceImpl.java:263-281 | When the fetch succeeds and the site row exists, the url is marked indexed and a page with the URL's path, that site, the status code and the html is stored. |
| Indexing.PathFreed | src/main/java/searchengine/services/IndexingServiceImpl.java:265-270 | After deleting the page found by path, no page has that path and the store's invariants hold. |
| Indexing.ClearRepositories | src/main/java/searchengine/services/IndexingServiceImpl.java:289-294 | All four tables are empty and the id counter is kept. Every other field of the service is unchanged: the indexed links, the site object, the indexing flag, the last error, the parent link, the pool flag, the pending stop and the trace. |
| Indexing.RestartAfterClear | src/main/java/searchengine/services/IndexingServiceImpl.java:289-294 | Because clearing keeps the indexed links, a new crawl of a site whose root url was indexed fetches nothing. It ends with that site as the only row, INDEXED, and no pages. |
| Snippets.ReplaceJunk | src/main/java/searchengine/services/SearchingServiceImpl.java:191 | The clean-up pattern is matched literally as the sequence `.!?`, a digit and `@,\_—`. Content without that sequence is unchanged, and the result is never longer. |
| Snippets.QueryMap | src/main/java/searchengine/services/SearchingServiceImpl.java:195-199 | The query loop fails exactly when the morphology rejects some query word. Otherwise it maps the first normal form of every query word to a query word with that form. |
| Snippets.PageMap | src/main/java/searchengine/services/SearchingServiceImpl.java:200-206 | The page map holds only lower-case Cyrillic page words, each under its own first normal form. |
| Snippets.PageKeyFound | src/main/java/searchengine/services/SearchingServiceImpl.java:200-206 | When the morphology reads every lower-case page word, each one's form is a key of the page map. |
| Snippets.QueryKeyFound | src/main/java/searchengine/services/SearchingServiceImpl.java:195-199 | When the morphology reads every query word, each one's form is a key of the query map. |
| Snippets.Join | src/main/java/searchengine/services/SearchingServiceImpl.java:210-218 | The result holds no repeats. A word is in it exactly when it is the query-side or page-side word of a key the two maps share. |
| Snippets.WordsValues | src/main/java/searchengine/services/SearchingServiceImpl.java:189-220 | The returned words are distinct. |
| Snippets.RejectedQueryWord | src/main/java/searchengine/services/SearchingServiceImpl.java:193-209 | A query word the morphology rejects raises before the page loop, so no word is returned. |
| Snippets.ValuesFromInputs | src/main/java/searchengine/services/SearchingServiceImpl.java:195-219 | Every returned word is a query word or a lower-case Cyrillic page word. |
| Snippets.SharedFormFound | src/main/java/searchengine/services/SearchingServiceImpl.java:195-217 | When the morphology reads every word, a query word that shares its form with a page word yields some returned word with that form. |
| Snippets.ValuesMeetPage | src/main/java/searchengine/services/SearchingServiceImpl.java:200-217 | Every returned word shares its first normal form with some lower-case page word. |
| Snippets.UnmatchedQueryWordDropped | src/main/java/searchengine/services/SearchingServiceImpl.java:211-217 | A query word whose form no lower-case page word shares is not returned. |
| Snippets.BoldRoundTrip | src/main/java/searchengine/services/SearchingServiceImpl.java:178-179 | For a sentence and word without `<`, removing the `<b>`/`</b>` marks from the replaced sentence gives the sentence back. |
| Snippets.SnippetPart | src/main/java/searchengine/services/SearchingServiceImpl.java:176-184 | A word contributes nothing exactly when no sentence contains it, ignoring case. |
| Snippets.SnippetPartSentence | src/main/java/searchengine/services/SearchingServiceImpl.java:176-184 | A word's fragment ends in `...`. Without its bold marks it is the first sentence that contains the word, ignoring case. |
| Snippets.CaseOnlyMention | src/main/java/searchengine/services/SearchingServiceImpl.java:177-181 | A sentence that mentions the word only in another case is appended as it is, without bold, followed by `...`. |
| Snippets.RejectedWordEmptySnippet | src/main/java/searchengine/services/SearchingServiceImpl.java:169-187 | A query word the morphology rejects leaves the snippet empty. |
| Snippets.BuildSnippetInOrder | src/main/java/searchengine/services/SearchingServiceImpl.java:169-187 | The snippet is the selected words' fragments joined in the order of the words. Around the fragment of any one word lie the fragments of the words before it and those of the words after it. With no selected word the snippet is empty. |
| Snippets.BuildSnippetEmpty | src/main/java/searchengine/services/SearchingServiceImpl.java:175-185 | The snippet is empty exactly when no sentence contains any selected word, ignoring case. |
| Searching.AddAll | src/main/java/searchengine/services/SearchingServiceImpl.java:43 | Adding to the query-lemma set gives the union, and a repeat-free list stays repeat-free. |
| Searching.GetLemmasFromQuery | src/main/java/searchengine/services/SearchingServiceImpl.java:39-47 | `wordsMap` becomes the counts of the lower-cased query from a fresh lemmatizer. `lemmasQuery` gains exactly its keys and keeps the earlier ones. Every other field (`sortedMap`, `allLemmas`, `countResult`, `indexes`) stays as it was. |
| Searching.RowsWithText | src/main/java/searchengine/services/SearchingServiceImpl.java:66 | The lookup returns exactly the lemma rows of every site with that text. |
| Searching.CollectRows | src/main/java/searchengine/services/SearchingServiceImpl.java:65-68 | The rows collected for the query-lemma set are exactly the stored rows whose text is in the set. |
| Searching.Tally | src/main/java/searchengine/services/SearchingServiceImpl.java:69-75 | The summation loop covers the texts of all rows and adds each row's frequency to its text's total. |
| Searching.TallyEntries | src/main/java/searchengine/services/SearchingServiceImpl.java:62-77 | From an empty map, each text of the rows appears once, with the sum of the frequencies of all its rows over all sites. |
| Searching.SortWords | src/main/java/searchengine/services/SearchingServiceImpl.java:50-54 | Sorting with `ValueComparator` keeps every entry, as a permutation, because the comparator never returns 0. The order is non-decreasing in frequency. |
| Searching.SortedFrequenciesEntries | src/main/java/searchengine/services/SearchingServiceImpl.java:50-77 | The sorted map lists each text of the accumulated rows once, with its summed frequency, in non-decreasing order. |
| Searching.LemmaIds | src/main/java/searchengine/services/SearchingServiceImpl.java:80 | The selected ids are exactly those of the accumulated rows with the lemma's text. |
| Searching.PostingsOf | src/main/java/searchengine/services/SearchingServiceImpl.java:81 | A posting is returned exactly when it is stored and refers to one of the selected lemma rows. |
| Searching.PostingsOfFilter | src/main/java/searchengine/services/SearchingServiceImpl.java:81 | The postings come back in store order, as a subsequence of the stored postings. Each selected posting keeps its number of occurrences and every other posting has none. |
| Searching.PostingsOfAppend | src/main/java/searchengine/services/SearchingServiceImpl.java:81 | The lookup is a filter: on a concatenation it is the concatenation of the two lookups, and a single posting is kept exactly when its lemma row is selected. |
| Searching.Retain | src/main/java/searchengine/services/SearchingServiceImpl.java:84 | `retainAll` keeps exactly the candidates that occur in the other list. |
| Searching.RetainFilter | src/main/java/searchengine/services/SearchingServiceImpl.java:84 | `retainAll` keeps the candidates in their order, as a subsequence. A kept page keeps all its repeats, and a page not in the other list has none. |
| Searching.RetainAppend | src/main/java/searchengine/services/SearchingServiceImpl.java:84 | `retainAll` is a filter: on a concatenation it is the concatenation of the two, and a single page is kept exactly when the other list holds it. |
| Searching.GetPages | src/main/java/searchengine/services/SearchingServiceImpl.java:79-88 | `indexes` becomes the postings of the lemma. With no candidates the result is their pages. Otherwise it is the candidates restricted to those pages. |
| Searching.GetPagesFilter | src/main/java/searchengine/services/SearchingServiceImpl.java:79-88 | `indexes` lists the lemma's postings in store order with their repeats. With candidates, the result is the candidates that have a posting of the lemma, in order and with repeats. Without candidates, it is the page of each posting, one per posting and in the same order. |
| Searching.PagesFold | src/main/java/searchengine/services/SearchingServiceImpl.java:91-98 | No lemmas give the start values. Otherwise every surviving page has a posting among `indexes`, which holds only the last lemma's postings. |
| Searching.PagesConjunctive | src/main/java/searchengine/services/SearchingServiceImpl.java:83-98 | When no step empties the candidate list, every surviving page has a posting of every lemma of the loop. |
| Searching.SortedPagesHaveAllLemmas | src/main/java/searchengine/services/SearchingServiceImpl.java:91-98 | The same for the sorted map's lemmas, starting from an empty list. |
| Searching.EmptyIntersectionForgotten | src/main/java/searchengine/services/SearchingServiceImpl.java:83-87 | When the second lemma empties the candidates, the third lemma starts over: the result is just the third lemma's pages. |
| Searching.RetainNone | src/main/java/searchengine/services/SearchingServiceImpl.java:84 | Retaining against a list that shares no page empties the list. |
| Searching.SearchInfo | src/main/java/searchengine/services/SearchingServiceImpl.java:57-77 | The query lemmas join `lemmasQuery`. The rows of every lemma asked for so far are appended to `allLemmas`. `sortedMap` is their sorted summed frequencies. `countResult` and `indexes` come from the page loop. The site argument is not used. |
| Searching.LemmasLeak | src/main/java/searchengine/services/SearchingServiceImpl.java:39-68 | A stored lemma of an earlier query is still in the sorted map of a later, unrelated query. |
| Searching.SearchTwiceDoubles | src/main/java/searchengine/services/SearchingServiceImpl.java:62-75 | Running the same query twice on a fresh service doubles every summed frequency, because the rows are appended again. |
| Searching.SortedPagesRanked | src/main/java/searchengine/services/SearchingServiceImpl.java:149-156 | With positive ranks, every candidate page has absolute relevance of at least 1 from the last lemma's postings. |
| Searching.NormalizeBounds | src/main/java/searchengine/services/SearchingServiceImpl.java:158-162 | Dividing positive relevances by their maximum gives values in (0, 1], and some page gets exactly 1. |
| Searching.SortDesc | src/main/java/searchengine/services/SearchingServiceImpl.java:163-164 | The sort by value, largest first, is a permutation and is non-increasing. |
| Searching.RelevancesShape | src/main/java/searchengine/services/SearchingServiceImpl.java:149-164 | For pages with positive rank sums, the result names each page exactly once. The values are best first, and each is the page's rank sum divided by the largest rank sum of the pages, so they lie in (0, 1] and the first is 1. |
| Searching.CalculateRelevance | src/main/java/searchengine/services/SearchingServiceImpl.java:147-167 | When every stored rank is positive, `calculateRelevance` over the pages of `getSortedPages` is such a relevance list: each page once, best first, with each value its rank sum over `indexes` divided by the largest. |
| Searching.Items | src/main/java/searchengine/services/SearchingServiceImpl.java:108-123 | The loop succeeds exactly when every page and its site row exist. Without a filter there is one item per entry. With a filter every item has that site url. |
| Searching.ItemsUnfiltered | src/main/java/searchengine/services/SearchingServiceImpl.java:108-145 | Without a filter, the i-th item carries the i-th entry's relevance and its page's path. |
| Searching.ItemsFiltered | src/main/java/searchengine/services/SearchingServiceImpl.java:108-123 | With a site filter, the items are exactly the entries whose page belongs to that site, in order: the i-th item carries the i-th such entry's relevance, its page's path, and the filter's url. |
| Searching.Paginate | src/main/java/searchengine/services/SearchingServiceImpl.java:126-130 | A list no longer than `limit` is returned whole. A longer one gives the slice `[offset, offset+limit)`. That fails exactly when the bounds are out of range. |
| Searching.GetResultResponse | src/main/java/searchengine/services/SearchingServiceImpl.java:100-133 | No candidates give result true, count 0 and no data. Otherwise the count is `countResult`, the data has at most `limit` items, and with a site filter every item is of that site. |
| Searching.CountIgnoresSiteFilter | src/main/java/searchengine/services/SearchingServiceImpl.java:125 | The count does not depend on the site filter. |
| Searching.OffsetIgnoredWhenFew | src/main/java/searchengine/services/SearchingServiceImpl.java:126-130 | When the items fit within `limit`, the offset has no effect and the response succeeds. |

## Left out

- Network fetching: Jsoup `connect`/`get`/`execute` become one abstract outcome per url. `Thread.sleep` is dropped. Jsoup's `get()` returns a parsed document or throws, never null, so the null check of lines 163-164 is left out; its handler would throw a `NullPointerException` at `document.html()` on line 182.
- Concurrency: `ForkJoinPool` `fork`/`join`/`shutdownNow`, the `CopyOnWriteArraySet` of indexed links and the monitor are left out. The monitor around the crawl step already serialises the page steps, so the crawl is a depth-first walk with children in link order. A stop request is an event that lands between two tasks after a given number of fetches.
- Indexing.Compute: the crawl carries a depth bound (`fuel`). As written, a page whose path belongs to another site spawns its children without being marked indexed, so a self-link loops forever (Indexing.RefetchLoop). The bound cuts that off and leaves deeper crawls unmodelled.
- Indexing.ProcessedOnce: "exactly once among the fetches" relies on the network giving one fixed outcome per url (`Env.fetch`). Over a real network, a first fetch of a url can raise an HTTP-status error and save an error page at `url.replaceAll(siteUrl, "/")` without marking the url. A later link to it passes the re-check of IndexingServiceImpl.java line 131, the second fetch succeeds, and lines 172-177 find that path for this site and mark the url. That url is then marked once but fetched twice.
- Indexing.LoadedPage: when the path already belongs to this site, the page object is not saved. The code still runs the index builder on it. The model skips that run, because what JPA does with the unsaved page is not visible here.
- Indexing.CrawlSite: how a site's traversal ends, normally or with an exception and its message, is an input (`Env.ends`). The model does not derive which exception `invoke` rethrows.
- Lemmatizer.GetLemmasFromText: the morphology is assumed to read every `а-я` token. The exception it would raise for an unreadable token is not modelled, whereas `getWordsValues` does model the rejection.
- Lucene `RussianLuceneMorphology` is the abstract `Morphology`: `normalForms` is never empty, with `morphInfo` and `accepts` beside it.
- Jsoup HTML parsing (`title()`, `body().text()`, `html()`) and `java.net.URL` path and host extraction are abstract inputs.
- Entities.InsertPage: the unique `path_index` on `page.path` (Page.java line 14) is taken as enforced, so a save with a taken path fails. The column is `TEXT` (line 28), and MySQL creates no unique index on a `TEXT` column without a key length (error 1170); Hibernate's schema update logs that failure and carries on. Without the index, duplicate paths would be stored. The model does not cover that deployment. The page-step results (Indexing.ErrorPage, Indexing.RefetchLoop) and Indexing.ProcessedOnce rely on unique paths.
- Spring Data repositories and JPA are an in-memory `Store`:
  - one id counter serves all four tables and is never reset;
  - a page is identified by its id;
  - a missing page or site row behind a search hit is an error (`Err`) instead of a `NullPointerException`.
- Iteration orders of `HashMap`/`HashSet` are unspecified. The model uses insertion order for `lemmasQuery`, the relevance map's keys and `resValues`, and the sorted order of a `TreeMap` where the code has one.
- Row orders are taken as the store's order: `findAllByLemmaOrderByFrequencyAsc` does not sort by frequency (only the sums are used), and `findAllByLemmaIn` returns postings in store order.
- Links.ErrorPathUnderSite: configured site urls are assumed to contain no regular-expression metacharacter other than `.`. `ErrorPath` reads the site url on line 182 with `.` matching any character but a line terminator and every other character literally. Java would also interpret `?`, `*`, `+`, `(`, `[`, `{`, `^`, `$`, `|` and `\`, so for a site url holding one of them the modelled path can differ from the one Java computes.
- `replaceAll` patterns: the snippet's bolding `sentence.replaceAll(word, ...)` treats the word literally, which matches the code for the Cyrillic letters a word can hold.
- `toLowerCase`/`toUpperCase` cover the Latin and Cyrillic letters only (`A-Z`, `А-Я`, `Ѐ-Џ` and their lower cases). Other scripts are left as they are.
- Searching.CalculateRelevance: `float` relevance is a `real`, so rounding and NaN are not modelled. `calculateRelevance()` is called twice in `getResultResponse` and modelled as evaluated once, since both calls see the same state.
- Java `int` overflow of frequencies, ranks and counts is not modelled; they are unbounded naturals.
- `LocalDateTime.now()` is one abstract time per operation.
- `ApiController`, `StatisticsServiceImpl`, the service interfaces, the DTOs, `SitesList`, logging and `printStackTrace` are not part of this model.

=== FILE: entities.dfy ===
/**
 * The four persistent entities (`Site`, `Page`, `Lemma`, `Index`) and an in-memory
 * store standing for their repositories. Entity references are ids; ids come from one
 * counter that never goes back (auto-increment keys are not reused after `deleteAll`).
 */
module Entities {
  import opened Wrappers

  datatype Status = INDEXING | INDEXED | FAILED

  /** A `LocalDateTime`, kept abstract. */
  type Time = nat

  datatype Site = Site(id: nat, status: Status, statusTime: Time, lastError: Option<string>, url: string, name: string)

  /** `path` is unique over the whole table, not only within a site. */
  datatype Page = Page(id: nat, siteId: nat, path: string, code: int, content: string)

  /** `frequency` counts the index-builder runs of the site that met the lemma. */
  datatype Lemma = Lemma(id: nat, siteId: nat, text: string, frequency: nat)

  /** A row of `search_index`: the lemma's occurrence count in the page is the rank. */
  datatype Posting = Posting(id: nat, pageId: nat, lemmaId: nat, rank: nat)

  /** One entry of the configured site list. */
  datatype SiteConfig = SiteConfig(url: string, name: string)

  datatype Store = Store(sites: seq<Site>, pages: seq<Page>, lemmas: seq<Lemma>, postings: seq<Posting>, nextId: nat)

  function EmptyStore(nextId: nat): Store {
    Store([], [], [], [], nextId)
  }

  // ---------------------------------------------------------------- invariants

  ghost predicate IdsBelowNext(st: Store) {
    && (forall i :: 0 <= i < |st.sites| ==> st.sites[i].id < st.nextId)
    && (forall i :: 0 <= i < |st.pages| ==> st.pages[i].id < st.nextId)
    && (forall i :: 0 <= i < |st.lemmas| ==> st.lemmas[i].id < st.nextId)
    && (forall i :: 0 <= i < |st.postings| ==> st.postings[i].id < st.nextId)
  }

  ghost predicate UniquePageIds(st: Store) {
    forall i, j :: 0 <= i < j < |st.pages| ==> st.pages[i].id != st.pages[j].id
  }

  /** The unique index on `page.path`. */
  ghost predicate UniquePaths(st: Store) {
    forall i, j :: 0 <= i < j < |st.pages| ==> st.pages[i].path != st.pages[j].path
  }

  ghost predicate UniqueLemmaIds(st: Store) {
    forall i, j :: 0 <= i < j < |st.lemmas| ==> st.lemmas[i].id != st.lemmas[j].id
  }

  /** At most one lemma row per site and text. */
  ghost predicate UniqueLemmas(st: Store) {
    forall i, j :: 0 <= i < j < |st.lemmas| ==>
      !(st.lemmas[i].siteId == st.lemmas[j].siteId && st.lemmas[i].text == st.lemmas[j].text)
  }

  ghost predicate PositiveRanks(st: Store) {
    forall i :: 0 <= i < |st.postings| ==> st.postings[i].rank >= 1
  }

  ghost predicate HasPage(st: Store, id: nat) {
    exists j :: 0 <= j < |st.pages| && st.pages[j].id == id
  }

  /** Every posting refers to a stored page (cascade delete keeps this). */
  ghost predicate PostingsOfPages(st: Store) {
    forall i :: 0 <= i < |st.postings| ==> HasPage(st, st.postings[i].pageId)
  }

  ghost predicate WellFormed(st: Store) {
    && IdsBelowNext(st)
    && UniquePageIds(st)
    && UniquePaths(st)
    && UniqueLemmaIds(st)
    && UniqueLemmas(st)
    && PositiveRanks(st)
    && PostingsOfPages(st)
  }

  lemma EmptyWellFormed(n: nat)
    ensures WellFormed(EmptyStore(n))
  {
  }

  // ---------------------------------------------------------------- sites

  /** `siteRep.existsByStatus(status)`. */
  predicate ExistsSiteWithStatus(st: Store, status: Status) {
    exists i :: 0 <= i < |st.sites| && st.sites[i].status == status
  }

  /** `siteRep.save(site)` for a site that may already be stored: the row with its id is overwritten, or appended. */
  function SaveSite(st: Store, site: Site): (r: Store)
    ensures r.pages == st.pages && r.lemmas == st.lemmas && r.postings == st.postings && r.nextId == st.nextId
    ensures site in r.sites
    ensures forall s :: s in r.sites ==> s in st.sites || s == site
    ensures forall s :: s in st.sites && s.id != site.id ==> s in r.sites
    ensures SiteById(r.sites, site.id) == Some(site)
  {
    OverwriteFound(st.sites, site);
    st.(sites := Overwrite(st.sites, site))
  }

  /** The row written is the first one with its id, so a lookup by id finds it. */
  lemma {:induction false} OverwriteFound(sites: seq<Site>, site: Site)
    ensures SiteById(Overwrite(sites, site), site.id) == Some(site)
  {
    if |sites| > 0 && sites[0].id != site.id {
      OverwriteFound(sites[1..], site);
    }
  }

  function Overwrite(sites: seq<Site>, site: Site): (r: seq<Site>)
    ensures site in r
    ensures forall s :: s in r ==> s in sites || s == site
    ensures forall s :: s in sites && s.id != site.id ==> s in r
  {
    if |sites| == 0 then [site]
    else if sites[0].id == site.id then [site] + sites[1..]
    else [sites[0]] + Overwrite(sites[1..], site)
  }

  lemma SaveSiteWellFormed(st: Store, site: Site)
    requires WellFormed(st) && site.id < st.nextId
    ensures WellFormed(SaveSite(st, site))
  {
    var r := SaveSite(st, site);
    forall i | 0 <= i < |r.sites| ensures r.sites[i].id < r.nextId {
      assert r.sites[i] in r.sites;
    }
    assert forall i :: 0 <= i < |r.postings| ==> HasPage(r, r.postings[i].pageId) by {
      forall i | 0 <= i < |r.postings| ensures HasPage(r, r.postings[i].pageId) {
        assert HasPage(st, st.postings[i].pageId);
      }
    }
  }

  /** The outcome of a repository query that must find at most one row. */
  datatype Single<T> = NoRow | OneRow(row: T) | ManyRows

  function CountSitesWithUrl(sites: seq<Site>, url: string): nat {
    if |sites| == 0 then 0 else (if sites[0].url == url then 1 else 0) + CountSitesWithUrl(sites[1..], url)
  }

  function FirstSiteWithUrl(sites: seq<Site>, url: string): (r: Option<Site>)
    ensures r.Some? ==> r.value in sites && r.value.url == url
    ensures r.None? ==> forall s :: s in sites ==> s.url != url
  {
    if |sites| == 0 then None
    else if sites[0].url == url then Some(sites[0])
    else FirstSiteWithUrl(sites[1..], url)
  }

  /** `siteRep.findSiteByUrl(url)`: the one site with that url; more than one raises. */
  function FindSiteByUrl(st: Store, url: string): (r: Single<Site>)
    ensures r.OneRow? ==> r.row in st.sites && r.row.url == url
    ensures r.NoRow? ==> forall s :: s in st.sites ==> s.url != url
  {
    var n := CountSitesWithUrl(st.sites, url);
    if n > 1 then ManyRows
    else match FirstSiteWithUrl(st.sites, url)
      case None => NoRow
      case Some(s) => OneRow(s)
  }

  function SiteById(sites: seq<Site>, id: nat): (r: Option<Site>)
    ensures r.Some? ==> r.value in sites && r.value.id == id
  {
    if |sites| == 0 then None
    else if sites[0].id == id then Some(sites[0])
    else SiteById(sites[1..], id)
  }

  // ---------------------------------------------------------------- pages

  /** `pageRep.existsPageByPath(path)`, over all sites. */
  predicate ExistsPageByPath(st: Store, path: string) {
    exists i :: 0 <= i < |st.pages| && st.pages[i].path == path
  }

  /** `pageRep.existsPageByPathAndAndSite(path, site)`. */
  predicate ExistsPageByPathAndSite(st: Store, path: string, site: nat) {
    exists i :: 0 <= i < |st.pages| && st.pages[i].path == path && st.pages[i].siteId == site
  }

  function FirstPageWithPath(pages: seq<Page>, path: string): (r: Option<Page>)
    ensures r.Some? ==> r.value in pages && r.value.path == path
    ensures r.None? ==> forall p :: p in pages ==> p.path != path
  {
    if |pages| == 0 then None
    else if pages[0].path == path then Some(pages[0])
    else FirstPageWithPath(pages[1..], path)
  }

  /** `pageRep.findPageByPath(path)`; the unique index leaves at most one candidate. */
  function FindPageByPath(st: Store, path: string): (r: Option<Page>)
    ensures r.Some? ==> r.value in st.pages && r.value.path == path
    ensures r.None? <==> !ExistsPageByPath(st, path)
  {
    var r := FirstPageWithPath(st.pages, path);
    assert r.Some? ==> ExistsPageByPath(st, path) by {
      if r.Some? {
        var i :| 0 <= i < |st.pages| && st.pages[i] == r.value;
      }
    }
    r
  }

  function PageById(pages: seq<Page>, id: nat): (r: Option<Page>)
    ensures r.Some? ==> r.value in pages && r.value.id == id
    ensures r.None? ==> forall p :: p in pages ==> p.id != id
  {
    if |pages| == 0 then None
    else if pages[0].id == id then Some(pages[0])
    else PageById(pages[1..], id)
  }

  /**
   * `pageRep.save(new Page(...))`: a fresh row, unless the unique index on `path`
   * rejects it because some page of any site already has that path.
   */
  function InsertPage(st: Store, site: nat, path: string, code: int, content: string): (r: Result<(Store, Page)>)
    ensures r.Err? <==> ExistsPageByPath(st, path)
    ensures r.Ok? ==> var (st', page) := r.value;
      && page == Page(st.nextId, site, path, code, content)
      && st' == st.(pages := st.pages + [page], nextId := st.nextId + 1)
  {
    if ExistsPageByPath(st, path) then Err("duplicate page path")
    else
      var page := Page(st.nextId, site, path, code, content);
      Ok((st.(pages := st.pages + [page], nextId := st.nextId + 1), page))
  }

  lemma InsertPageWellFormed(st: Store, site: nat, path: string, code: int, content: string)
    requires WellFormed(st)
    requires InsertPage(st, site, path, code, content).Ok?
    ensures WellFormed(InsertPage(st, site, path, code, content).value.0)
  {
    var r := InsertPage(st, site, path, code, content).value.0;
    forall i | 0 <= i < |r.postings| ensures HasPage(r, r.postings[i].pageId) {
      assert HasPage(st, st.postings[i].pageId);
      var j :| 0 <= j < |st.pages| && st.pages[j].id == st.postings[i].pageId;
      assert r.pages[j] == st.pages[j];
    }
  }

  function PagesWithoutId(pages: seq<Page>, id: nat): (r: seq<Page>)
    ensures forall p :: p in r <==> p in pages && p.id != id
    ensures |r| <= |pages|
  {
    if |pages| == 0 then []
    else if pages[0].id == id then PagesWithoutId(pages[1..], id)
    else [pages[0]] + PagesWithoutId(pages[1..], id)
  }

  function PostingsNotOfPage(postings: seq<Posting>, page: nat): (r: seq<Posting>)
    ensures forall x :: x in r <==> x in postings && x.pageId != page
  {
    if |postings| == 0 then []
    else if postings[0].pageId == page then PostingsNotOfPage(postings[1..], page)
    else [postings[0]] + PostingsNotOfPage(postings[1..], page)
  }

  /** `pageRep.delete(page)`: the page goes, and its postings with it (`ON DELETE CASCADE`). */
  function DeletePage(st: Store, page: nat): (r: Store)
    ensures r.sites == st.sites && r.lemmas == st.lemmas && r.nextId == st.nextId
    ensures forall p :: p in r.pages <==> p in st.pages && p.id != page
    ensures forall x :: x in r.postings <==> x in st.postings && x.pageId != page
  {
    st.(pages := PagesWithoutId(st.pages, page), postings := PostingsNotOfPage(st.postings, page))
  }

  ghost predicate DistinctPages(pages: seq<Page>) {
    forall i, j :: 0 <= i < j < |pages| ==> pages[i].id != pages[j].id && pages[i].path != pages[j].path
  }

  /** Removing pages keeps ids and paths pairwise distinct. */
  lemma {:induction false} PagesWithoutIdDistinct(pages: seq<Page>, id: nat)
    requires DistinctPages(pages)
    ensures DistinctPages(PagesWithoutId(pages, id))
  {
    if |pages| > 0 {
      PagesWithoutIdDistinct(pages[1..], id);
      var rest := PagesWithoutId(pages[1..], id);
      if pages[0].id != id {
        var r := [pages[0]] + rest;
        forall j | 0 < j < |r| ensures pages[0].id != r[j].id && pages[0].path != r[j].path {
          assert r[j] in rest;
          var k :| 0 <= k < |pages[1..]| && pages[1..][k] == r[j];
          assert pages[k + 1] == r[j];
        }
        assert PagesWithoutId(pages, id) == r;
      }
    }
  }

  lemma DeletePageWellFormed(st: Store, page: nat)
    requires WellFormed(st)
    ensures WellFormed(DeletePage(st, page))
  {
    var r := DeletePage(st, page);
    assert DistinctPages(st.pages);
    PagesWithoutIdDistinct(st.pages, page);
    assert UniquePageIds(r) && UniquePaths(r);
    DeletePageIds(st, page);
    DeletePagePostings(st, page);
  }

  lemma DeletePageIds(st: Store, page: nat)
    requires WellFormed(st)
    ensures IdsBelowNext(DeletePage(st, page)) && PositiveRanks(DeletePage(st, page))
  {
    var r := DeletePage(st, page);
    forall i | 0 <= i < |r.pages| ensures r.pages[i].id < r.nextId {
      assert r.pages[i] in st.pages;
    }
    forall i | 0 <= i < |r.postings| ensures r.postings[i].id < r.nextId && r.postings[i].rank >= 1 {
      assert r.postings[i] in st.postings;
    }
  }

  /** The postings left all refer to pages left: the page's postings go with it. */
  lemma DeletePagePostings(st: Store, page: nat)
    requires PostingsOfPages(st)
    ensures PostingsOfPages(DeletePage(st, page))
  {
    var r := DeletePage(st, page);
    forall i | 0 <= i < |r.postings| ensures HasPage(r, r.postings[i].pageId) {
      var x := r.postings[i];
      assert x in st.postings && x.pageId != page;
      var i0 :| 0 <= i0 < |st.postings| && st.postings[i0] == x;
      assert HasPage(st, st.postings[i0].pageId);
      var j :| 0 <= j < |st.pages| && st.pages[j].id == x.pageId;
      assert st.pages[j] in r.pages;
      var j' :| 0 <= j' < |r.pages| && r.pages[j'] == st.pages[j];
    }
  }

  // ---------------------------------------------------------------- lemmas

  /** `lemmaRep.findLemmaByLemmaAndSite(text, site)`, as the index of the row. */
  function FindLemma(lemmas: seq<Lemma>, text: string, site: nat): (r: Option<nat>)
    ensures r.Some? ==> r.value < |lemmas| && lemmas[r.value].text == text && lemmas[r.value].siteId == site
    ensures r.None? ==> forall i :: 0 <= i < |lemmas| ==> !(lemmas[i].text == text && lemmas[i].siteId == site)
  {
    if |lemmas| == 0 then None
    else if lemmas[0].text == text && lemmas[0].siteId == site then Some(0)
    else match FindLemma(lemmas[1..], text, site)
      case None => None
      case Some(i) => Some(i + 1)
  }

  // ---------------------------------------------------------------- reset

  /** `deleteAll()` on the four repositories. */
  function ClearAll(st: Store): (r: Store)
    ensures r.sites == [] && r.pages == [] && r.lemmas == [] && r.postings == []
    ensures r.nextId == st.nextId
  {
    EmptyStore(st.nextId)
  }
}

=== FILE: indexing.dfy ===
/**
 * The indexing service: the HTTP-status bookkeeping of a fetched page, one page's
 * indexing step, the recursive crawl of a site, stopping, the start-up loop over the
 * configured sites, the re-indexing of one page, and clearing the repositories.
 *
 * The crawl runs every guarded section under one lock, so it is a sequence of page
 * steps; the model runs them depth first with the children in link order. Fetching,
 * URL parsing, morphology, the clock and the way a traversal ends are inputs (`Env`).
 */
module Indexing {
  import opened Wrappers
  import opened TreeMap
  import opened Entities
  import opened Links
  import opened Lemmatizer

  // ---------------------------------------------------------------- HTTP status

  const StopMessage: string := "Индексация остановлена пользователем"
  const UnknownError: string := "Неизвестная ошибка при индексации"

  /** The status codes with a message of their own (200 has none). */
  const ListedCodes: set<int> := {301, 302, 400, 401, 403, 404, 405, 500}

  /** The `lastError` that `pageStatus` writes for a code; `None` leaves the site alone. */
  function StatusMessage(code: int): (r: Option<string>)
    ensures r.None? <==> code == 200
    ensures r == Some(UnknownError) <==> code != 200 && code !in ListedCodes
  {
    match code
    case 200 => None
    case 301 => Some("Страница была перемещена")
    case 302 => Some("Cтраница временно недоступна по данному адресу")
    case 400 => Some("Некорректный запрос")
    case 401 => Some("Требуется аутентифиация")
    case 403 => Some("Доступ к ресурсу ограничен")
    case 404 => Some("Cтраница не найдена")
    case 405 => Some("Метод нельзя применить к текущему ресурсу")
    case 500 => Some("Ошибка на стороне сервера")
    case _ => Some(UnknownError)
  }

  /**
   * `pageStatus(page, site, code)`: for any code but 200 the site gets that code's
   * message as its last error and is saved; the page's code is the status code either way.
   */
  function PageStatus(st: Store, site: Site, code: int): (r: (Store, Site))
    ensures r.1 == site.(lastError := r.1.lastError)
    ensures code == 200 ==> r == (st, site)
    ensures code != 200 ==> r.1.lastError == StatusMessage(code) && SiteById(r.0.sites, site.id) == Some(r.1)
    ensures r.0.pages == st.pages && r.0.lemmas == st.lemmas && r.0.postings == st.postings && r.0.nextId == st.nextId
    ensures forall s :: s in st.sites && s.id != site.id ==> s in r.0.sites
  {
    match StatusMessage(code)
    case None => (st, site)
    case Some(msg) =>
      var s := site.(lastError := Some(msg));
      (SaveSite(st, s), s)
  }

  // ---------------------------------------------------------------- inputs

  /** A parsed document: its html and the absolute urls of its `a` elements. */
  datatype Doc = Doc(html: string, links: seq<string>)

  /**
   * How fetching a url ends: both requests succeed with the second one's status code,
   * a request raises `HttpStatusException` with a code, or anything else raises.
   */
  datatype Outcome = Loaded(code: int) | StatusError(code: int) | Broken

  /** The document as the fetch left it (empty when `get` itself failed) and the outcome. */
  datatype Fetch = Fetch(doc: Doc, outcome: Outcome)

  /** What `new URL(url)` yields, when the url parses. */
  datatype UrlParts = UrlParts(host: string, path: string)

  /** How the traversal of a site ends: normally, or with an exception and its message. */
  datatype Escape = Normal | Raised(message: Option<string>)

  datatype Env = Env(
    fetch: string -> Fetch,
    parse: string -> Option<UrlParts>,
    morph: Morphology,
    now: Time,
    ends: nat -> Escape)

  // ---------------------------------------------------------------- service state

  /**
   * The service's fields and the shared set of indexed links. `site` is the one
   * in-memory site object all tasks of a crawl share; `poolStarted` says whether a
   * fork-join pool exists. `pendingStop == Some(k)` is a stop request that is honoured
   * at the first task entry after `k` page fetches; `trace` lists the fetched urls.
   */
  datatype Service = Service(
    store: Store,
    site: Option<Site>,
    lastError: Option<string>,
    isIndexing: bool,
    parentLink: string,
    poolStarted: bool,
    visited: set<string>,
    pendingStop: Option<nat>,
    trace: seq<string>)

  /** The service as the application starts it. */
  function Initial(st: Store): (r: Service)
    ensures !r.isIndexing && r.visited == {} && r.site.None? && r.trace == []
  {
    Service(st, None, None, false, "", false, {}, None, [])
  }

  ghost predicate Valid(svc: Service) {
    WellFormed(svc.store) && (svc.site.Some? ==> svc.site.value.id < svc.store.nextId)
  }

  /** Both absent, or the same site row with possibly other status fields. */
  predicate SameSite(a: Option<Site>, b: Option<Site>) {
    && (a.None? <==> b.None?)
    && (a.Some? && b.Some? ==> b.value.id == a.value.id && b.value.url == a.value.url && b.value.name == a.value.name)
  }

  /** Rows of sites other than the current one survive. */
  ghost predicate OtherRowsKept(a: Service, b: Service) {
    forall s :: s in a.store.sites && (a.site.None? || s.id != a.site.value.id) ==> s in b.store.sites
  }

  /** Pages are only appended, with fresh ids. */
  ghost predicate PagesGrow(a: Store, b: Store) {
    && a.pages <= b.pages
    && forall i :: |a.pages| <= i < |b.pages| ==> b.pages[i].id >= a.nextId
  }

  /**
   * What any part of a crawl keeps: the parent link, the shared site row, rows of
   * other sites, the pages before it; it only adds indexed links and fetched urls, and
   * every url it fetches was a valid, not yet indexed link. Only a stop turns
   * `isIndexing` off, and a crawl that is off fetches nothing.
   */
  ghost predicate Grows(a: Service, b: Service) {
    && b.parentLink == a.parentLink
    && b.lastError == a.lastError
    && b.poolStarted == a.poolStarted
    && a.visited <= b.visited
    && a.trace <= b.trace
    && (forall i :: |a.trace| <= i < |b.trace| ==> IsValidLink(b.trace[i], a.parentLink) && b.trace[i] !in a.visited)
    && SameSite(a.site, b.site)
    && b.store.nextId >= a.store.nextId
    && OtherRowsKept(a, b)
    && PagesGrow(a.store, b.store)
    && (b.isIndexing ==> a.isIndexing)
    && (!a.isIndexing ==> b.trace == a.trace)
    && (a.pendingStop.None? ==> b.pendingStop.None? && b.isIndexing == a.isIndexing)
  }

  lemma GrowsTransitive(a: Service, b: Service, c: Service)
    requires Grows(a, b) && Grows(b, c)
    ensures Grows(a, c)
  {
    forall i | |b.trace| <= i < |c.trace| ensures c.trace[i] !in a.visited {
      assert c.trace[i] !in b.visited;
    }
    forall i | |a.trace| <= i < |b.trace| ensures c.trace[i] == b.trace[i] {
    }
    forall i | |a.store.pages| <= i < |c.store.pages| ensures c.store.pages[i].id >= a.store.nextId {
      if i < |b.store.pages| {
        assert c.store.pages[i] == b.store.pages[i];
      }
    }
  }

  // ---------------------------------------------------------------- one page

  /** The result of `indexingPage`: the state, the returned document, and whether an exception escaped. */
  datatype PageRun = PageRun(svc: Service, doc: Doc, escaped: bool)

  /** When the page step adds its url to the indexed links. */
  predicate Kept(svc: Service, url: string, env: Env) {
    && env.fetch(url).outcome.Loaded?
    && env.parse(url).Some?
    && svc.site.Some?
    && var path := env.parse(url).value.path;
       (ExistsPageByPathAndSite(svc.store, path, svc.site.value.id) || !ExistsPageByPath(svc.store, path))
  }

  /** When the page step raises: an error page without a site, or whose path is taken. */
  predicate ErrorPageRejected(svc: Service, url: string, env: Env) {
    && env.fetch(url).outcome.StatusError?
    && (svc.site.None? || ExistsPageByPath(svc.store, ErrorPath(url, svc.site.value.url)))
  }

  /** The fields a page step never touches. */
  predicate PageStepKeeps(a: Service, b: Service) {
    && b.isIndexing == a.isIndexing && b.parentLink == a.parentLink && b.poolStarted == a.poolStarted
    && b.lastError == a.lastError && b.pendingStop == a.pendingStop && b.trace == a.trace
  }

  /** `indexingPage(url, site)`. */
  function IndexingPage(svc: Service, url: string, env: Env): (r: PageRun)
    ensures r.doc == env.fetch(url).doc
    ensures PageStepKeeps(svc, r.svc)
    ensures r.svc.visited == if Kept(svc, url, env) then svc.visited + {url} else svc.visited
    ensures r.escaped <==> ErrorPageRejected(svc, url, env)
    ensures Grows(svc, r.svc)
    ensures |r.svc.store.pages| <= |svc.store.pages| + 1
  {
    var f := env.fetch(url);
    match f.outcome
    case Broken => PageRun(svc, f.doc, false)
    case Loaded(code) => LoadedPage(svc, url, f.doc, code, env)
    case StatusError(code) => ErrorPage(svc, url, f.doc, code)
  }

  /**
   * The successful fetch: record the status, stamp the site, save the page unless this
   * site already has its path, and then mark the url indexed and index a new page. A
   * path that another site owns makes the save raise, which the step swallows before
   * marking the url.
   */
  function LoadedPage(svc: Service, url: string, doc: Doc, code: int, env: Env): (r: PageRun)
    requires env.fetch(url).outcome == Loaded(code)
    ensures PageStepKeeps(svc, r.svc) && !r.escaped && r.doc == doc
    ensures r.svc.visited == if Kept(svc, url, env) then svc.visited + {url} else svc.visited
    ensures Grows(svc, r.svc)
    ensures |r.svc.store.pages| <= |svc.store.pages| + 1
  {
    match (env.parse(url), svc.site)
    case (None, _) => PageRun(svc, doc, false)
    case (_, None) => PageRun(svc, doc, false)
    case (Some(parts), Some(site)) =>
      var (st1, site1) := PageStatus(svc.store, site, code);
      var site2 := site1.(statusTime := env.now);
      if ExistsPageByPathAndSite(st1, parts.path, site.id) then
        PageRun(svc.(store := st1, site := Some(site2), visited := svc.visited + {url}), doc, false)
      else match InsertPage(st1, site.id, parts.path, code, doc.html)
        case Err(_) => PageRun(svc.(store := st1, site := Some(site2)), doc, false)
        case Ok((st2, page)) =>
          var st3 := SaveSite(st2, site2);
          var st4 := IndexPage(st3, [], page, site.id, env.morph).0;
          assert st4.pages == st2.pages;
          PageRun(svc.(store := st4, site := Some(site2), visited := svc.visited + {url}), doc, false)
  }

  /**
   * The `HttpStatusException` handler: record the status and save an error page whose
   * path is the url with the site's url replaced by "/". The url is not marked indexed.
   */
  function ErrorPage(svc: Service, url: string, doc: Doc, code: int): (r: PageRun)
    ensures PageStepKeeps(svc, r.svc) && r.svc.visited == svc.visited && r.doc == doc
    ensures r.escaped <==> svc.site.None? || ExistsPageByPath(svc.store, ErrorPath(url, svc.site.value.url))
    ensures Grows(svc, r.svc)
    ensures |r.svc.store.pages| <= |svc.store.pages| + 1
  {
    match svc.site
    case None => PageRun(svc, doc, true)
    case Some(site) =>
      var path := ErrorPath(url, site.url);
      var (st1, site1) := PageStatus(svc.store, site, code);
      match InsertPage(st1, site.id, path, code, doc.html)
      case Err(_) => PageRun(svc.(store := st1, site := Some(site1)), doc, true)
      case Ok((st2, _)) => PageRun(svc.(store := st2, site := Some(site1)), doc, false)
  }

  /** A successfully loaded page whose path is free is stored with this site and its code, and marked indexed. */
  lemma LoadedPageStored(svc: Service, url: string, env: Env)
    requires env.fetch(url).outcome.Loaded? && env.parse(url).Some? && svc.site.Some?
    requires !ExistsPageByPath(svc.store, env.parse(url).value.path)
    ensures var r := IndexingPage(svc, url, env).svc;
      && url in r.visited
      && Page(svc.store.nextId, svc.site.value.id, env.parse(url).value.path, env.fetch(url).outcome.code, env.fetch(url).doc.html) in r.store.pages
      && SiteById(r.store.sites, svc.site.value.id) == r.site
      && r.site.value.statusTime == env.now
  {
    var site := svc.site.value;
    var code := env.fetch(url).outcome.code;
    var (st1, site1) := PageStatus(svc.store, site, code);
    assert !ExistsPageByPathAndSite(st1, env.parse(url).value.path, site.id);
  }

  /** A page step keeps the store's invariants. */
  lemma IndexingPageValid(svc: Service, url: string, env: Env)
    requires Valid(svc)
    ensures Valid(IndexingPage(svc, url, env).svc)
  {
    var f := env.fetch(url);
    match f.outcome
    case Broken =>
    case StatusError(code) => ErrorPageValid(svc, url, f.doc, code);
    case Loaded(code) => LoadedPageValid(svc, url, f.doc, code, env);
  }

  lemma ErrorPageValid(svc: Service, url: string, doc: Doc, code: int)
    requires Valid(svc)
    ensures Valid(ErrorPage(svc, url, doc, code).svc)
  {
    if svc.site.Some? {
      var site := svc.site.value;
      PageStatusWellFormed(svc.store, site, code);
      var st1 := PageStatus(svc.store, site, code).0;
      var path := ErrorPath(url, site.url);
      if InsertPage(st1, site.id, path, code, doc.html).Ok? {
        InsertPageWellFormed(st1, site.id, path, code, doc.html);
      }
    }
  }

  lemma LoadedPageValid(svc: Service, url: string, doc: Doc, code: int, env: Env)
    requires Valid(svc) && env.fetch(url).outcome == Loaded(code)
    ensures Valid(LoadedPage(svc, url, doc, code, env).svc)
  {
    if svc.site.Some? && env.parse(url).Some? {
      var site := svc.site.value;
      PageStatusWellFormed(svc.store, site, code);
      var (st1, site1) := PageStatus(svc.store, site, code);
      var path := env.parse(url).value.path;
      if !ExistsPageByPathAndSite(st1, path, site.id) && InsertPage(st1, site.id, path, code, doc.html).Ok? {
        InsertPageWellFormed(st1, site.id, path, code, doc.html);
        var (st2, page) := InsertPage(st1, site.id, path, code, doc.html).value;
        var site2 := site1.(statusTime := env.now);
        SaveSiteWellFormed(st2, site2);
        var st3 := SaveSite(st2, site2);
        assert HasPage(st3, page.id) by {
          assert st3.pages[|st3.pages| - 1] == page;
        }
        IndexPageWellFormed(st3, [], page, site.id, env.morph);
      }
    }
  }

  lemma PageStatusWellFormed(st: Store, site: Site, code: int)
    requires WellFormed(st) && site.id < st.nextId
    ensures WellFormed(PageStatus(st, site, code).0)
  {
    if code != 200 {
      SaveSiteWellFormed(st, PageStatus(st, site, code).1);
    }
  }

  // ---------------------------------------------------------------- stopping

  /**
   * `stopIndexing()`: only while some site row is INDEXING. It switches indexing off,
   * then marks the shared site FAILED with the stop message and saves it; with no pool
   * or no site it raises after switching off (the second component).
   */
  function StopIndexing(svc: Service, now: Time): (r: (Service, bool))
    ensures !ExistsSiteWithStatus(svc.store, INDEXING) ==> r == (svc, false)
    ensures ExistsSiteWithStatus(svc.store, INDEXING) ==> !r.0.isIndexing
    ensures r.1 <==> ExistsSiteWithStatus(svc.store, INDEXING) && (!svc.poolStarted || svc.site.None?)
    ensures ExistsSiteWithStatus(svc.store, INDEXING) && svc.poolStarted && svc.site.Some? ==>
      && r.0.site == Some(svc.site.value.(status := FAILED, statusTime := now, lastError := Some(StopMessage)))
      && SiteById(r.0.store.sites, svc.site.value.id) == r.0.site
    ensures r.0.visited == svc.visited && r.0.trace == svc.trace && r.0.parentLink == svc.parentLink
    ensures r.0.pendingStop == svc.pendingStop && r.0.lastError == svc.lastError && r.0.poolStarted == svc.poolStarted
    ensures SameSite(svc.site, r.0.site) && r.0.store.pages == svc.store.pages && r.0.store.nextId == svc.store.nextId
    ensures OtherRowsKept(svc, r.0)
  {
    if !ExistsSiteWithStatus(svc.store, INDEXING) then (svc, false)
    else
      var s1 := svc.(isIndexing := false);
      if !svc.poolStarted || svc.site.None? then (s1, true)
      else
        var site := svc.site.value.(status := FAILED, statusTime := now, lastError := Some(StopMessage));
        (s1.(site := Some(site), store := SaveSite(svc.store, site)), false)
  }

  /** A pending stop request, once its fetch count is reached. */
  function FireStop(svc: Service, now: Time): (r: Service)
    ensures Grows(svc, r) && r.trace == svc.trace && r.visited == svc.visited
    ensures svc.pendingStop.None? ==> r == svc
    ensures r.pendingStop.Some? ==> r == svc
  {
    match svc.pendingStop
    case Some(k) =>
      if k <= |svc.trace| then StopIndexing(svc.(pendingStop := None), now).0 else svc
    case None => svc
  }

  lemma StopValid(svc: Service, now: Time)
    requires Valid(svc)
    ensures Valid(StopIndexing(svc, now).0)
  {
    if ExistsSiteWithStatus(svc.store, INDEXING) && svc.poolStarted && svc.site.Some? {
      SaveSiteWellFormed(svc.store, svc.site.value.(status := FAILED, statusTime := now, lastError := Some(StopMessage)));
    }
  }

  // ---------------------------------------------------------------- the crawl

  /** The links of a page that get a task of their own, in link order. */
  function Children(links: seq<string>, svc: Service): (r: seq<string>)
    ensures forall l :: l in r <==> l in links && IsValidLink(l, svc.parentLink) && l !in svc.visited && svc.isIndexing
    ensures |r| <= |links|
  {
    if |links| == 0 then []
    else
      var rest := Children(links[1..], svc);
      assert forall l :: l in links <==> l == links[0] || l in links[1..];
      if IsValidLink(links[0], svc.parentLink) && links[0] !in svc.visited && svc.isIndexing then [links[0]] + rest
      else rest
  }

  /**
   * `compute()` of a task for `url`, with at most `fuel` levels of tasks below it. The
   * task fetches only a valid, not yet indexed url while indexing is on; unless the page
   * step raised, it then runs one task per child link.
   */
  function Compute(svc: Service, url: string, env: Env, fuel: nat): (r: Service)
    ensures Grows(svc, r)
    decreases fuel, 0
  {
    var svc0 := FireStop(svc, env.now);
    if fuel == 0 || !(IsValidLink(url, svc0.parentLink) && url !in svc0.visited && svc0.isIndexing) then svc0
    else
      var svc1 := svc0.(trace := svc0.trace + [url]);
      assert Grows(svc0, svc1);
      GrowsTransitive(svc, svc0, svc1);
      var run := IndexingPage(svc1, url, env);
      GrowsTransitive(svc, svc1, run.svc);
      if run.escaped then run.svc
      else
        var r := ComputeAll(run.svc, Children(run.doc.links, run.svc), env, fuel - 1);
        GrowsTransitive(svc, run.svc, r);
        r
  }

  /** The child tasks, joined in order. */
  function ComputeAll(svc: Service, urls: seq<string>, env: Env, fuel: nat): (r: Service)
    ensures Grows(svc, r)
    decreases fuel, |urls|
  {
    if |urls| == 0 then svc
    else
      var a := Compute(svc, urls[0], env, fuel);
      var r := ComputeAll(a, urls[1..], env, fuel);
      GrowsTransitive(svc, a, r);
      r
  }

  /** A crawl keeps the store's invariants. */
  lemma {:induction false} ComputeValid(svc: Service, url: string, env: Env, fuel: nat)
    requires Valid(svc)
    ensures Valid(Compute(svc, url, env, fuel))
    decreases fuel, 0
  {
    var svc0 := FireStop(svc, env.now);
    if svc.pendingStop.Some? && svc.pendingStop.value <= |svc.trace| {
      StopValid(svc.(pendingStop := None), env.now);
    }
    if fuel > 0 && IsValidLink(url, svc0.parentLink) && url !in svc0.visited && svc0.isIndexing {
      var svc1 := svc0.(trace := svc0.trace + [url]);
      IndexingPageValid(svc1, url, env);
      var run := IndexingPage(svc1, url, env);
      if !run.escaped {
        ComputeAllValid(run.svc, Children(run.doc.links, run.svc), env, fuel - 1);
      }
    }
  }

  lemma {:induction false} ComputeAllValid(svc: Service, urls: seq<string>, env: Env, fuel: nat)
    requires Valid(svc)
    ensures Valid(ComputeAll(svc, urls, env, fuel))
    decreases fuel, |urls|
  {
    if |urls| > 0 {
      ComputeValid(svc, urls[0], env, fuel);
      ComputeAllValid(Compute(svc, urls[0], env, fuel), urls[1..], env, fuel);
    }
  }

  /** The part of `Grows` the fetch count needs: more indexed links, a longer trace of unindexed urls, the same site, appended pages. */
  ghost predicate Extends(a: Service, b: Service) {
    && a.visited <= b.visited
    && a.trace <= b.trace
    && (forall i :: |a.trace| <= i < |b.trace| ==> b.trace[i] !in a.visited)
    && SameSite(a.site, b.site)
    && PagesGrow(a.store, b.store)
  }

  lemma GrowsExtends(a: Service, b: Service)
    requires Grows(a, b)
    ensures Extends(a, b)
  {
  }

  /**
   * From `a` to `b`: every url newly marked indexed was fetched exactly once and could be
   * kept at `a` already; every url fetched but not marked can no longer be kept at `b`.
   */
  ghost predicate FetchedOnce(a: Service, b: Service, env: Env) {
    && |a.trace| <= |b.trace|
    && (forall u :: u in b.visited && u !in a.visited ==> multiset(b.trace[|a.trace|..])[u] == 1)
    && (forall u :: u in b.trace[|a.trace|..] && u !in b.visited ==> !Kept(b, u, env))
    && (forall u :: u in b.visited && u !in a.visited ==> Kept(a, u, env))
  }

  /**
   * A url that cannot be kept stays so: pages are only appended, and with unique paths a
   * path that another site's page holds never becomes this site's.
   */
  lemma KeptEarlier(a: Service, b: Service, u: string, env: Env)
    requires Extends(a, b) && Valid(b) && Kept(b, u, env)
    ensures Kept(a, u, env)
  {
    var path := env.parse(u).value.path;
    var id := b.site.value.id;
    if ExistsPageByPath(a.store, path) {
      var i :| 0 <= i < |a.store.pages| && a.store.pages[i].path == path;
      assert b.store.pages[i] == a.store.pages[i];
      var j :| 0 <= j < |b.store.pages| && b.store.pages[j].path == path && b.store.pages[j].siteId == id;
      assert j == i;
      assert a.store.pages[i].siteId == id;
    }
  }

  /** A step that fetches nothing. */
  lemma OnceWithoutFetch(a: Service, b: Service, env: Env)
    requires a.trace == b.trace && a.visited == b.visited
    ensures FetchedOnce(a, b, env)
  {
    assert b.trace[|a.trace|..] == [];
  }

  /** One fetch of `url` followed by the page step. */
  lemma OnceForFetch(svc0: Service, url: string, env: Env)
    requires Valid(svc0)
    ensures var svc1 := svc0.(trace := svc0.trace + [url]);
      FetchedOnce(svc0, IndexingPage(svc1, url, env).svc, env)
  {
    var svc1 := svc0.(trace := svc0.trace + [url]);
    IndexingPageValid(svc1, url, env);
    var r := IndexingPage(svc1, url, env).svc;
    assert r.trace[|svc0.trace|..] == [url];
    if url !in r.visited && Kept(r, url, env) {
      GrowsExtends(svc1, r);
      KeptEarlier(svc1, r, url, env);
    }
  }

  /** Two stretches of a crawl join into one. */
  lemma OnceTransitive(a: Service, b: Service, c: Service, env: Env)
    requires Grows(a, b) && Grows(b, c) && Valid(b) && Valid(c)
    requires FetchedOnce(a, b, env) && FetchedOnce(b, c, env)
    ensures FetchedOnce(a, c, env)
  {
    GrowsExtends(a, b);
    GrowsExtends(b, c);
    OnceJoin(a, b, c, env);
  }

  lemma OnceJoin(a: Service, b: Service, c: Service, env: Env)
    requires Extends(a, b) && Extends(b, c) && Valid(b) && Valid(c)
    requires FetchedOnce(a, b, env) && FetchedOnce(b, c, env)
    ensures FetchedOnce(a, c, env)
  {
    forall u | u in c.visited && u !in a.visited ensures multiset(c.trace[|a.trace|..])[u] == 1 && Kept(a, u, env) {
      JoinVisited(a, b, c, env, u);
    }
    forall u | u in c.trace[|a.trace|..] && u !in c.visited ensures !Kept(c, u, env) {
      JoinUnkept(a, b, c, env, u);
    }
  }

  /** A url marked in the joined stretch was fetched once in it, and could be kept at its start. */
  lemma JoinVisited(a: Service, b: Service, c: Service, env: Env, u: string)
    requires Extends(a, b) && Extends(b, c) && Valid(b)
    requires FetchedOnce(a, b, env) && FetchedOnce(b, c, env)
    requires u in c.visited && u !in a.visited
    ensures multiset(c.trace[|a.trace|..])[u] == 1 && Kept(a, u, env)
  {
    var ab := b.trace[|a.trace|..];
    var bc := c.trace[|b.trace|..];
    assert c.trace[|a.trace|..] == ab + bc;
    if u in b.visited {
      assert forall k :: 0 <= k < |bc| ==> bc[k] == c.trace[|b.trace| + k];
      assert u !in bc;
    } else {
      assert Kept(b, u, env);
      KeptEarlier(a, b, u, env);
      assert u !in ab;
    }
  }

  /** A url fetched but not marked in the joined stretch can no longer be kept at its end. */
  lemma JoinUnkept(a: Service, b: Service, c: Service, env: Env, u: string)
    requires Extends(a, b) && Extends(b, c) && Valid(c)
    requires FetchedOnce(a, b, env) && FetchedOnce(b, c, env)
    requires u in c.trace[|a.trace|..] && u !in c.visited
    ensures !Kept(c, u, env)
  {
    var ab := b.trace[|a.trace|..];
    var bc := c.trace[|b.trace|..];
    assert c.trace[|a.trace|..] == ab + bc;
    if u !in bc && Kept(c, u, env) {
      KeptEarlier(b, c, u, env);
    }
  }

  /** The crawl of one task: a url it marks indexed was fetched exactly once. */
  lemma {:induction false} ComputeOnce(svc: Service, url: string, env: Env, fuel: nat)
    requires Valid(svc)
    ensures FetchedOnce(svc, Compute(svc, url, env, fuel), env)
    decreases fuel, 2
  {
    var svc0, fetched, mid, kids, escaped := ComputeParts(svc, url, env, fuel);
    BranchOnce(svc, svc0, fetched, mid, kids, escaped, env, fuel, Compute(svc, url, env, fuel));
  }

  /**
   * A task in its parts: the state after a pending stop, whether the url is fetched, the
   * state after the page step, the child links and whether the step raised.
   */
  lemma ComputeParts(svc: Service, url: string, env: Env, fuel: nat)
    returns (svc0: Service, fetched: bool, mid: Service, kids: seq<string>, escaped: bool)
    requires Valid(svc)
    ensures Valid(svc0) && Grows(svc, svc0) && FetchedOnce(svc, svc0, env)
    ensures fetched ==> fuel > 0 && Valid(mid) && Grows(svc0, mid) && FetchedOnce(svc0, mid, env)
    ensures Compute(svc, url, env, fuel) == if !fetched then svc0 else if escaped then mid else ComputeAll(mid, kids, env, fuel - 1)
  {
    svc0 := FireStop(svc, env.now);
    if svc.pendingStop.Some? && svc.pendingStop.value <= |svc.trace| {
      StopValid(svc.(pendingStop := None), env.now);
    }
    OnceWithoutFetch(svc, svc0, env);
    fetched := fuel > 0 && IsValidLink(url, svc0.parentLink) && url !in svc0.visited && svc0.isIndexing;
    var run := IndexingPage(svc0.(trace := svc0.trace + [url]), url, env);
    mid, kids, escaped := run.svc, Children(run.doc.links, run.svc), run.escaped;
    if fetched {
      PageStepOnce(svc0, url, env);
    }
  }

  /** Whether nothing was fetched, the page step raised or the child tasks ran, the invariant holds. */
  lemma {:induction false} BranchOnce(svc: Service, svc0: Service, fetched: bool, mid: Service, kids: seq<string>, escaped: bool, env: Env, fuel: nat, r: Service)
    requires Valid(svc0) && Grows(svc, svc0) && FetchedOnce(svc, svc0, env)
    requires fetched ==> fuel > 0 && Valid(mid) && Grows(svc0, mid) && FetchedOnce(svc0, mid, env)
    requires r == if !fetched then svc0 else if escaped then mid else ComputeAll(mid, kids, env, fuel - 1)
    ensures FetchedOnce(svc, r, env)
    decreases fuel, 1
  {
    if fetched {
      if escaped {
        OnceTransitive(svc, svc0, mid, env);
      } else {
        ChildrenOnce(svc, svc0, mid, kids, env, fuel - 1);
      }
    }
  }

  /** The child tasks after the page step, joined to the stretch before it. */
  lemma {:induction false} ChildrenOnce(svc: Service, svc0: Service, mid: Service, kids: seq<string>, env: Env, fuel: nat)
    requires Valid(svc0) && Grows(svc, svc0) && FetchedOnce(svc, svc0, env)
    requires Valid(mid) && Grows(svc0, mid) && FetchedOnce(svc0, mid, env)
    ensures FetchedOnce(svc, ComputeAll(mid, kids, env, fuel), env)
    decreases fuel, |kids| + 4
  {
    var r := ComputeAll(mid, kids, env, fuel);
    ComputeAllOnce(mid, kids, env, fuel);
    ComputeAllValid(mid, kids, env, fuel);
    OnceTransitive(svc0, mid, r, env);
    GrowsTransitive(svc0, mid, r);
    OnceTransitive(svc, svc0, r, env);
  }

  /** The fetch and the page step alone. */
  lemma PageStepOnce(svc0: Service, url: string, env: Env)
    requires Valid(svc0) && IsValidLink(url, svc0.parentLink) && url !in svc0.visited && svc0.isIndexing
    ensures var run := IndexingPage(svc0.(trace := svc0.trace + [url]), url, env);
      FetchedOnce(svc0, run.svc, env) && Valid(run.svc) && Grows(svc0, run.svc)
  {
    var svc1 := svc0.(trace := svc0.trace + [url]);
    OnceForFetch(svc0, url, env);
    IndexingPageValid(svc1, url, env);
    assert Grows(svc0, svc1);
    GrowsTransitive(svc0, svc1, IndexingPage(svc1, url, env).svc);
  }

  lemma {:induction false} ComputeAllOnce(svc: Service, urls: seq<string>, env: Env, fuel: nat)
    requires Valid(svc)
    ensures FetchedOnce(svc, ComputeAll(svc, urls, env, fuel), env)
    decreases fuel, |urls| + 3
  {
    if |urls| > 0 {
      var a := Compute(svc, urls[0], env, fuel);
      ComputeOnce(svc, urls[0], env, fuel);
      ComputeValid(svc, urls[0], env, fuel);
      ComputeAllOnce(a, urls[1..], env, fuel);
      ComputeAllValid(a, urls[1..], env, fuel);
      OnceTransitive(svc, a, ComputeAll(a, urls[1..], env, fuel), env);
    } else {
      OnceWithoutFetch(svc, svc, env);
    }
  }

  /**
   * No url is processed successfully twice: every url a crawl marks indexed occurs exactly
   * once among the fetches of that crawl. Each task re-checks the indexed links before it
   * fetches, so a marked url is not fetched again; a url fetched earlier without being marked
   * gets the same fetch outcome from `Env.fetch` again, and with unique paths that outcome can
   * no longer lead to a mark.
   */
  lemma ProcessedOnce(svc: Service, url: string, env: Env, fuel: nat)
    requires Valid(svc)
    ensures var r := Compute(svc, url, env, fuel);
      |svc.trace| <= |r.trace|
      && forall u :: u in r.visited && u !in svc.visited ==> multiset(r.trace[|svc.trace|..])[u] == 1
  {
    ComputeOnce(svc, url, env, fuel);
  }

  /**
   * A page that links to itself and whose path some other site's page already has is
   * never marked indexed: every level of tasks fetches it again, so the crawl is bounded
   * only by the depth.
   */
  lemma {:induction false} RefetchLoop(svc: Service, url: string, env: Env, fuel: nat)
    requires svc.isIndexing && svc.pendingStop.None? && svc.site.Some?
    requires IsValidLink(url, svc.parentLink) && url !in svc.visited
    requires env.fetch(url) == Fetch(env.fetch(url).doc, Loaded(200)) && env.fetch(url).doc.links == [url]
    requires env.parse(url).Some?
    requires ExistsPageByPath(svc.store, env.parse(url).value.path)
    requires !ExistsPageByPathAndSite(svc.store, env.parse(url).value.path, svc.site.value.id)
    ensures var r := Compute(svc, url, env, fuel);
      && r.trace == svc.trace + seq(fuel, _ => url)
      && r.visited == svc.visited
      && r.store == svc.store
    decreases fuel
  {
    if fuel > 0 {
      var svc1 := svc.(trace := svc.trace + [url]);
      var run := IndexingPage(svc1, url, env);
      assert run.svc == svc1.(site := Some(svc.site.value.(statusTime := env.now)));
      assert Children(run.doc.links, run.svc) == [url];
      RefetchLoop(run.svc, url, env, fuel - 1);
      var r := Compute(run.svc, url, env, fuel - 1);
      assert ComputeAll(run.svc, [url], env, fuel - 1) == ComputeAll(r, [], env, fuel - 1) == r;
      assert svc1.trace + seq(fuel - 1, _ => url) == svc.trace + seq(fuel, _ => url);
    }
  }

  // ---------------------------------------------------------------- start-up

  /** Before the traversal: a new INDEXING site row that inherits the service's last error. */
  function BeginSite(svc: Service, cfg: SiteConfig, now: Time): (r: Service)
    ensures r.site == Some(Site(svc.store.nextId, INDEXING, now, svc.lastError, cfg.url, cfg.name))
    ensures SiteById(r.store.sites, svc.store.nextId) == r.site
    ensures r.store.nextId == svc.store.nextId + 1 && r.store.pages == svc.store.pages
    ensures forall s :: s in svc.store.sites ==> s in r.store.sites || s.id == svc.store.nextId
    ensures r.parentLink == cfg.url && r.poolStarted
    ensures r.visited == svc.visited && r.trace == svc.trace && r.isIndexing == svc.isIndexing
    ensures r.pendingStop == svc.pendingStop && r.lastError == svc.lastError
  {
    var site := Site(svc.store.nextId, INDEXING, now, svc.lastError, cfg.url, cfg.name);
    var st := SaveSite(svc.store.(nextId := svc.store.nextId + 1), site);
    svc.(store := st, site := Some(site), parentLink := cfg.url, poolStarted := true)
  }

  /** After the traversal: INDEXED and stamped, or FAILED with the exception's message kept for the next site. */
  function EndSite(svc: Service, e: Escape, now: Time): (r: Service)
    ensures svc.site.None? ==> r == svc
    ensures svc.site.Some? ==>
      && r.site.Some?
      && r.site.value == (if e.Normal? then svc.site.value.(status := INDEXED, statusTime := now) else svc.site.value.(status := FAILED))
      && SiteById(r.store.sites, svc.site.value.id) == r.site
      && r.lastError == (if e.Normal? then svc.lastError else e.message)
    ensures r.visited == svc.visited && r.trace == svc.trace && r.isIndexing == svc.isIndexing && r.pendingStop == svc.pendingStop
    ensures r.store.pages == svc.store.pages && r.store.nextId == svc.store.nextId && OtherRowsKept(svc, r)
  {
    match svc.site
    case None => svc
    case Some(site) =>
      match e
      case Normal =>
        var s := site.(status := INDEXED, statusTime := now);
        svc.(site := Some(s), store := SaveSite(svc.store, s))
      case Raised(msg) =>
        var s := site.(status := FAILED);
        svc.(lastError := msg, site := Some(s), store := SaveSite(svc.store, s))
  }

  /** The status the traversal's end gives a site row. */
  function EndStatus(e: Escape): Status {
    if e.Normal? then INDEXED else FAILED
  }

  /**
   * The crawl from `a` to `b` left a row of its own for the configured site: an id drawn
   * during the crawl, the configured url and name, and the status of the traversal's end.
   */
  ghost predicate Crawled(a: Store, b: Store, cfg: SiteConfig, e: Escape) {
    exists s :: s in b.sites && a.nextId <= s.id < b.nextId && s.url == cfg.url && s.name == cfg.name && s.status == EndStatus(e)
  }

  /** Rows that existed before, below the id counter, survive. */
  ghost predicate OldRowsKept(a: Store, b: Store) {
    forall s :: s in a.sites && s.id < a.nextId ==> s in b.sites
  }

  /**
   * One iteration of the loop of `startIndexing` that runs: the row it creates, under
   * the next id, ends with the configured url and name, INDEXED after a normal end of the
   * traversal and FAILED after a raised one.
   */
  function CrawlSite(svc: Service, cfg: SiteConfig, i: nat, env: Env, fuel: nat): (r: Service)
    ensures SiteById(r.store.sites, svc.store.nextId).Some?
    ensures var row := SiteById(r.store.sites, svc.store.nextId).value;
      row.url == cfg.url && row.name == cfg.name && row.status == EndStatus(env.ends(i))
    ensures OldRowsKept(svc.store, r.store) && r.store.nextId > svc.store.nextId
    ensures svc.visited <= r.visited
    ensures r.isIndexing ==> svc.isIndexing
    ensures svc.pendingStop.None? ==> r.pendingStop.None? && r.isIndexing == svc.isIndexing
  {
    var s1 := BeginSite(svc, cfg, env.now);
    var s2 := Compute(s1, cfg.url, env, fuel);
    var r := EndSite(s2, env.ends(i), env.now);
    CrawlRow(svc, cfg, env.ends(i), env.now, s1, s2, r);
    CrawlKeeps(svc, cfg, env.ends(i), env.now, s1, s2, r);
    r
  }

  /** The row the crawl of `cfg` leaves under the id it took. */
  lemma CrawlRow(svc: Service, cfg: SiteConfig, e: Escape, now: Time, s1: Service, s2: Service, r: Service)
    requires s1 == BeginSite(svc, cfg, now) && Grows(s1, s2) && r == EndSite(s2, e, now)
    ensures SiteById(r.store.sites, svc.store.nextId).Some?
    ensures var row := SiteById(r.store.sites, svc.store.nextId).value;
      row.url == cfg.url && row.name == cfg.name && row.status == EndStatus(e)
  {
  }

  /** What the crawl of `cfg` keeps of the service before it. */
  lemma CrawlKeeps(svc: Service, cfg: SiteConfig, e: Escape, now: Time, s1: Service, s2: Service, r: Service)
    requires s1 == BeginSite(svc, cfg, now) && Grows(s1, s2) && r == EndSite(s2, e, now)
    ensures OldRowsKept(svc.store, r.store) && r.store.nextId > svc.store.nextId
    ensures svc.visited <= r.visited
    ensures r.isIndexing ==> svc.isIndexing
    ensures svc.pendingStop.None? ==> r.pendingStop.None? && r.isIndexing == svc.isIndexing
  {
    assert r.site.value in r.store.sites;
  }

  /** The row a crawl creates is a crawled row for its site. */
  lemma CrawlSiteCrawled(svc: Service, cfg: SiteConfig, i: nat, env: Env, fuel: nat)
    ensures Crawled(svc.store, CrawlSite(svc, cfg, i, env, fuel).store, cfg, env.ends(i))
  {
    var r := CrawlSite(svc, cfg, i, env, fuel);
    var row := SiteById(r.store.sites, svc.store.nextId).value;
    assert row in r.store.sites && row.id == svc.store.nextId;
  }

  /** The loop of `startIndexing` from the `i`-th configured site on; a stopped service skips the rest. */
  function StartSites(svc: Service, configs: seq<SiteConfig>, i: nat, env: Env, fuel: nat): (r: Service)
    ensures OldRowsKept(svc.store, r.store) && r.store.nextId >= svc.store.nextId
    ensures svc.visited <= r.visited
    ensures !svc.isIndexing ==> r == svc
    ensures svc.pendingStop.None? ==> r.pendingStop.None? && r.isIndexing == svc.isIndexing
    decreases |configs| - i
  {
    if i >= |configs| then svc
    else
      var s := if svc.isIndexing then CrawlSite(svc, configs[i], i, env, fuel) else svc;
      StartSites(s, configs, i + 1, env, fuel)
  }

  /** The site row with id `id` carries the configured url and name and the status of the traversal's end. */
  ghost predicate CrawledAt(b: Store, cfg: SiteConfig, e: Escape, id: nat) {
    exists s :: s in b.sites && s.id == id && s.url == cfg.url && s.name == cfg.name && s.status == EndStatus(e)
  }

  /**
   * The loop from `i` on, between `a` and `b`, left each configured site a row of its own:
   * `ids[j]` is the row of `configs[i + j]`, the ids rise strictly with the iterations, and
   * every one of them was drawn during the loop.
   */
  ghost predicate OwnRows(a: Store, b: Store, configs: seq<SiteConfig>, i: nat, env: Env, ids: seq<nat>) {
    && |ids| == (if i < |configs| then |configs| - i else 0)
    && (forall j, k :: 0 <= j < k < |ids| ==> ids[j] < ids[k])
    && (forall j :: 0 <= j < |ids| ==> a.nextId <= ids[j] < b.nextId)
    && (forall j :: 0 <= j < |ids| ==> CrawledAt(b, configs[i + j], env.ends(i + j), ids[j]))
  }

  /**
   * `startIndexing()`: switch indexing on and crawl the configured sites in order. Without
   * a stop, indexing stays on and every configured site gets a row of its own, distinct
   * from every other site's, with the status its traversal's end gives.
   */
  function StartIndexing(svc: Service, configs: seq<SiteConfig>, env: Env, fuel: nat): (r: Service)
    ensures svc.pendingStop.None? ==> r.isIndexing
    ensures svc.pendingStop.None? ==> exists ids :: OwnRows(svc.store, r.store, configs, 0, env, ids)
  {
    if svc.pendingStop.None? then
      AllSitesFinished(svc.(isIndexing := true), configs, 0, env, fuel);
      StartSites(svc.(isIndexing := true), configs, 0, env, fuel)
    else StartSites(svc.(isIndexing := true), configs, 0, env, fuel)
  }

  /** Without a stop every configured site from `i` on gets a row of its own from its crawl. */
  lemma {:induction false} AllSitesFinished(svc: Service, configs: seq<SiteConfig>, i: nat, env: Env, fuel: nat)
    requires svc.isIndexing && svc.pendingStop.None?
    ensures exists ids :: OwnRows(svc.store, StartSites(svc, configs, i, env, fuel).store, configs, i, env, ids)
    decreases |configs| - i
  {
    var r := StartSites(svc, configs, i, env, fuel);
    if i >= |configs| {
      assert OwnRows(svc.store, r.store, configs, i, env, []);
    } else {
      var s := CrawlSite(svc, configs[i], i, env, fuel);
      assert r == StartSites(s, configs, i + 1, env, fuel);
      AllSitesFinished(s, configs, i + 1, env, fuel);
      var rest :| OwnRows(s.store, r.store, configs, i + 1, env, rest);
      var id := svc.store.nextId;
      var row := SiteById(s.store.sites, id).value;
      assert row in s.store.sites && row.id == id < s.store.nextId;
      assert row in r.store.sites;
      assert CrawledAt(r.store, configs[i], env.ends(i), id);
      OwnRowsCons(svc.store, s.store, r.store, configs, i, env, rest);
    }
  }

  /** The row of the `i`-th site, drawn before the rest of the loop, joins the rows of the rest. */
  lemma OwnRowsCons(a: Store, s: Store, b: Store, configs: seq<SiteConfig>, i: nat, env: Env, rest: seq<nat>)
    requires i < |configs| && a.nextId < s.nextId <= b.nextId
    requires CrawledAt(b, configs[i], env.ends(i), a.nextId)
    requires OwnRows(s, b, configs, i + 1, env, rest)
    ensures OwnRows(a, b, configs, i, env, [a.nextId] + rest)
  {
    var ids := [a.nextId] + rest;
    forall j | 0 < j < |ids| ensures CrawledAt(b, configs[i + j], env.ends(i + j), ids[j]) {
      assert ids[j] == rest[j - 1] && i + j == (i + 1) + (j - 1);
    }
  }


  /**
   * A stop during the traversal does not stick: the stop marks the site FAILED, but the
   * traversal then ends normally and marks it INDEXED, keeping the stop message.
   */
  lemma StopOverwritten(svc: Service, cfg: SiteConfig, i: nat, env: Env, fuel: nat)
    requires svc.pendingStop.Some? && svc.pendingStop.value <= |svc.trace| && env.ends(i).Normal?
    ensures var r := CrawlSite(svc, cfg, i, env, fuel);
      && r.site.Some? && r.site.value.status == INDEXED && r.site.value.lastError == Some(StopMessage)
      && SiteById(r.store.sites, svc.store.nextId) == r.site
      && !r.isIndexing && r.trace == svc.trace
  {
    var s1 := BeginSite(svc, cfg, env.now);
    assert s1.site.value in s1.store.sites;
    assert ExistsSiteWithStatus(s1.store, INDEXING) by {
      var k :| 0 <= k < |s1.store.sites| && s1.store.sites[k] == s1.site.value;
    }
  }

  // ---------------------------------------------------------------- one page again

  /**
   * `updateOnePage(url)`: a null url and a url that does not parse change nothing. The
   * site is looked up as "https://" + host + "/" (more than one row raises before any
   * change); a stored page with the url's path is deleted; then indexing is switched on
   * and the page step runs for the url.
   */
  function UpdateOnePage(svc: Service, url: Option<string>, env: Env): (r: Service)
    ensures url.None? || env.parse(url.value).None? ==> r == svc
  {
    match url
    case None => svc
    case Some(u) =>
      match env.parse(u)
      case None => svc
      case Some(parts) =>
        match FindSiteByUrl(svc.store, "https://" + parts.host + "/")
        case ManyRows => svc
        case found =>
          var site := Found(found);
          IndexingPage(svc.(site := site, store := Replaced(svc.store, parts.path), isIndexing := true), u, env).svc
  }

  /** The site a lookup found, `null` when there was none. */
  function Found(r: Single<Site>): (o: Option<Site>)
    ensures o.Some? <==> r.OneRow?
    ensures o.Some? ==> o.value == r.row
  {
    if r.OneRow? then Some(r.row) else None
  }

  /** What the update fetches, once the site is looked up. */
  predicate Updating(svc: Service, u: string, env: Env) {
    && env.parse(u).Some?
    && !FindSiteByUrl(svc.store, "https://" + env.parse(u).value.host + "/").ManyRows?
  }

  /** The update removes the page it replaces, switches indexing on and marks the url as the page step decides. */
  lemma UpdateReplaces(svc: Service, u: string, env: Env)
    requires WellFormed(svc.store) && Updating(svc, u, env)
    ensures var r := UpdateOnePage(svc, Some(u), env);
      && r.isIndexing
      && (forall p :: p in svc.store.pages && p.path == env.parse(u).value.path ==> p !in r.store.pages)
      && SameSite(r.site, Found(FindSiteByUrl(svc.store, "https://" + env.parse(u).value.host + "/")))
  {
    var parts := env.parse(u).value;
    var site := Found(FindSiteByUrl(svc.store, "https://" + parts.host + "/"));
    var st := Replaced(svc.store, parts.path);
    var svc2 := svc.(site := site, store := st, isIndexing := true);
    var r := IndexingPage(svc2, u, env).svc;
    assert UpdateOnePage(svc, Some(u), env) == r;
    StalePagesGone(svc.store, parts.path, r.store);
  }

  /** Pages added after the delete are new rows, so no page that had the path comes back. */
  lemma StalePagesGone(st: Store, path: string, b: Store)
    requires WellFormed(st) && PagesGrow(Replaced(st, path), b)
    ensures forall p :: p in st.pages && p.path == path ==> p !in b.pages
  {
    PathFreed(st, path);
    var a := Replaced(st, path);
    forall p | p in st.pages && p.path == path ensures p !in b.pages {
      var j :| 0 <= j < |st.pages| && st.pages[j] == p;
      assert p.id < st.nextId;
      forall k | 0 <= k < |b.pages| ensures b.pages[k] != p {
        if k < |a.pages| {
          assert b.pages[k] == a.pages[k];
          assert a.pages[k].path != path;
        } else {
          assert b.pages[k].id >= a.nextId;
        }
      }
    }
  }

  /**
   * When the refetch loads and the site is found, the page is stored again with its
   * new code and content, under that site.
   */
  lemma UpdateStoresPage(svc: Service, u: string, env: Env)
    requires WellFormed(svc.store) && Updating(svc, u, env)
    requires env.fetch(u).outcome.Loaded?
    requires FindSiteByUrl(svc.store, "https://" + env.parse(u).value.host + "/").OneRow?
    ensures var r := UpdateOnePage(svc, Some(u), env);
      var site := FindSiteByUrl(svc.store, "https://" + env.parse(u).value.host + "/").row;
      && u in r.visited
      && exists p :: p in r.store.pages && p.path == env.parse(u).value.path && p.siteId == site.id
           && p.code == env.fetch(u).outcome.code && p.content == env.fetch(u).doc.html
  {
    var parts := env.parse(u).value;
    var site := FindSiteByUrl(svc.store, "https://" + parts.host + "/").row;
    var st := Replaced(svc.store, parts.path);
    PathFreed(svc.store, parts.path);
    var svc2 := svc.(site := Some(site), store := st, isIndexing := true);
    assert UpdateOnePage(svc, Some(u), env) == IndexingPage(svc2, u, env).svc;
    LoadedPageStored(svc2, u, env);
  }

  /** The store once the page with a path, if any, is deleted. */
  function Replaced(st: Store, path: string): (r: Store)
    ensures r.nextId == st.nextId && r.sites == st.sites
  {
    var stale := FindPageByPath(st, path);
    if stale.Some? then DeletePage(st, stale.value.id) else st
  }

  /** With unique paths, deleting the page found by a path leaves no page with that path. */
  lemma PathFreed(st: Store, path: string)
    requires WellFormed(st)
    ensures !ExistsPageByPath(Replaced(st, path), path)
    ensures WellFormed(Replaced(st, path))
  {
    var stale := FindPageByPath(st, path);
    if stale.Some? {
      DeletePageWellFormed(st, stale.value.id);
      var r := Replaced(st, path);
      forall i | 0 <= i < |r.pages| ensures r.pages[i].path != path {
        assert r.pages[i] in st.pages;
        var a :| 0 <= a < |st.pages| && st.pages[a] == r.pages[i];
        var b :| 0 <= b < |st.pages| && st.pages[b] == stale.value;
        assert a != b;
      }
    }
  }

  // ---------------------------------------------------------------- reset

  /** `clearRepositories()`: the four tables are emptied; the set of indexed links is not. */
  function ClearRepositories(svc: Service): (r: Service)
    ensures r.store.sites == [] && r.store.pages == [] && r.store.lemmas == [] && r.store.postings == []
    ensures r.store.nextId == svc.store.nextId
    ensures r == svc.(store := r.store)
  {
    svc.(store := ClearAll(svc.store))
  }

  /**
   * Clearing and starting again does not re-index a site whose root url was indexed
   * before: nothing is fetched, and the site's new row is still marked INDEXED.
   */
  lemma RestartAfterClear(svc: Service, cfg: SiteConfig, i: nat, env: Env, fuel: nat)
    requires cfg.url in svc.visited && svc.pendingStop.None? && env.ends(i).Normal?
    ensures var c := ClearRepositories(svc);
      var r := CrawlSite(c, cfg, i, env, fuel);
      && r.trace == svc.trace
      && r.store.pages == []
      && r.site.Some? && r.site.value.status == INDEXED
      && r.store.sites == [r.site.value]
  {
  }
}

=== FILE: lemmatizer.dfy ===
/**
 * The lemmatization service: splitting a text into Russian words, counting their
 * normal forms, stripping tags, and recording a page's lemmas and postings.
 * The morphology dictionary is a parameter.
 */
module Lemmatizer {
  import opened Wrappers
  import opened Text
  import opened TreeMap
  import opened Entities

  /** A list of normal forms; the dictionary always offers at least one. */
  type Forms = s: seq<string> | |s| > 0 witness [""]

  /**
   * The morphology dictionary: the normal forms of a word, its tag strings, and
   * whether the dictionary accepts the word at all (it raises for a word it cannot read).
   */
  datatype Morphology = Morphology(normalForms: string -> Forms, morphInfo: string -> seq<string>, accepts: string -> bool)

  /** `wordBaseForms.get(0)`. */
  function NormalWord(m: Morphology, w: string): string {
    m.normalForms(w)[0]
  }

  // ---------------------------------------------------------------- particles

  /** The tags of interjections, prepositions and conjunctions. */
  const Particles: seq<string> := ["МЕЖД", "ПРЕДЛ", "СОЮЗ"]

  predicate IsParticleTag(info: string) {
    exists i :: 0 <= i < |Particles| && Contains(Upper(info), Particles[i])
  }

  /** A word is skipped when any of its tag strings is a particle tag. */
  predicate IsParticleWord(infos: seq<string>) {
    exists i :: 0 <= i < |infos| && IsParticleTag(infos[i])
  }

  /** `hasParticleProperty`: the loop over the three tags with an early return. */
  method HasParticleProperty(wordBase: string) returns (r: bool)
    ensures r <==> exists i :: 0 <= i < |Particles| && Contains(Upper(wordBase), Particles[i])
  {
    var upper := Upper(wordBase);
    var i := 0;
    while i < |Particles|
      invariant 0 <= i <= |Particles|
      invariant forall j :: 0 <= j < i ==> !Contains(upper, Particles[j])
    {
      if Contains(upper, Particles[i]) {
        return true;
      }
      i := i + 1;
    }
    return false;
  }

  /** `anyWordBaseBelongToParticle`: `anyMatch` over the tag strings. */
  method AnyWordBaseBelongToParticle(infos: seq<string>) returns (r: bool)
    ensures r <==> exists i :: 0 <= i < |infos| && IsParticleTag(infos[i])
  {
    var i := 0;
    while i < |infos|
      invariant 0 <= i <= |infos|
      invariant forall j :: 0 <= j < i ==> !IsParticleTag(infos[j])
    {
      var p := HasParticleProperty(infos[i]);
      if p {
        return true;
      }
      i := i + 1;
    }
    return false;
  }

  // ---------------------------------------------------------------- tokens

  predicate IsSpace(c: char) {
    c == ' '
  }

  predicate NotSpace(c: char) {
    c != ' '
  }

  /** The character class `[а-яА-Я]`. */
  predicate IsCyrillicLetter(c: char) {
    'а' <= c <= 'я' || 'А' <= c <= 'Я'
  }

  /** `replaceAll("([^а-я])", " ")`: every character outside `а-я` becomes a space. */
  function Mask(s: string): (r: string)
    ensures |r| == |s|
    ensures forall i :: 0 <= i < |s| ==> r[i] == if IsCyrillicLower(s[i]) then s[i] else ' '
  {
    seq(|s|, i requires 0 <= i < |s| => if IsCyrillicLower(s[i]) then s[i] else ' ')
  }

  /** `text.toLowerCase().trim().replaceAll(...).split(" ")`. */
  function Words(text: string): seq<string> {
    JavaSplit(Mask(Trim(Lower(text))), IsSpace)
  }

  /** The loop's test `!word.isEmpty() && word.matches("[а-яА-Я]+")`. */
  predicate IsWordToken(w: string) {
    |w| > 0 && forall i :: 0 <= i < |w| ==> IsCyrillicLetter(w[i])
  }

  function FilterTokens(ws: seq<string>): (r: seq<string>)
    ensures forall i :: 0 <= i < |r| ==> IsWordToken(r[i])
  {
    if |ws| == 0 then []
    else if IsWordToken(ws[0]) then [ws[0]] + FilterTokens(ws[1..])
    else FilterTokens(ws[1..])
  }

  /** The words the lemmatizer looks up, in text order. */
  function Tokens(text: string): seq<string> {
    FilterTokens(Words(text))
  }

  lemma {:induction false} MaskFilter(s: string, keep: char -> bool)
    requires forall c :: keep(c) <==> c != ' '
    ensures FilterChars(Mask(s), keep) == FilterChars(s, IsCyrillicLower)
    decreases |s|
  {
    if |s| > 0 {
      assert Mask(s)[1..] == Mask(s[1..]);
      MaskFilter(s[1..], keep);
    }
  }

  /** When every word is a run of `а-я`, the token test keeps exactly the non-empty ones. */
  lemma {:induction false} FilterTokensOfLowerRuns(ws: seq<string>)
    requires forall w, i :: w in ws && 0 <= i < |w| ==> IsCyrillicLower(w[i])
    ensures FilterTokens(ws) == NonEmpty(ws)
  {
    if |ws| > 0 {
      assert ws[0] in ws;
      FilterTokensOfLowerRuns(ws[1..]);
    }
  }

  /** Every word of the masked text is a run of `а-я`. */
  lemma WordsAreLowerRuns(text: string)
    ensures forall w, i :: w in Words(text) && 0 <= i < |w| ==> IsCyrillicLower(w[i])
  {
    var masked := Mask(Trim(Lower(text)));
    JavaSplitNoSeparator(masked, IsSpace);
    forall w, i | w in Words(text) && 0 <= i < |w| ensures IsCyrillicLower(w[i]) {
      assert !IsSpace(w[i]);
      JavaSplitPieceInMask(masked, w, i);
    }
  }

  /**
   * The tokens are non-empty runs of `а-я` and together spell exactly the `а-я`
   * letters of the lower-cased text: nothing else is ever looked up.
   */
  lemma TokensSpellText(text: string)
    ensures forall w, i :: w in Tokens(text) && 0 <= i < |w| ==> IsCyrillicLower(w[i])
    ensures forall w :: w in Tokens(text) ==> |w| > 0
    ensures Concat(Tokens(text)) == FilterChars(Lower(text), IsCyrillicLower)
  {
    var masked := Mask(Trim(Lower(text)));
    WordsAreLowerRuns(text);
    FilterTokensOfLowerRuns(Words(text));
    JavaSplitNonEmptyConcat(masked, IsSpace, NotSpace);
    MaskFilter(Trim(Lower(text)), NotSpace);
    TrimFilter(Lower(text), IsCyrillicLower);
  }

  predicate NotCyrillicLower(c: char) {
    !IsCyrillicLower(c)
  }

  /** The maximal runs of `а-я` in `s`, in order. */
  function Runs(s: string): seq<string> {
    NonEmpty(Pieces(s, NotCyrillicLower, []))
  }

  /** Splitting the masked text at spaces is splitting the text at everything outside `а-я`. */
  lemma {:induction false} PiecesOfMask(x: string, cur: string)
    ensures Pieces(Mask(x), IsSpace, cur) == Pieces(x, NotCyrillicLower, cur)
    decreases |x|
  {
    if |x| > 0 {
      assert Mask(x)[1..] == Mask(x[1..]);
      PiecesOfMask(x[1..], if NotCyrillicLower(x[0]) then [] else cur + [x[0]]);
    }
  }

  /** The tokens are the maximal runs of `а-я` of the lower-cased text. */
  lemma TokensAsRuns(text: string)
    ensures Tokens(text) == Runs(Lower(text))
  {
    var t := Trim(Lower(text));
    WordsAreLowerRuns(text);
    FilterTokensOfLowerRuns(Words(text));
    JavaSplitPieces(Mask(t), IsSpace);
    PiecesOfMask(t, []);
    TrimPieces(Lower(text), NotCyrillicLower);
  }

  /**
   * Every character whose lower case is outside `а-я` (`ё`, Latin letters, digits,
   * punctuation, spaces) separates tokens: the tokens around it are those of each side.
   */
  lemma TokensSeparate(a: string, c: char, b: string)
    requires !IsCyrillicLower(LowerChar(c))
    ensures Tokens(a + [c] + b) == Tokens(a) + Tokens(b)
  {
    var la, lb := Lower(a), Lower(b);
    TokensAsRuns(a + [c] + b);
    TokensAsRuns(a);
    TokensAsRuns(b);
    LowerAround(a, c, b);
    PiecesAtSeparator(la, LowerChar(c), lb, NotCyrillicLower, []);
    NonEmptyAppend(Pieces(la, NotCyrillicLower, []), Pieces(lb, NotCyrillicLower, []));
  }

  /** A word whose lower case is all `а-я` is one token, its lower case. */
  lemma TokensOfWord(w: string)
    requires |w| > 0 && forall i :: 0 <= i < |w| ==> IsCyrillicLower(LowerChar(w[i]))
    ensures Tokens(w) == [Lower(w)]
  {
    var l := Lower(w);
    TokensAsRuns(w);
    assert forall i :: 0 <= i < |l| ==> !NotCyrillicLower(l[i]);
    PiecesWithoutSeparator(l, NotCyrillicLower, []);
    assert Pieces(l, NotCyrillicLower, []) == [l] by {
      assert [] + l == l;
    }
    var ps := [l];
    assert |ps| == 1 && |ps[0]| > 0 && ps[1..] == [];
    assert NonEmpty(ps) == [l] + NonEmpty([]);
  }

  /** A non-space character of a piece of the masked text is a letter `а-я`. */
  lemma JavaSplitPieceInMask(masked: string, w: string, i: int)
    requires forall j :: 0 <= j < |masked| ==> IsCyrillicLower(masked[j]) || masked[j] == ' '
    requires w in JavaSplit(masked, IsSpace) && 0 <= i < |w| && !IsSpace(w[i])
    ensures IsCyrillicLower(w[i])
  {
    JavaSplitChars(masked, IsSpace);
  }

  /** Every character of a split piece is a character of the string. */
  lemma JavaSplitChars(s: string, isSep: char -> bool)
    ensures forall w, i :: w in JavaSplit(s, isSep) && 0 <= i < |w| ==> w[i] in s
  {
    if !(forall i :: 0 <= i < |s| ==> !isSep(s[i])) {
      var xs := Pieces(s, isSep, []);
      PiecesChars(s, isSep, []);
      var r := DropTrailingEmpty(xs);
      forall w, i | w in r && 0 <= i < |w| ensures w[i] in s {
        var k :| 0 <= k < |r| && r[k] == w;
        assert xs[k] == w;
      }
    }
  }

  lemma {:induction false} PiecesChars(s: string, isSep: char -> bool, cur: string)
    ensures forall w, i :: w in Pieces(s, isSep, cur) && 0 <= i < |w| ==> w[i] in s || w[i] in cur
    decreases |s|
  {
    if |s| > 0 {
      var cur' := if isSep(s[0]) then [] else cur + [s[0]];
      PiecesChars(s[1..], isSep, cur');
      forall w, i | w in Pieces(s, isSep, cur) && 0 <= i < |w| ensures w[i] in s || w[i] in cur {
        if w[i] in s[1..] {
          var j :| 0 <= j < |s[1..]| && s[1..][j] == w[i];
          assert s[j + 1] == w[i];
        } else if w[i] in cur' && !isSep(s[0]) {
          var j :| 0 <= j < |cur'| && cur'[j] == w[i];
          if j == |cur| {
            assert w[i] == s[0];
          } else {
            assert w[i] == cur[j];
          }
        }
      }
    }
  }

  lemma MaskShape(s: string)
    ensures forall j :: 0 <= j < |Mask(s)| ==> IsCyrillicLower(Mask(s)[j]) || Mask(s)[j] == ' '
  {
  }

  // ---------------------------------------------------------------- counting

  /** The normal forms that the tokens add to the counter, in order: particles add nothing. */
  function Contributions(tokens: seq<string>, m: Morphology): (r: seq<string>)
    ensures |r| <= |tokens|
  {
    if |tokens| == 0 then []
    else if IsParticleWord(m.morphInfo(tokens[0])) then Contributions(tokens[1..], m)
    else [NormalWord(m, tokens[0])] + Contributions(tokens[1..], m)
  }

  predicate PositiveCounts(e: seq<(string, nat)>) {
    forall i :: 0 <= i < |e| ==> e[i].1 >= 1
  }

  /** `put(word, getOrDefault(word, 0) + 1)`: one more occurrence of `w`, nothing else changes. */
  function CountOnce(coll: seq<(string, nat)>, w: string): (r: seq<(string, nat)>)
    requires Sorted(coll)
    ensures Sorted(r)
    ensures KeySet(r) == KeySet(coll) + {w}
    ensures forall k :: Get(r, k).GetOr(0) == Get(coll, k).GetOr(0) + (if k == w then 1 else 0)
    ensures SumValues(r) == SumValues(coll) + 1
    ensures PositiveCounts(coll) ==> PositiveCounts(r)
  {
    var r := Put(coll, w, Get(coll, w).GetOr(0) + 1);
    SumPut(coll, w, Get(coll, w).GetOr(0) + 1);
    PutPositive(coll, w);
    r
  }

  /** Counting one more occurrence keeps every count positive. */
  lemma PutPositive(coll: seq<(string, nat)>, w: string)
    requires Sorted(coll)
    ensures PositiveCounts(coll) ==> PositiveCounts(Put(coll, w, Get(coll, w).GetOr(0) + 1))
  {
    var coll' := Put(coll, w, Get(coll, w).GetOr(0) + 1);
    if PositiveCounts(coll) {
      forall i | 0 <= i < |coll'| ensures coll'[i].1 >= 1 {
        GetAt(coll', i);
        if coll'[i].0 != w {
          assert coll'[i].0 in KeySet(coll);
          var j :| 0 <= j < |coll| && coll[j].0 == coll'[i].0;
          GetAt(coll, j);
        }
      }
    }
  }

  /** The loop of `getLemmasFromText` over the tokens, adding into the collected map. */
  function AddTokens(coll: seq<(string, nat)>, tokens: seq<string>, m: Morphology): (r: seq<(string, nat)>)
    requires Sorted(coll)
    ensures Sorted(r)
    ensures PositiveCounts(coll) ==> PositiveCounts(r)
    decreases |tokens|
  {
    if |tokens| == 0 then coll
    else if IsParticleWord(m.morphInfo(tokens[0])) then AddTokens(coll, tokens[1..], m)
    else AddTokens(CountOnce(coll, NormalWord(m, tokens[0])), tokens[1..], m)
  }

  lemma SetOfCons(w: string, rest: seq<string>)
    ensures (set x | x in [w] + rest) == {w} + set x | x in rest
  {
  }

  /** The key set grows by the normal forms met. */
  lemma {:induction false} AddTokensKeys(coll: seq<(string, nat)>, tokens: seq<string>, m: Morphology)
    requires Sorted(coll)
    ensures KeySet(AddTokens(coll, tokens, m)) == KeySet(coll) + set w | w in Contributions(tokens, m)
    decreases |tokens|
  {
    if |tokens| > 0 {
      if IsParticleWord(m.morphInfo(tokens[0])) {
        AddTokensKeys(coll, tokens[1..], m);
      } else {
        var w := NormalWord(m, tokens[0]);
        AddTokensKeys(CountOnce(coll, w), tokens[1..], m);
        SetOfCons(w, Contributions(tokens[1..], m));
      }
    }
  }

  /** Each counter value grows by the number of non-particle tokens with that normal form. */
  lemma {:induction false} AddTokensGet(coll: seq<(string, nat)>, tokens: seq<string>, m: Morphology, k: string)
    requires Sorted(coll)
    ensures Get(AddTokens(coll, tokens, m), k).GetOr(0) == Get(coll, k).GetOr(0) + multiset(Contributions(tokens, m))[k]
    decreases |tokens|
  {
    if |tokens| > 0 {
      if IsParticleWord(m.morphInfo(tokens[0])) {
        AddTokensGet(coll, tokens[1..], m, k);
      } else {
        var w := NormalWord(m, tokens[0]);
        AddTokensGet(CountOnce(coll, w), tokens[1..], m, k);
        var rest := Contributions(tokens[1..], m);
        assert multiset([w] + rest)[k] == (if k == w then 1 else 0) + multiset(rest)[k];
      }
    }
  }

  /** The sum of the counts grows by the number of non-particle tokens. */
  lemma {:induction false} AddTokensSum(coll: seq<(string, nat)>, tokens: seq<string>, m: Morphology)
    requires Sorted(coll)
    ensures SumValues(AddTokens(coll, tokens, m)) == SumValues(coll) + |Contributions(tokens, m)|
    decreases |tokens|
  {
    if |tokens| > 0 {
      if IsParticleWord(m.morphInfo(tokens[0])) {
        AddTokensSum(coll, tokens[1..], m);
      } else {
        AddTokensSum(CountOnce(coll, NormalWord(m, tokens[0])), tokens[1..], m);
      }
    }
  }

  /**
   * `getLemmasFromText`: the tokens of the text are counted into the collected map,
   * which is also the result, so counts accumulate across calls.
   */
  function GetLemmasFromText(coll: seq<(string, nat)>, text: string, m: Morphology): (r: seq<(string, nat)>)
    requires Sorted(coll)
    ensures Sorted(r)
    ensures KeySet(r) == KeySet(coll) + set w | w in Contributions(Tokens(text), m)
    ensures forall k :: Get(r, k).GetOr(0) == Get(coll, k).GetOr(0) + multiset(Contributions(Tokens(text), m))[k]
    ensures SumValues(r) == SumValues(coll) + |Contributions(Tokens(text), m)|
    ensures |text| == 0 ==> r == coll
    ensures PositiveCounts(coll) ==> PositiveCounts(r)
  {
    AddTokensKeys(coll, Tokens(text), m);
    AddTokensSum(coll, Tokens(text), m);
    forall k ensures Get(AddTokens(coll, Tokens(text), m), k).GetOr(0)
      == Get(coll, k).GetOr(0) + multiset(Contributions(Tokens(text), m))[k]
    {
      AddTokensGet(coll, Tokens(text), m, k);
    }
    AddTokens(coll, Tokens(text), m)
  }

  /**
   * From an empty map: the keys are exactly the normal forms met, every count is at
   * least one, and the counts add up to the number of non-particle tokens.
   */
  lemma FreshCounts(text: string, m: Morphology)
    ensures var r := GetLemmasFromText([], text, m);
      && KeySet(r) == (set w | w in Contributions(Tokens(text), m))
      && PositiveCounts(r)
      && SumValues(r) == |Contributions(Tokens(text), m)|
  {
    var r := GetLemmasFromText([], text, m);
    assert KeySet<nat>([]) == {};
  }

  /** Two calls on one lemmatizer add up: the second call starts from the first's result. */
  lemma LemmasAccumulate(coll: seq<(string, nat)>, a: string, b: string, m: Morphology)
    requires Sorted(coll)
    ensures var r := GetLemmasFromText(GetLemmasFromText(coll, a, m), b, m);
      forall k :: Get(r, k).GetOr(0) == Get(coll, k).GetOr(0)
        + multiset(Contributions(Tokens(a), m))[k] + multiset(Contributions(Tokens(b), m))[k]
  {
  }

  /** A token whose tags include a particle tag contributes nothing. */
  lemma {:induction false} ParticlesContributeNothing(tokens: seq<string>, m: Morphology)
    requires forall i :: 0 <= i < |tokens| ==> IsParticleWord(m.morphInfo(tokens[i]))
    ensures Contributions(tokens, m) == []
    decreases |tokens|
  {
    if |tokens| > 0 {
      ParticlesContributeNothing(tokens[1..], m);
    }
  }

  /** With no particle among the tokens, each token adds its first normal form. */
  lemma {:induction false} NoParticlesContributeAll(tokens: seq<string>, m: Morphology)
    requires forall i :: 0 <= i < |tokens| ==> !IsParticleWord(m.morphInfo(tokens[i]))
    ensures var c := Contributions(tokens, m);
      |c| == |tokens| && forall i :: 0 <= i < |c| ==> c[i] == NormalWord(m, tokens[i])
    decreases |tokens|
  {
    if |tokens| > 0 {
      NoParticlesContributeAll(tokens[1..], m);
    }
  }

  // ---------------------------------------------------------------- tags

  /** No `>` occurs before the first line terminator. */
  predicate NoGtInLine(u: string)
    decreases |u|
  {
    |u| == 0 || IsLineTerminator(u[0]) || (u[0] != '>' && NoGtInLine(u[1..]))
  }

  /** The index of the last `>` before the first line terminator, or -1. */
  function LastGt(u: string): (r: int)
    ensures -1 <= r < |u|
    ensures r >= 0 ==> u[r] == '>' && (forall i :: 0 <= i <= r ==> !IsLineTerminator(u[i])) && NoGtInLine(u[r + 1..])
    ensures r == -1 <==> NoGtInLine(u)
    decreases |u|
  {
    if |u| == 0 || IsLineTerminator(u[0]) then -1
    else
      var t := LastGt(u[1..]);
      if t >= 0 then
        assert u[1..][t + 1..] == u[t + 2..];
        t + 1
      else if u[0] == '>' then
        assert u[1..] == u[0 + 1..];
        0
      else -1
  }

  /**
   * `<.+>` matches at the start of `s`: a `<`, at least one character, and a `>`
   * later on the same line.
   */
  predicate TagAt(s: string) {
    |s| >= 2 && s[0] == '<' && !IsLineTerminator(s[1]) && LastGt(s[2..]) >= 0
  }

  /** The end of the greedy match: just past the last `>` of the line. */
  function TagEnd(s: string): (r: nat)
    requires TagAt(s)
    ensures 3 <= r <= |s| && s[r - 1] == '>'
  {
    2 + LastGt(s[2..]) + 1
  }

  /** `getTextWithoutTegs`: `replaceAll("<.+>", "")`, leftmost greedy matches in turn. */
  function StripTags(s: string): string
    decreases |s|
  {
    if |s| == 0 then []
    else if TagAt(s) then StripTags(s[TagEnd(s)..])
    else [s[0]] + StripTags(s[1..])
  }

  /** A text without `<` is left as it is. */
  lemma {:induction false} StripWithoutLt(s: string)
    requires '<' !in s
    ensures StripTags(s) == s
    decreases |s|
  {
    if |s| > 0 {
      assert s[0] in s;
      assert forall c :: c in s[1..] ==> c in s;
      StripWithoutLt(s[1..]);
    }
  }

  /** No line terminator anywhere in `u`. */
  predicate OneLine(u: string) {
    forall i :: 0 <= i < |u| ==> !IsLineTerminator(u[i])
  }

  lemma {:induction false} NoGtAnywhere(c: string)
    requires '>' !in c
    ensures NoGtInLine(c)
    decreases |c|
  {
    if |c| > 0 {
      assert c[0] in c;
      assert forall x :: x in c[1..] ==> x in c;
      NoGtAnywhere(c[1..]);
    }
  }

  /** The last `>` of the line is the one right after `u`, when `c` has none before its line ends. */
  lemma {:induction false} LastGtAfter(u: string, c: string)
    requires OneLine(u) && NoGtInLine(c)
    ensures LastGt(u + ">" + c) == |u|
    decreases |u|
  {
    var s := u + ">" + c;
    if |u| == 0 {
      assert s == ">" + c && s[1..] == c;
    } else {
      assert s[1..] == u[1..] + ">" + c;
      LastGtAfter(u[1..], c);
    }
  }

  /** Text without `<` in front of the rest is kept as it is. */
  lemma {:induction false} StripPlainPrefix(a: string, t: string)
    requires '<' !in a
    ensures StripTags(a + t) == a + StripTags(t)
    decreases |a|
  {
    if |a| > 0 {
      var s := a + t;
      assert a[0] in a;
      assert s[0] == a[0] && !TagAt(s);
      assert forall x :: x in a[1..] ==> x in a;
      assert s[1..] == a[1..] + t;
      StripPlainPrefix(a[1..], t);
      assert StripTags(s) == [s[0]] + StripTags(s[1..]);
      assert a == [a[0]] + a[1..];
    } else {
      assert a + t == t;
    }
  }

  /**
   * The match is greedy: from the line's first `<` through its last `>` everything goes,
   * whatever `<` and `>` lie between, and the replacement goes on after it.
   */
  lemma StripGreedy(a: string, b: string, c: string)
    requires '<' !in a && |b| > 0 && OneLine(b) && NoGtInLine(c)
    ensures StripTags(a + "<" + b + ">" + c) == a + StripTags(c)
  {
    var s := "<" + b + ">" + c;
    assert a + "<" + b + ">" + c == a + s;
    StripPlainPrefix(a, s);
    StripTagInFront(b, c);
  }

  /** A tag at the front runs to the `>` before `c`. */
  lemma StripTagInFront(b: string, c: string)
    requires |b| > 0 && OneLine(b) && NoGtInLine(c)
    ensures StripTags("<" + b + ">" + c) == StripTags(c)
  {
    var s := "<" + b + ">" + c;
    assert s[0] == '<' && s[1] == b[0];
    assert s[2..] == b[1..] + ">" + c;
    LastGtAfter(b[1..], c);
    assert LastGt(s[2..]) == |b| - 1;
    assert TagAt(s);
    var e := TagEnd(s);
    assert e == |b| + 2;
    assert StripTags(s) == StripTags(s[e..]);
    assert s[e..] == c;
  }

  /** `a<b>c` becomes `ac` when the text around the tag has no tag characters. */
  lemma StripOneTag(a: string, b: string, c: string)
    requires '<' !in a && '<' !in c && '>' !in c && |b| > 0 && OneLine(b)
    ensures StripTags(a + "<" + b + ">" + c) == a + c
  {
    NoGtAnywhere(c);
    StripGreedy(a, b, c);
    StripWithoutLt(c);
  }

  /** No tag match starts at any position of `s`. */
  predicate Clean(s: string)
    decreases |s|
  {
    |s| == 0 || (!TagAt(s) && Clean(s[1..]))
  }

  /** A clean text is left as it is. */
  lemma {:induction false} StripClean(s: string)
    requires Clean(s)
    ensures StripTags(s) == s
    decreases |s|
  {
    if |s| > 0 {
      StripClean(s[1..]);
    }
  }

  /** Without a `>` before the first line terminator nothing on that line is removed. */
  lemma {:induction false} StripKeepsNoGt(u: string)
    requires NoGtInLine(u)
    ensures NoGtInLine(StripTags(u))
    ensures |u| > 0 ==> StripTags(u) == [u[0]] + StripTags(u[1..])
    decreases |u|
  {
    if |u| > 0 {
      if IsLineTerminator(u[0]) {
        assert !TagAt(u);
      } else {
        assert NoGtInLine(u[1..]);
        if |u| >= 2 && !IsLineTerminator(u[1]) {
          assert u[1] != '>';
          assert NoGtInLine(u[1..][1..]);
          assert u[1..][1..] == u[2..];
        }
        assert !TagAt(u);
        StripKeepsNoGt(u[1..]);
      }
    }
  }

  /** The output of the replacement has no match left in it. */
  lemma {:induction false} StripIsClean(s: string)
    ensures Clean(StripTags(s))
    decreases |s|
  {
    if |s| > 0 {
      if TagAt(s) {
        StripIsClean(s[TagEnd(s)..]);
      } else {
        StripIsClean(s[1..]);
        var t := StripTags(s);
        assert t == [s[0]] + StripTags(s[1..]);
        if s[0] == '<' && |s| >= 2 {
          if IsLineTerminator(s[1]) {
            assert !TagAt(s[1..]);
            assert t[1] == s[1];
          } else {
            assert NoGtInLine(s[2..]);
            assert s[1..][1..] == s[2..];
            if s[1] == '>' {
              assert !NoGtInLine(s[1..]);
              assert LastGt(s[2..]) == -1;
              assert !TagAt(s[1..]);
            } else {
              assert NoGtInLine(s[1..]);
              StripKeepsNoGt(s[1..]);
            }
            assert StripTags(s[1..]) == [s[1]] + StripTags(s[2..]);
            StripKeepsNoGt(s[2..]);
            assert t[2..] == StripTags(s[2..]);
          }
        }
      }
    }
  }

  /** Stripping twice strips nothing more. */
  lemma StripIdempotent(s: string)
    ensures StripTags(StripTags(s)) == StripTags(s)
  {
    StripIsClean(s);
    StripClean(StripTags(s));
  }

  // ---------------------------------------------------------------- index builder

  /** `findLemmaByLemmaAndSite(text, site)` as the row it returns. */
  function LemmaRow(lemmas: seq<Lemma>, text: string, site: nat): (r: Option<Lemma>)
    ensures r.Some? ==> r.value in lemmas && r.value.text == text && r.value.siteId == site
  {
    match FindLemma(lemmas, text, site)
    case None => None
    case Some(i) => Some(lemmas[i])
  }

  /** The frequency of the row, 0 for a missing row. */
  function Frequency(lemmas: seq<Lemma>, text: string, site: nat): nat {
    match LemmaRow(lemmas, text, site)
    case None => 0
    case Some(l) => l.frequency
  }

  lemma {:induction false} FindLemmaAppend(lemmas: seq<Lemma>, x: Lemma)
    ensures forall t, s ::
              FindLemma(lemmas + [x], t, s) ==
                (if FindLemma(lemmas, t, s).Some? then FindLemma(lemmas, t, s)
                 else if x.text == t && x.siteId == s then Some(|lemmas|) else None)
  {
    if |lemmas| > 0 {
      FindLemmaAppend(lemmas[1..], x);
      assert (lemmas + [x])[1..] == lemmas[1..] + [x];
    }
  }

  lemma {:induction false} FindLemmaUpdate(lemmas: seq<Lemma>, i: nat, y: Lemma)
    requires i < |lemmas| && y.text == lemmas[i].text && y.siteId == lemmas[i].siteId
    ensures forall t, s :: FindLemma(lemmas[i := y], t, s) == FindLemma(lemmas, t, s)
  {
    if i == 0 {
      assert lemmas[i := y][1..] == lemmas[1..];
    } else {
      FindLemmaUpdate(lemmas[1..], i - 1, y);
      assert lemmas[i := y][1..] == lemmas[1..][i - 1 := y];
    }
  }

  /** The row `SaveLemma` leaves for the text: a new row with frequency 1, or the old one incremented. */
  function SavedRow(lemmas: seq<Lemma>, nextId: nat, text: string, site: nat): Lemma {
    match LemmaRow(lemmas, text, site)
    case None => Lemma(nextId, site, text, 1)
    case Some(l) => l.(frequency := l.frequency + 1)
  }

  /**
   * The lemma half of the loop body: create the row with frequency 1 or increment it,
   * then save it. The result carries the row's id.
   */
  function SaveLemma(st: Store, text: string, site: nat): (r: (Store, nat))
    ensures r.0.sites == st.sites && r.0.pages == st.pages && r.0.postings == st.postings
    ensures LemmaRow(r.0.lemmas, text, site) == Some(SavedRow(st.lemmas, st.nextId, text, site))
    ensures r.1 == SavedRow(st.lemmas, st.nextId, text, site).id
    ensures forall t, s :: (t != text || s != site) ==> LemmaRow(r.0.lemmas, t, s) == LemmaRow(st.lemmas, t, s)
    ensures r.0.nextId == if LemmaRow(st.lemmas, text, site).None? then st.nextId + 1 else st.nextId
  {
    match FindLemma(st.lemmas, text, site)
    case None =>
      var l := Lemma(st.nextId, site, text, 1);
      FindLemmaAppend(st.lemmas, l);
      var st' := st.(lemmas := st.lemmas + [l], nextId := st.nextId + 1);
      assert forall t, s :: FindLemma(st.lemmas, t, s).Some? ==>
        st'.lemmas[FindLemma(st.lemmas, t, s).value] == st.lemmas[FindLemma(st.lemmas, t, s).value];
      (st', l.id)
    case Some(i) =>
      var l := st.lemmas[i].(frequency := st.lemmas[i].frequency + 1);
      FindLemmaUpdate(st.lemmas, i, l);
      var st' := st.(lemmas := st.lemmas[i := l]);
      (st', l.id)
  }

  /** `indexRep.save(new Index(page, lemma, rank))`. */
  function AddPosting(st: Store, pageId: nat, lemmaId: nat, rank: nat): (r: Store)
    ensures r.sites == st.sites && r.pages == st.pages && r.lemmas == st.lemmas
    ensures r.postings == st.postings + [Posting(st.nextId, pageId, lemmaId, rank)]
    ensures r.nextId == st.nextId + 1
  {
    st.(postings := st.postings + [Posting(st.nextId, pageId, lemmaId, rank)], nextId := st.nextId + 1)
  }

  /** The loop of `indexingPageAndGetLemmas` over the counted entries, in key order. */
  function IndexEntries(st: Store, entries: seq<(string, nat)>, pageId: nat, site: nat): (r: Store)
    ensures r.sites == st.sites && r.pages == st.pages
    ensures |r.postings| == |st.postings| + |entries| && r.postings[..|st.postings|] == st.postings
    ensures r.nextId >= st.nextId
    decreases |entries|
  {
    if |entries| == 0 then st
    else
      var st2 := IndexOne(st, entries[0], pageId, site);
      var r := IndexEntries(st2, entries[1..], pageId, site);
      assert r.postings[..|st.postings|] == r.postings[..|st2.postings|][..|st.postings|];
      r
  }

  /** One entry of that loop: save its lemma row, then its posting. */
  function IndexOne(st: Store, e: (string, nat), pageId: nat, site: nat): (r: Store)
    ensures r.sites == st.sites && r.pages == st.pages
    ensures |r.postings| == |st.postings| + 1 && r.postings[..|st.postings|] == st.postings
    ensures r.nextId > st.nextId
  {
    var saved := SaveLemma(st, e.0, site);
    AddPosting(saved.0, pageId, saved.1, e.1)
  }

  /** The rows a run touches: those of its site with a counted key. */
  ghost predicate Touched(entries: seq<(string, nat)>, site: nat, t: string, s: nat) {
    s == site && t in KeySet(entries)
  }

  /** A touched row is the old row with frequency one higher, or a new row with frequency 1. */
  ghost predicate Bumped(before: Option<Lemma>, after: Option<Lemma>) {
    after.Some? &&
    match before
    case None => after.value.frequency == 1
    case Some(l) => after.value == l.(frequency := l.frequency + 1)
  }

  ghost predicate RowAfter(entries: seq<(string, nat)>, site: nat, t: string, s: nat, before: Option<Lemma>, after: Option<Lemma>) {
    if Touched(entries, site, t, s) then Bumped(before, after) else after == before
  }

  lemma SortedHeadNotInTail(entries: seq<(string, nat)>)
    requires Sorted(entries) && |entries| > 0
    ensures entries[0].0 !in KeySet(entries[1..])
    ensures KeySet(entries) == {entries[0].0} + KeySet(entries[1..])
  {
    var rest := entries[1..];
    forall j | 0 <= j < |rest| ensures rest[j].0 != entries[0].0 {
      assert Less(entries[0].0, entries[j + 1].0);
      LessIrreflexive(entries[0].0);
    }
    KeySetCons(entries[0], rest);
    assert entries == [entries[0]] + rest;
  }

  /** What one run does to the lemma rows: touched rows are bumped, the others stay. */
  lemma {:induction false} IndexEntriesRows(st: Store, entries: seq<(string, nat)>, pageId: nat, site: nat)
    requires Sorted(entries)
    ensures var r := IndexEntries(st, entries, pageId, site);
      forall t, s :: RowAfter(entries, site, t, s, LemmaRow(st.lemmas, t, s), LemmaRow(r.lemmas, t, s))
    decreases |entries|
  {
    if |entries| > 0 {
      var k := entries[0].0;
      var st2 := IndexOne(st, entries[0], pageId, site);
      var rest := entries[1..];
      SortedTail(entries);
      SortedHeadNotInTail(entries);
      IndexEntriesRows(st2, rest, pageId, site);
      var r := IndexEntries(st2, rest, pageId, site);
      forall t, s ensures RowAfter(entries, site, t, s, LemmaRow(st.lemmas, t, s), LemmaRow(r.lemmas, t, s)) {
        assert RowAfter(rest, site, t, s, LemmaRow(st2.lemmas, t, s), LemmaRow(r.lemmas, t, s));
        if t == k && s == site {
          assert !Touched(rest, site, t, s);
        }
      }
    }
  }

  /** The posting recorded for an entry: the page, the entry's count, the key's row. */
  ghost predicate PostingOfEntry(x: Posting, e: (string, nat), lemmas: seq<Lemma>, pageId: nat, site: nat) {
    && x.pageId == pageId && x.rank == e.1
    && LemmaRow(lemmas, e.0, site).Some?
    && x.lemmaId == LemmaRow(lemmas, e.0, site).value.id
  }

  /** One posting per entry is appended, in entry order. */
  lemma {:induction false} IndexEntriesPostings(st: Store, entries: seq<(string, nat)>, pageId: nat, site: nat)
    requires Sorted(entries)
    ensures forall i :: 0 <= i < |entries| ==> PostingOfEntry(
      IndexEntries(st, entries, pageId, site).postings[|st.postings| + i], entries[i],
      IndexEntries(st, entries, pageId, site).lemmas, pageId, site)
    decreases |entries|
  {
    if |entries| > 0 {
      var st2 := IndexOne(st, entries[0], pageId, site);
      var rest := entries[1..];
      SortedTail(entries);
      IndexEntriesPostings(st2, rest, pageId, site);
      var r := IndexEntries(st2, rest, pageId, site);
      FirstPosting(st, entries, pageId, site);
      ConsPostings(r, entries, |st.postings|, |st2.postings|, pageId, site);
    }
  }

  /** The postings for the first entry and for the rest, one after the other, cover all entries. */
  lemma ConsPostings(r: Store, entries: seq<(string, nat)>, base: nat, next: nat, pageId: nat, site: nat)
    requires |entries| > 0 && next == base + 1 && base + |entries| <= |r.postings|
    requires PostingOfEntry(r.postings[base], entries[0], r.lemmas, pageId, site)
    requires forall i :: 0 <= i < |entries[1..]| ==>
      PostingOfEntry(r.postings[next + i], entries[1..][i], r.lemmas, pageId, site)
    ensures forall i :: 0 <= i < |entries| ==> PostingOfEntry(r.postings[base + i], entries[i], r.lemmas, pageId, site)
  {
    forall i | 1 <= i < |entries|
      ensures PostingOfEntry(r.postings[base + i], entries[i], r.lemmas, pageId, site)
    {
      assert entries[1..][i - 1] == entries[i];
      assert next + (i - 1) == base + i;
    }
  }

  /** The first entry's posting refers to the row its key has at the end of the run. */
  lemma FirstPosting(st: Store, entries: seq<(string, nat)>, pageId: nat, site: nat)
    requires Sorted(entries) && |entries| > 0
    ensures PostingOfEntry(IndexEntries(st, entries, pageId, site).postings[|st.postings|], entries[0],
      IndexEntries(st, entries, pageId, site).lemmas, pageId, site)
  {
    var k := entries[0].0;
    var saved := SaveLemma(st, k, site);
    var st2 := IndexOne(st, entries[0], pageId, site);
    assert st2 == AddPosting(saved.0, pageId, saved.1, entries[0].1);
    var rest := entries[1..];
    SortedTail(entries);
    SortedHeadNotInTail(entries);
    IndexEntriesRows(st2, rest, pageId, site);
    var r := IndexEntries(st2, rest, pageId, site);
    assert r.postings[..|st2.postings|] == st2.postings;
    var x := r.postings[|st.postings|];
    assert x == st2.postings[|st.postings|];
    assert x == Posting(saved.0.nextId, pageId, saved.1, entries[0].1);
    assert RowAfter(rest, site, k, site, LemmaRow(st2.lemmas, k, site), LemmaRow(r.lemmas, k, site));
    assert LemmaRow(r.lemmas, k, site) == LemmaRow(saved.0.lemmas, k, site);
  }

  /** Touched rows gain exactly one in frequency, the others keep theirs, and no row changes id. */
  lemma IndexEntriesFrequency(st: Store, entries: seq<(string, nat)>, pageId: nat, site: nat)
    requires Sorted(entries)
    ensures var r := IndexEntries(st, entries, pageId, site);
      && (forall t, s :: Frequency(r.lemmas, t, s) == Frequency(st.lemmas, t, s) + (if Touched(entries, site, t, s) then 1 else 0))
      && (forall t, s :: LemmaRow(st.lemmas, t, s).Some? ==>
            LemmaRow(r.lemmas, t, s).Some? && LemmaRow(r.lemmas, t, s).value.id == LemmaRow(st.lemmas, t, s).value.id)
  {
    var r := IndexEntries(st, entries, pageId, site);
    IndexEntriesRows(st, entries, pageId, site);
    forall t, s ensures Frequency(r.lemmas, t, s) == Frequency(st.lemmas, t, s) + (if Touched(entries, site, t, s) then 1 else 0) {
      assert RowAfter(entries, site, t, s, LemmaRow(st.lemmas, t, s), LemmaRow(r.lemmas, t, s));
    }
    forall t, s | LemmaRow(st.lemmas, t, s).Some?
      ensures LemmaRow(r.lemmas, t, s).Some? && LemmaRow(r.lemmas, t, s).value.id == LemmaRow(st.lemmas, t, s).value.id
    {
      assert RowAfter(entries, site, t, s, LemmaRow(st.lemmas, t, s), LemmaRow(r.lemmas, t, s));
    }
  }

  /** The counted map of a page, from the lemmatizer's collected map. */
  function PageCounts(coll: seq<(string, nat)>, page: Page, m: Morphology): (r: seq<(string, nat)>)
    requires Sorted(coll)
    ensures Sorted(r)
  {
    GetLemmasFromText(coll, StripTags(page.content), m)
  }

  /**
   * `indexingPageAndGetLemmas(page, site)`: count the page's text into the collected
   * map, record every entry, and clear the map. The second component is the map
   * afterwards.
   */
  function IndexPage(st: Store, coll: seq<(string, nat)>, page: Page, site: nat, m: Morphology): (r: (Store, seq<(string, nat)>))
    requires Sorted(coll)
    ensures r.0.sites == st.sites && r.0.pages == st.pages
    ensures r.1 == []
    ensures |r.0.postings| == |st.postings| + |PageCounts(coll, page, m)|
    ensures r.0.nextId >= st.nextId
  {
    (IndexEntries(st, PageCounts(coll, page, m), page.id, site), [])
  }

  /** The effect of indexing one page, stated on the page's own counts. */
  lemma IndexPageEffect(st: Store, coll: seq<(string, nat)>, page: Page, site: nat, m: Morphology)
    requires Sorted(coll)
    ensures var r := IndexPage(st, coll, page, site, m).0;
      var counts := PageCounts(coll, page, m);
      && (forall t, s :: Frequency(r.lemmas, t, s) == Frequency(st.lemmas, t, s) + (if Touched(counts, site, t, s) then 1 else 0))
      && (forall t, s :: !Touched(counts, site, t, s) ==> LemmaRow(r.lemmas, t, s) == LemmaRow(st.lemmas, t, s))
      && (forall i :: 0 <= i < |counts| ==>
            PostingOfEntry(r.postings[|st.postings| + i], counts[i], r.lemmas, page.id, site)
            && Get(counts, counts[i].0) == Some(r.postings[|st.postings| + i].rank))
  {
    var counts := PageCounts(coll, page, m);
    var r := IndexPage(st, coll, page, site, m).0;
    IndexEntriesFrequency(st, counts, page.id, site);
    IndexEntriesRows(st, counts, page.id, site);
    IndexEntriesPostings(st, counts, page.id, site);
    forall t, s | !Touched(counts, site, t, s) ensures LemmaRow(r.lemmas, t, s) == LemmaRow(st.lemmas, t, s) {
      assert RowAfter(counts, site, t, s, LemmaRow(st.lemmas, t, s), LemmaRow(r.lemmas, t, s));
    }
    forall i | 0 <= i < |counts| ensures Get(counts, counts[i].0) == Some(r.postings[|st.postings| + i].rank) {
      GetAt(counts, i);
    }
  }

  /** Two postings agree on everything but their own id. */
  predicate SamePosting(x: Posting, y: Posting) {
    x.pageId == y.pageId && x.lemmaId == y.lemmaId && x.rank == y.rank
  }

  /**
   * Indexing the same page twice from an empty map adds two to every counted lemma's
   * frequency and duplicates the postings: the second run's repeat the first's.
   */
  lemma IndexPageTwice(st: Store, page: Page, site: nat, m: Morphology)
    ensures var r1 := IndexPage(st, [], page, site, m).0;
      var r2 := IndexPage(r1, [], page, site, m).0;
      var counts := PageCounts([], page, m);
      var first := r2.postings[|st.postings|..|r1.postings|];
      var second := r2.postings[|r1.postings|..];
      && |r2.postings| == |st.postings| + 2 * |counts|
      && |first| == |second| == |counts|
      && (forall t :: t in KeySet(counts) ==> Frequency(r2.lemmas, t, site) == Frequency(st.lemmas, t, site) + 2)
      && (forall i :: 0 <= i < |first| ==> SamePosting(first[i], second[i]))
  {
    TwiceFrequency(st, page, site, m);
    TwicePostings(st, page, site, m);
  }

  lemma TwiceFrequency(st: Store, page: Page, site: nat, m: Morphology)
    ensures var r1 := IndexPage(st, [], page, site, m).0;
      var r2 := IndexPage(r1, [], page, site, m).0;
      forall t :: t in KeySet(PageCounts([], page, m)) ==> Frequency(r2.lemmas, t, site) == Frequency(st.lemmas, t, site) + 2
  {
    var counts := PageCounts([], page, m);
    var r1 := IndexPage(st, [], page, site, m).0;
    IndexEntriesFrequency(st, counts, page.id, site);
    IndexEntriesFrequency(r1, counts, page.id, site);
    assert forall t :: t in KeySet(counts) ==> Touched(counts, site, t, site);
  }

  lemma TwicePostings(st: Store, page: Page, site: nat, m: Morphology)
    ensures var r1 := IndexPage(st, [], page, site, m).0;
      var r2 := IndexPage(r1, [], page, site, m).0;
      var first := r2.postings[|st.postings|..|r1.postings|];
      var second := r2.postings[|r1.postings|..];
      |first| == |second| && forall i :: 0 <= i < |first| ==> SamePosting(first[i], second[i])
  {
    var counts := PageCounts([], page, m);
    var r1 := IndexPage(st, [], page, site, m).0;
    var r2 := IndexPage(r1, [], page, site, m).0;
    var first := r2.postings[|st.postings|..|r1.postings|];
    var second := r2.postings[|r1.postings|..];
    IndexEntriesFrequency(r1, counts, page.id, site);
    IndexEntriesPostings(st, counts, page.id, site);
    IndexEntriesPostings(r1, counts, page.id, site);
    assert r2.postings[..|r1.postings|] == r1.postings;
    forall i | 0 <= i < |first| ensures PostingOfEntry(first[i], counts[i], r1.lemmas, page.id, site) {
      assert first[i] == r1.postings[|st.postings| + i];
    }
    forall i | 0 <= i < |second| ensures PostingOfEntry(second[i], counts[i], r2.lemmas, page.id, site) {
      assert second[i] == r2.postings[|r1.postings| + i];
    }
    SameRowsSamePostings(first, second, counts, r1.lemmas, r2.lemmas, page.id, site);
  }

  /** Postings of the same entries against rows with the same ids agree. */
  lemma SameRowsSamePostings(a: seq<Posting>, b: seq<Posting>, entries: seq<(string, nat)>, l1: seq<Lemma>, l2: seq<Lemma>, pageId: nat, site: nat)
    requires |a| == |b| == |entries|
    requires forall i :: 0 <= i < |a| ==> PostingOfEntry(a[i], entries[i], l1, pageId, site)
    requires forall i :: 0 <= i < |b| ==> PostingOfEntry(b[i], entries[i], l2, pageId, site)
    requires forall t, s :: LemmaRow(l1, t, s).Some? ==> LemmaRow(l2, t, s).Some? && LemmaRow(l2, t, s).value.id == LemmaRow(l1, t, s).value.id
    ensures forall i :: 0 <= i < |a| ==> SamePosting(a[i], b[i])
  {
  }

  /** Saving a lemma keeps the store's invariants. */
  lemma SaveLemmaWellFormed(st: Store, text: string, site: nat)
    requires WellFormed(st)
    ensures WellFormed(SaveLemma(st, text, site).0)
  {
    var r := SaveLemma(st, text, site).0;
    match FindLemma(st.lemmas, text, site)
    case None =>
      assert r.lemmas == st.lemmas + [Lemma(st.nextId, site, text, 1)];
      forall i | 0 <= i < |r.postings| ensures HasPage(r, r.postings[i].pageId) {
        assert HasPage(st, st.postings[i].pageId);
      }
    case Some(j) =>
      assert r.lemmas == st.lemmas[j := st.lemmas[j].(frequency := st.lemmas[j].frequency + 1)];
      forall i | 0 <= i < |r.postings| ensures HasPage(r, r.postings[i].pageId) {
        assert HasPage(st, st.postings[i].pageId);
      }
  }

  /** Appending a posting of a stored page with a positive rank keeps the invariants. */
  lemma AddPostingWellFormed(st: Store, pageId: nat, lemmaId: nat, rank: nat)
    requires WellFormed(st) && HasPage(st, pageId) && rank >= 1
    ensures WellFormed(AddPosting(st, pageId, lemmaId, rank))
  {
    var r := AddPosting(st, pageId, lemmaId, rank);
    forall i | 0 <= i < |r.postings| ensures HasPage(r, r.postings[i].pageId) {
      if i < |st.postings| {
        assert HasPage(st, st.postings[i].pageId);
      }
    }
  }

  lemma {:induction false} IndexEntriesWellFormed(st: Store, entries: seq<(string, nat)>, pageId: nat, site: nat)
    requires WellFormed(st) && HasPage(st, pageId) && PositiveCounts(entries)
    ensures WellFormed(IndexEntries(st, entries, pageId, site))
    decreases |entries|
  {
    if |entries| > 0 {
      var (st1, lemmaId) := SaveLemma(st, entries[0].0, site);
      SaveLemmaWellFormed(st, entries[0].0, site);
      assert HasPage(st1, pageId);
      var st2 := IndexOne(st, entries[0], pageId, site);
      assert st2 == AddPosting(st1, pageId, lemmaId, entries[0].1);
      AddPostingWellFormed(st1, pageId, lemmaId, entries[0].1);
      assert HasPage(st2, pageId);
      IndexEntriesWellFormed(st2, entries[1..], pageId, site);
    }
  }

  /** Indexing a stored page keeps the store's invariants. */
  lemma IndexPageWellFormed(st: Store, coll: seq<(string, nat)>, page: Page, site: nat, m: Morphology)
    requires WellFormed(st) && HasPage(st, page.id) && Sorted(coll) && PositiveCounts(coll)
    ensures WellFormed(IndexPage(st, coll, page, site, m).0)
  {
    IndexEntriesWellFormed(st, PageCounts(coll, page, m), page.id, site);
  }
}

=== FILE: links.dfy ===
/**
 * The link predicates of the indexing service: which crawled links may be fetched,
 * and which urls belong to a configured site.
 */
module Links {
  import opened Text
  import opened Entities

  /** The alternatives of the look-ahead in the link pattern, in pattern order. */
  const BlockedSuffixes: seq<string> := [
    "jpg", "lang=en", "lang=ru", "jpeg", "png", "gif", "webp", "pdf", "eps",
    "xlsx", "doc", "pptx", "docx", "zip", "mp4", "wma", "ppt", "ru"]

  /** What `$` (without MULTILINE) lets follow a match: nothing, or one final line terminator. */
  const FinalTerminators: seq<string> := ["", "\n", "\r", "\U{0085}", "\U{2028}", "\U{2029}", "\r\n"]

  predicate HasNoDot(s: string) {
    forall i :: 0 <= i < |s| ==> s[i] != '.'
  }

  predicate HasNoLineTerminator(s: string) {
    forall i :: 0 <= i < |s| ==> !IsLineTerminator(s[i])
  }

  /**
   * The look-ahead branch of the pattern succeeds with suffix `sfx` and end tail `tail`:
   * the string is `p + sfx + tail` where `.*` matched `p` (so `p` has no line terminator).
   */
  predicate EndsWithBlocked(l: string, sfx: string, tail: string) {
    HasSuffix(l, sfx + tail) && HasNoLineTerminator(l[..|l| - |sfx + tail|])
  }

  /**
   * `l.matches("^(?:.*(?=(jpg|...|ru)$))?[^.]*$")`. The remainder after the optional group
   * is matched by `[^.]*`, so the whole string matches when it has no `.` at all, or when
   * the group matched and the remainder (a suffix and a final terminator, neither with a
   * `.`) runs to the end.
   */
  predicate MatchesBlockedPattern(l: string) {
    || HasNoDot(l)
    || exists k, t :: 0 <= k < |BlockedSuffixes| && 0 <= t < |FinalTerminators|
         && EndsWithBlocked(l, BlockedSuffixes[k], FinalTerminators[t])
  }

  /** `isValidLink`: judged on the lower-cased link against the current site prefix. */
  predicate IsValidLink(link: string, parentLink: string) {
    var l := Lower(link);
    && !MatchesBlockedPattern(l)
    && !Contains(l, "#")
    && !Contains(l, "?")
    && HasPrefix(l, parentLink)
  }

  /** The predicate only sees the lower case of the link. */
  lemma {:induction false} ValidLinkLowerInvariant(link: string, parentLink: string)
    ensures IsValidLink(Lower(link), parentLink) == IsValidLink(link, parentLink)
  {
    LowerIdempotent(link);
  }

  /** A fragment marker, a query marker or a foreign prefix makes a link invalid. */
  lemma {:induction false} InvalidLinks(link: string, parentLink: string)
    ensures '#' in link ==> !IsValidLink(link, parentLink)
    ensures '?' in link ==> !IsValidLink(link, parentLink)
    ensures !HasPrefix(Lower(link), parentLink) ==> !IsValidLink(link, parentLink)
    ensures MatchesBlockedPattern(Lower(link)) ==> !IsValidLink(link, parentLink)
  {
    LowerKeepsChar(link, '#');
    LowerKeepsChar(link, '?');
    ContainsChar(Lower(link), '#');
    ContainsChar(Lower(link), '?');
  }

  /**
   * For a link without line terminators the pattern says: no `.` at all, or the link ends
   * with one of the eighteen blocked suffixes.
   */
  lemma {:induction false} BlockedPatternPlain(l: string)
    requires HasNoLineTerminator(l)
    ensures MatchesBlockedPattern(l) <==>
      HasNoDot(l) || exists k :: 0 <= k < |BlockedSuffixes| && HasSuffix(l, BlockedSuffixes[k])
  {
    if exists k :: 0 <= k < |BlockedSuffixes| && HasSuffix(l, BlockedSuffixes[k]) {
      var k :| 0 <= k < |BlockedSuffixes| && HasSuffix(l, BlockedSuffixes[k]);
      assert BlockedSuffixes[k] + FinalTerminators[0] == BlockedSuffixes[k];
      assert EndsWithBlocked(l, BlockedSuffixes[k], FinalTerminators[0]);
    }
    if exists k, t :: 0 <= k < |BlockedSuffixes| && 0 <= t < |FinalTerminators|
         && EndsWithBlocked(l, BlockedSuffixes[k], FinalTerminators[t]) {
      var k, t :| 0 <= k < |BlockedSuffixes| && 0 <= t < |FinalTerminators|
         && EndsWithBlocked(l, BlockedSuffixes[k], FinalTerminators[t]);
      if t != 0 {
        SuffixLastChar(l, BlockedSuffixes[k] + FinalTerminators[t]);
        assert false;
      }
      assert BlockedSuffixes[k] + FinalTerminators[t] == BlockedSuffixes[k];
    }
  }

  /** A link ending with `/` that has a `.` is not caught by the pattern. */
  lemma {:induction false} SlashEndedNotBlocked(l: string)
    requires HasNoLineTerminator(l) && |l| > 0 && l[|l| - 1] == '/' && !HasNoDot(l)
    ensures !MatchesBlockedPattern(l)
  {
    BlockedPatternPlain(l);
    forall k | 0 <= k < |BlockedSuffixes| ensures !HasSuffix(l, BlockedSuffixes[k]) {
      var sfx := BlockedSuffixes[k];
      assert sfx[|sfx| - 1] != '/';
    }
  }

  lemma SuffixLastChar(l: string, u: string)
    requires HasSuffix(l, u) && |u| > 0
    ensures l[|l| - 1] == u[|u| - 1]
  {
  }

  /** The bare `ru` alternative rejects a site root written without its final slash. */
  lemma RootWithoutSlashRejected()
    ensures !IsValidLink("https://x.ru", "https://x.ru/")
  {
    var l := "https://x.ru";
    assert Lower(l) == l;
    assert HasNoLineTerminator(l);
    assert HasSuffix(l, BlockedSuffixes[17]);
    BlockedPatternPlain(l);
  }

  /**
   * A link in lower case, ending with `/`, with a `.` and no `#`, `?` or line terminator,
   * under the current site prefix is accepted.
   */
  lemma {:induction false} SlashEndedAccepted(link: string, parentLink: string)
    requires Lower(link) == link && HasNoLineTerminator(link)
    requires |link| > 0 && link[|link| - 1] == '/' && !HasNoDot(link)
    requires '#' !in link && '?' !in link && HasPrefix(link, parentLink)
    ensures IsValidLink(link, parentLink)
  {
    SlashEndedNotBlocked(link);
    ContainsChar(link, '#');
    ContainsChar(link, '?');
    assert "#" == ['#'] && "?" == ['?'];
  }

  /** With the slash the same root passes every test. */
  lemma RootWithSlashAccepted()
    ensures IsValidLink("https://x.ru/", "https://x.ru/")
  {
    var l := "https://x.ru/";
    assert Lower(l) == l;
    assert l[9] == '.';
    SlashEndedAccepted(l, l);
  }

  /** `isLinkFromConfig`, as a statement about the configuration. */
  predicate FromConfig(url: string, sites: seq<SiteConfig>) {
    exists i :: 0 <= i < |sites| && Contains(url, sites[i].url)
  }

  /** `isLinkFromConfig`: the loop visits every configured site and never stops early. */
  method IsLinkFromConfig(url: string, sites: seq<SiteConfig>) returns (result: bool)
    ensures result <==> exists i :: 0 <= i < |sites| && Contains(url, sites[i].url)
    ensures |sites| == 0 ==> !result
  {
    result := false;
    var i := 0;
    while i < |sites|
      invariant 0 <= i <= |sites|
      invariant result <==> exists j :: 0 <= j < i && Contains(url, sites[j].url)
    {
      if Contains(url, sites[i].url) {
        result := true;
      }
      i := i + 1;
    }
  }

  /** The answer depends only on which site urls are configured, not on their order. */
  lemma FromConfigOrderFree(url: string, a: seq<SiteConfig>, b: seq<SiteConfig>)
    requires forall s :: s in a <==> s in b
    ensures FromConfig(url, a) == FromConfig(url, b)
  {
    if FromConfig(url, a) {
      var i :| 0 <= i < |a| && Contains(url, a[i].url);
      assert a[i] in b;
    }
    if FromConfig(url, b) {
      var i :| 0 <= i < |b| && Contains(url, b[i].url);
      assert b[i] in a;
    }
  }

  /**
   * The path recorded for a page that failed with an HTTP status: `url.replaceAll(siteUrl, "/")`.
   * The site url is a pattern; its `.` matches any character but a line terminator.
   */
  function ErrorPath(url: string, siteUrl: string): string {
    ReplaceAll(url, siteUrl, "/", true)
  }

  /** A url under the site url gets the site prefix replaced by `/`. */
  lemma {:induction false} ErrorPathUnderSite(siteUrl: string, rest: string)
    requires |siteUrl| > 0
    requires forall i :: 0 <= i <= |rest| ==> !MatchesAt(rest[i..], siteUrl, true)
    ensures ErrorPath(siteUrl + rest, siteUrl) == "/" + rest
  {
    ReplaceAtPrefix(siteUrl, rest, "/", true);
    ReplaceWithoutMatch(rest, siteUrl, "/");
  }

  lemma {:induction false} ReplaceWithoutMatch(s: string, pat: string, rep: string)
    requires |pat| > 0
    requires forall i :: 0 <= i <= |s| ==> !MatchesAt(s[i..], pat, true)
    ensures ReplaceAll(s, pat, rep, true) == s
    decreases |s|
  {
    assert s[0..] == s;
    if |s| > 0 {
      forall i | 0 <= i <= |s[1..]| ensures !MatchesAt(s[1..][i..], pat, true) {
        assert s[1..][i..] == s[i + 1..];
      }
      ReplaceWithoutMatch(s[1..], pat, rep);
    }
  }
}

=== FILE: searching.dfy ===
/**
 * The searching service: the lemmas of a query, their frequencies summed over the
 * stored lemma rows, the lemmas ordered by that sum, the pages that contain them, the
 * relevance of each page and the paged response. The service is a singleton, so its
 * fields carry over from one search to the next.
 */
module Searching {
  import opened Wrappers
  import opened Text
  import opened TreeMap
  import opened Entities
  import opened Lemmatizer
  import opened Snippets

  /**
   * The service's fields. `lemmasQuery` is a set kept in insertion order; `sortedMap`
   * is the frequency map in the order of its value comparator.
   */
  datatype Searcher = Searcher(
    wordsMap: seq<(string, nat)>,
    lemmasQuery: seq<string>,
    sortedMap: seq<(string, nat)>,
    allLemmas: seq<Lemma>,
    countResult: nat,
    indexes: seq<Posting>)

  function Fresh(): Searcher {
    Searcher([], [], [], [], 0, [])
  }

  // ---------------------------------------------------------------- query lemmas

  /** `addAll` on a set kept as a list without repeats. */
  function AddAll(xs: seq<string>, ys: seq<string>): (r: seq<string>)
    ensures forall y :: y in r <==> y in xs || y in ys
    ensures Distinct(xs) ==> Distinct(r)
    ensures (forall y :: y in ys ==> y in xs) ==> r == xs
    decreases |ys|
  {
    if |ys| == 0 then xs
    else
      assert forall y :: y in ys <==> y == ys[0] || y in ys[1..];
      AddAll(AddDistinct(xs, ys[0]), ys[1..])
  }

  /** The lemma counts of a query, as a fresh lemmatizer makes them. */
  function QueryLemmas(query: string, m: Morphology): seq<(string, nat)> {
    GetLemmasFromText([], Lower(query), m)
  }

  /** `getLemmasFromQuery(query)`: the query's counts replace `wordsMap`, its lemmas join `lemmasQuery`. */
  function GetLemmasFromQuery(s: Searcher, query: string, m: Morphology): (r: Searcher)
    ensures r.wordsMap == QueryLemmas(query, m)
    ensures forall t :: t in r.lemmasQuery <==> t in s.lemmasQuery || t in KeySet(QueryLemmas(query, m))
    ensures Distinct(s.lemmasQuery) ==> Distinct(r.lemmasQuery)
    ensures r == s.(wordsMap := r.wordsMap, lemmasQuery := r.lemmasQuery)
  {
    var w := QueryLemmas(query, m);
    assert forall t :: t in Keys(w) <==> t in KeySet(w) by {
      forall t | t in KeySet(w) ensures t in Keys(w) {
        var i :| 0 <= i < |w| && w[i].0 == t;
        assert Keys(w)[i] == t;
      }
    }
    s.(wordsMap := w, lemmasQuery := AddAll(s.lemmasQuery, Keys(w)))
  }

  /** `lemmaRepository.findAllByLemma...(text)`: the rows of every site with that text. */
  function RowsWithText(lemmas: seq<Lemma>, t: string): (r: seq<Lemma>)
    ensures forall l :: l in r <==> l in lemmas && l.text == t
  {
    if |lemmas| == 0 then []
    else if lemmas[0].text == t then [lemmas[0]] + RowsWithText(lemmas[1..], t)
    else RowsWithText(lemmas[1..], t)
  }

  /** The rows for every query lemma, lemma by lemma. */
  function CollectRows(lemmas: seq<Lemma>, texts: seq<string>): (r: seq<Lemma>)
    ensures forall l :: l in r <==> l in lemmas && l.text in texts
  {
    if |texts| == 0 then []
    else
      assert forall t :: t in texts <==> t == texts[0] || t in texts[1..];
      RowsWithText(lemmas, texts[0]) + CollectRows(lemmas, texts[1..])
  }

  // ---------------------------------------------------------------- frequencies

  /** The summed frequency of the rows with a text: the reference for the tally. */
  function FreqOf(ls: seq<Lemma>, t: string): nat {
    if |ls| == 0 then 0 else (if ls[0].text == t then ls[0].frequency else 0) + FreqOf(ls[1..], t)
  }

  lemma {:induction false} FreqOfAppend(a: seq<Lemma>, b: seq<Lemma>, t: string)
    ensures FreqOf(a + b, t) == FreqOf(a, t) + FreqOf(b, t)
  {
    if |a| > 0 {
      assert (a + b)[1..] == a[1..] + b;
      FreqOfAppend(a[1..], b, t);
    } else {
      assert a + b == b;
    }
  }

  function Texts(ls: seq<Lemma>): set<string> {
    set i | 0 <= i < |ls| :: ls[i].text
  }

  lemma TextsCons(ls: seq<Lemma>)
    requires |ls| > 0
    ensures Texts(ls) == {ls[0].text} + Texts(ls[1..])
  {
    forall t | t in Texts(ls) ensures t in {ls[0].text} + Texts(ls[1..]) {
      var i :| 0 <= i < |ls| && ls[i].text == t;
      if i > 0 {
        assert ls[1..][i - 1] == ls[i];
      }
    }
    forall t | t in Texts(ls[1..]) ensures t in Texts(ls) {
      var i :| 0 <= i < |ls[1..]| && ls[1..][i].text == t;
      assert ls[i + 1] == ls[1..][i];
    }
  }

  predicate DistinctKeys<V>(e: seq<(string, V)>) {
    forall i, j :: 0 <= i < j < |e| ==> e[i].0 != e[j].0
  }

  /** The values of a key summed over a list: the value of its one entry when keys are distinct. */
  function Total(e: seq<(string, nat)>, k: string): nat {
    if |e| == 0 then 0 else (if e[0].0 == k then e[0].1 else 0) + Total(e[1..], k)
  }

  lemma {:induction false} TotalAbsent(e: seq<(string, nat)>, k: string)
    requires forall j :: 0 <= j < |e| ==> e[j].0 != k
    ensures Total(e, k) == 0
  {
    if |e| > 0 {
      assert forall j :: 0 <= j < |e[1..]| ==> e[1..][j] == e[j + 1];
      TotalAbsent(e[1..], k);
    }
  }

  lemma {:induction false} TotalAt(e: seq<(string, nat)>, i: int)
    requires DistinctKeys(e) && 0 <= i < |e|
    ensures Total(e, e[i].0) == e[i].1
  {
    assert forall j :: 0 <= j < |e[1..]| ==> e[1..][j] == e[j + 1];
    if i == 0 {
      TotalAbsent(e[1..], e[0].0);
    } else {
      TotalAt(e[1..], i - 1);
    }
  }

  /** `put(k, get(k) + v)` or `putIfAbsent(k, v)`; a new key goes last. */
  function Bump(acc: seq<(string, nat)>, k: string, v: nat): (r: seq<(string, nat)>)
    ensures KeySet(r) == KeySet(acc) + {k}
    ensures forall t :: Total(r, t) == Total(acc, t) + (if t == k then v else 0)
    ensures DistinctKeys(acc) ==> DistinctKeys(r)
  {
    if |acc| == 0 then
      KeySetCons((k, v), []);
      assert [(k, v)] + [] == [(k, v)];
      assert KeySet<nat>([]) == {};
      var r := [(k, v)];
      assert r[1..] == [];
      r
    else if acc[0].0 == k then
      var r := [(k, acc[0].1 + v)] + acc[1..];
      KeySetCons(r[0], acc[1..]);
      KeySetCons(acc[0], acc[1..]);
      assert acc == [acc[0]] + acc[1..];
      assert r[1..] == acc[1..];
      assert DistinctKeys(acc) ==> DistinctKeys(r) by {
        if DistinctKeys(acc) {
          forall i, j | 0 <= i < j < |r| ensures r[i].0 != r[j].0 {
            assert r[j] == acc[j];
            if i > 0 {
              assert r[i] == acc[i];
            }
          }
        }
      }
      r
    else
      var t := Bump(acc[1..], k, v);
      KeySetCons(acc[0], acc[1..]);
      KeySetCons(acc[0], t);
      assert acc == [acc[0]] + acc[1..];
      var r := [acc[0]] + t;
      assert r[1..] == t;
      assert DistinctKeys(acc) ==> DistinctKeys(r) by {
        if DistinctKeys(acc) {
          assert acc[0].0 !in KeySet(acc[1..]) by {
            forall i | 0 <= i < |acc[1..]| ensures acc[1..][i].0 != acc[0].0 {
              assert acc[1..][i] == acc[i + 1];
            }
          }
          forall j | 0 < j < |r| ensures r[0].0 != r[j].0 {
            assert r[j].0 in KeySet(t);
          }
        }
      }
      r
  }

  /** The loop over `allLemmasList` summing frequencies per text. */
  function Tally(acc: seq<(string, nat)>, ls: seq<Lemma>): (r: seq<(string, nat)>)
    ensures KeySet(r) == KeySet(acc) + Texts(ls)
    ensures forall t :: Total(r, t) == Total(acc, t) + FreqOf(ls, t)
    ensures DistinctKeys(acc) ==> DistinctKeys(r)
    decreases |ls|
  {
    if |ls| == 0 then
      assert Texts(ls) == {};
      acc
    else
      var r := Tally(Bump(acc, ls[0].text, ls[0].frequency), ls[1..]);
      TextsCons(ls);
      r
  }

  /** Each text of the rows has exactly its summed frequency in the tally. */
  lemma TallyEntries(ls: seq<Lemma>)
    ensures var r := Tally([], ls);
      && DistinctKeys(r)
      && (forall e :: e in r ==> e.0 in Texts(ls) && e.1 == FreqOf(ls, e.0))
      && (forall t :: t in Texts(ls) ==> (t, FreqOf(ls, t)) in r)
  {
    var r := Tally([], ls);
    forall e | e in r ensures e.0 in Texts(ls) && e.1 == FreqOf(ls, e.0) {
      var i :| 0 <= i < |r| && r[i] == e;
      assert e.0 in KeySet(r);
      TotalAt(r, i);
    }
    forall t | t in Texts(ls) ensures (t, FreqOf(ls, t)) in r {
      assert t in KeySet(r);
      var i :| 0 <= i < |r| && r[i].0 == t;
      TotalAt(r, i);
    }
  }

  // ---------------------------------------------------------------- sortWords

  predicate NonDecreasing(e: seq<(string, nat)>) {
    forall i, j :: 0 <= i < j < |e| ==> e[i].1 <= e[j].1
  }

  /**
   * `put` into the TreeMap whose comparator says `a < b` whenever `b`'s value is at
   * least `a`'s: the entry goes before the first entry with a value at least its own.
   */
  function InsertByValue(e: seq<(string, nat)>, x: (string, nat)): (r: seq<(string, nat)>)
    ensures multiset(r) == multiset(e) + multiset{x}
    ensures NonDecreasing(e) ==> NonDecreasing(r)
  {
    if |e| == 0 then [x]
    else if e[0].1 >= x.1 then [x] + e
    else
      var t := InsertByValue(e[1..], x);
      InsertBehind(e, x, t);
      [e[0]] + t
  }

  /** An entry larger than the head is inserted into the tail, behind the head. */
  lemma InsertBehind(e: seq<(string, nat)>, x: (string, nat), t: seq<(string, nat)>)
    requires |e| > 0 && e[0].1 < x.1
    requires multiset(t) == multiset(e[1..]) + multiset{x}
    requires NonDecreasing(e[1..]) ==> NonDecreasing(t)
    ensures multiset([e[0]] + t) == multiset(e) + multiset{x}
    ensures NonDecreasing(e) ==> NonDecreasing([e[0]] + t)
  {
    assert e == [e[0]] + e[1..];
    if NonDecreasing(e) {
      assert NonDecreasing(e[1..]);
      HeadAtMost(e, x, t);
      ConsNonDecreasing(e[0], t);
    }
  }

  /** In a non-decreasing list the head is at most every later entry, and so at most the tail with `x`. */
  lemma HeadAtMost(e: seq<(string, nat)>, x: (string, nat), t: seq<(string, nat)>)
    requires |e| > 0 && e[0].1 < x.1 && NonDecreasing(e)
    requires multiset(t) == multiset(e[1..]) + multiset{x}
    ensures forall j :: 0 <= j < |t| ==> e[0].1 <= t[j].1
  {
    forall j | 0 <= j < |t| ensures e[0].1 <= t[j].1 {
      assert t[j] in multiset(t);
      if t[j] != x {
        assert t[j] in multiset(e[1..]);
        var k :| 0 <= k < |e[1..]| && e[1..][k] == t[j];
        assert e[k + 1] == t[j];
      }
    }
  }

  lemma ConsNonDecreasing(h: (string, nat), t: seq<(string, nat)>)
    requires NonDecreasing(t) && forall j :: 0 <= j < |t| ==> h.1 <= t[j].1
    ensures NonDecreasing([h] + t)
  {
    var r := [h] + t;
    forall i, j | 0 <= i < j < |r| ensures r[i].1 <= r[j].1 {
      assert r[j] == t[j - 1];
      if i > 0 {
        assert r[i] == t[i - 1];
      }
    }
  }

  /** `sortWords(words)`: `putAll` in the map's iteration order. */
  function SortWords(acc: seq<(string, nat)>, words: seq<(string, nat)>): (r: seq<(string, nat)>)
    ensures multiset(r) == multiset(acc) + multiset(words)
    ensures NonDecreasing(acc) ==> NonDecreasing(r)
    decreases |words|
  {
    if |words| == 0 then acc
    else
      assert words == [words[0]] + words[1..];
      SortWords(InsertByValue(acc, words[0]), words[1..])
  }

  // ---------------------------------------------------------------- pages

  /** The ids of the selected lemma rows. */
  function LemmaIds(ls: seq<Lemma>, t: string): (r: seq<nat>)
    ensures forall id :: id in r <==> exists l :: l in ls && l.text == t && l.id == id
  {
    if |ls| == 0 then []
    else
      var rest := LemmaIds(ls[1..], t);
      assert forall l :: l in ls <==> l == ls[0] || l in ls[1..];
      if ls[0].text == t then [ls[0].id] + rest else rest
  }

  /** `r` is `xs` with some entries left out, the rest in their order. */
  ghost predicate Subsequence<T>(r: seq<T>, xs: seq<T>)
    decreases |xs|
  {
    |r| == 0 || (|xs| > 0 && ((r[0] == xs[0] && Subsequence(r[1..], xs[1..])) || Subsequence(r, xs[1..])))
  }

  /** `indexRepository.findAllByLemmaIn(selected)`, in table order. */
  function PostingsOf(postings: seq<Posting>, ids: seq<nat>): (r: seq<Posting>)
    ensures forall x :: x in r <==> x in postings && x.lemmaId in ids
  {
    if |postings| == 0 then []
    else if postings[0].lemmaId in ids then [postings[0]] + PostingsOf(postings[1..], ids)
    else PostingsOf(postings[1..], ids)
  }

  /** The selected postings keep the table's order and every copy of a selected row. */
  lemma {:induction false} PostingsOfFilter(postings: seq<Posting>, ids: seq<nat>)
    ensures Subsequence(PostingsOf(postings, ids), postings)
    ensures forall x :: multiset(PostingsOf(postings, ids))[x] == if x.lemmaId in ids then multiset(postings)[x] else 0
    decreases |postings|
  {
    if |postings| > 0 {
      assert postings == [postings[0]] + postings[1..];
      PostingsOfFilter(postings[1..], ids);
      var rest := PostingsOf(postings[1..], ids);
      if postings[0].lemmaId in ids {
        assert ([postings[0]] + rest)[1..] == rest;
      }
    }
  }

  /** The query runs row by row: the postings of a split table are those of its parts, joined. */
  lemma {:induction false} PostingsOfAppend(a: seq<Posting>, b: seq<Posting>, ids: seq<nat>)
    ensures PostingsOf(a + b, ids) == PostingsOf(a, ids) + PostingsOf(b, ids)
    ensures forall x :: PostingsOf([x], ids) == if x.lemmaId in ids then [x] else []
    decreases |a|
  {
    if |a| > 0 {
      assert (a + b)[1..] == a[1..] + b;
      PostingsOfAppend(a[1..], b, ids);
      assert [a[0]] + PostingsOf(a[1..], ids) + PostingsOf(b, ids) == [a[0]] + (PostingsOf(a[1..], ids) + PostingsOf(b, ids));
    } else {
      assert a + b == b;
    }
    forall x ensures PostingsOf([x], ids) == if x.lemmaId in ids then [x] else [] {
      assert [x][1..] == [];
    }
  }

  function PageIds(xs: seq<Posting>): (r: seq<nat>)
    ensures |r| == |xs| && forall i :: 0 <= i < |xs| ==> r[i] == xs[i].pageId
  {
    seq(|xs|, i requires 0 <= i < |xs| => xs[i].pageId)
  }

  /** `retainAll`; a page is its id. */
  function Retain(pages: seq<nat>, keep: seq<nat>): (r: seq<nat>)
    ensures forall p :: p in r <==> p in pages && p in keep
  {
    if |pages| == 0 then []
    else if pages[0] in keep then [pages[0]] + Retain(pages[1..], keep)
    else Retain(pages[1..], keep)
  }

  /** `retainAll` keeps the list's order and every copy of a kept page. */
  lemma {:induction false} RetainFilter(pages: seq<nat>, keep: seq<nat>)
    ensures Subsequence(Retain(pages, keep), pages)
    ensures forall p :: multiset(Retain(pages, keep))[p] == if p in keep then multiset(pages)[p] else 0
    decreases |pages|
  {
    if |pages| > 0 {
      assert pages == [pages[0]] + pages[1..];
      RetainFilter(pages[1..], keep);
      var rest := Retain(pages[1..], keep);
      if pages[0] in keep {
        assert ([pages[0]] + rest)[1..] == rest;
      }
    }
  }

  /** `retainAll` walks the list once: retaining from a split list retains from its parts, joined. */
  lemma {:induction false} RetainAppend(a: seq<nat>, b: seq<nat>, keep: seq<nat>)
    ensures Retain(a + b, keep) == Retain(a, keep) + Retain(b, keep)
    ensures forall p :: Retain([p], keep) == if p in keep then [p] else []
    decreases |a|
  {
    if |a| > 0 {
      assert (a + b)[1..] == a[1..] + b;
      RetainAppend(a[1..], b, keep);
      assert [a[0]] + Retain(a[1..], keep) + Retain(b, keep) == [a[0]] + (Retain(a[1..], keep) + Retain(b, keep));
    } else {
      assert a + b == b;
    }
    forall p ensures Retain([p], keep) == if p in keep then [p] else [] {
      assert [p][1..] == [];
    }
  }

  /** `getPages(lemma, allLemmasList, pages)`: the pages so far that also have this lemma, or all of its pages when there are none so far. */
  function GetPages(text: string, ls: seq<Lemma>, pages: seq<nat>, st: Store): (r: (seq<nat>, seq<Posting>))
    ensures forall x :: x in r.1 <==> x in st.postings && x.lemmaId in LemmaIds(ls, text)
    ensures forall p :: p in r.0 <==> p in PageIds(r.1) && (|pages| == 0 || p in pages)
  {
    var idx := PostingsOf(st.postings, LemmaIds(ls, text));
    var indexPages := PageIds(idx);
    if |pages| > 0 then (Retain(pages, indexPages), idx) else (indexPages, idx)
  }

  /**
   * The lemma's postings come in table order with every copy; the pages so far keep their
   * order and repeats when restricted to the lemma's pages; with no pages so far the
   * result is the postings' pages, one per posting, in posting order.
   */
  lemma GetPagesFilter(text: string, ls: seq<Lemma>, pages: seq<nat>, st: Store)
    ensures var r := GetPages(text, ls, pages, st);
      && Subsequence(r.1, st.postings)
      && (forall x :: multiset(r.1)[x] == if x.lemmaId in LemmaIds(ls, text) then multiset(st.postings)[x] else 0)
      && (|pages| > 0 ==> Subsequence(r.0, pages))
      && (|pages| > 0 ==> forall p :: multiset(r.0)[p] == if p in PageIds(r.1) then multiset(pages)[p] else 0)
      && (|pages| == 0 ==> |r.0| == |r.1| && forall i :: 0 <= i < |r.1| ==> r.0[i] == r.1[i].pageId)
  {
    var idx := PostingsOf(st.postings, LemmaIds(ls, text));
    PostingsOfFilter(st.postings, LemmaIds(ls, text));
    RetainFilter(pages, PageIds(idx));
  }

  /** The loop of `getSortedPages` over the lemma keys, carrying `pages` and the last `indexes`. */
  function PagesFold(keys: seq<string>, ls: seq<Lemma>, st: Store, pages: seq<nat>, idx: seq<Posting>): (r: (seq<nat>, seq<Posting>))
    ensures |keys| == 0 ==> r == (pages, idx)
    ensures |keys| > 0 ==> forall p :: p in r.0 ==> p in PageIds(r.1)
    ensures |keys| > 0 ==> forall x :: x in r.1 <==> x in st.postings && x.lemmaId in LemmaIds(ls, keys[|keys| - 1])
    decreases |keys|
  {
    if |keys| == 0 then (pages, idx)
    else
      var step := GetPages(keys[0], ls, pages, st);
      var r := PagesFold(keys[1..], ls, st, step.0, step.1);
      assert |keys| > 1 ==> keys[1..][|keys[1..]| - 1] == keys[|keys| - 1];
      r
  }

  /** `getSortedPages()`: the pages and the `indexes` of the last lemma. */
  function SortedPages(s: Searcher, st: Store): (r: (seq<nat>, seq<Posting>)) {
    PagesFold(Keys(s.sortedMap), s.allLemmas, st, [], s.indexes)
  }

  /** A page has a posting of one of the rows of a lemma text. */
  ghost predicate HasLemma(st: Store, ls: seq<Lemma>, p: nat, t: string) {
    exists x :: x in st.postings && x.pageId == p && x.lemmaId in LemmaIds(ls, t)
  }

  /** No step of the loop ends with an empty list of pages. */
  ghost predicate NeverEmpty(keys: seq<string>, ls: seq<Lemma>, st: Store, pages: seq<nat>)
    decreases |keys|
  {
    |keys| > 0 ==>
      var step := GetPages(keys[0], ls, pages, st);
      |step.0| > 0 && NeverEmpty(keys[1..], ls, st, step.0)
  }

  /**
   * While no intersection runs empty, the loop computes the pages that have every lemma
   * processed, the ones before (`done`) and the keys.
   */
  lemma {:induction false} PagesConjunctive(keys: seq<string>, done: seq<string>, ls: seq<Lemma>, st: Store, pages: seq<nat>, idx: seq<Posting>)
    requires |pages| > 0 || |done| == 0
    requires forall p, t :: p in pages && t in done ==> HasLemma(st, ls, p, t)
    requires NeverEmpty(keys, ls, st, pages)
    ensures forall p, t :: p in PagesFold(keys, ls, st, pages, idx).0 && t in done + keys ==> HasLemma(st, ls, p, t)
    decreases |keys|
  {
    if |keys| > 0 {
      var step := GetPages(keys[0], ls, pages, st);
      forall p | p in step.0 ensures HasLemma(st, ls, p, keys[0]) {
        var i :| 0 <= i < |PageIds(step.1)| && PageIds(step.1)[i] == p;
        assert step.1[i] in step.1;
      }
      PagesConjunctive(keys[1..], done + [keys[0]], ls, st, step.0, step.1);
      assert done + [keys[0]] + keys[1..] == done + keys;
    }
  }

  /** Searching all lemmas is an AND over them, as long as no intersection is empty. */
  lemma SortedPagesHaveAllLemmas(s: Searcher, st: Store)
    requires NeverEmpty(Keys(s.sortedMap), s.allLemmas, st, [])
    ensures forall p, t :: p in SortedPages(s, st).0 && t in Keys(s.sortedMap) ==> HasLemma(st, s.allLemmas, p, t)
  {
    PagesConjunctive(Keys(s.sortedMap), [], s.allLemmas, st, [], s.indexes);
    assert [] + Keys(s.sortedMap) == Keys(s.sortedMap);
  }

  /**
   * An empty intersection is forgotten: when the first two lemmas share no page, the
   * third lemma's pages are the result, whether or not they have the first two.
   */
  lemma EmptyIntersectionForgotten(a: string, b: string, c: string, ls: seq<Lemma>, st: Store, idx: seq<Posting>)
    requires var pa := GetPages(a, ls, [], st).0; |pa| > 0 && forall p :: p in pa ==> !HasLemma(st, ls, p, b)
    ensures PagesFold([a, b, c], ls, st, [], idx) == GetPages(c, ls, [], st)
  {
    var s1 := GetPages(a, ls, [], st);
    var s2 := GetPages(b, ls, s1.0, st);
    forall p | p in s1.0 ensures p !in PageIds(s2.1) {
      forall i | 0 <= i < |s2.1| ensures PageIds(s2.1)[i] != p {
        assert s2.1[i] in s2.1;
      }
    }
    RetainNone(s1.0, PageIds(s2.1));
    assert PagesFold([a, b, c], ls, st, [], idx) == PagesFold([b, c], ls, st, s1.0, s1.1);
    assert PagesFold([b, c], ls, st, s1.0, s1.1) == PagesFold([c], ls, st, s2.0, s2.1);
    assert PagesFold([c], ls, st, [], s2.1) == PagesFold([], ls, st, GetPages(c, ls, [], st).0, GetPages(c, ls, [], st).1);
  }

  lemma {:induction false} RetainNone(pages: seq<nat>, keep: seq<nat>)
    requires forall p :: p in pages ==> p !in keep
    ensures Retain(pages, keep) == []
  {
    if |pages| > 0 {
      RetainNone(pages[1..], keep);
    }
  }

  // ---------------------------------------------------------------- searchInfo

  /**
   * `searchInfo(query, site)`: add the query's lemmas, append the stored rows of every
   * lemma asked for so far, sum and order their frequencies, and count the pages.
   */
  function SearchInfo(s: Searcher, query: string, st: Store, m: Morphology): (r: Searcher)
    ensures forall t :: t in r.lemmasQuery <==> t in s.lemmasQuery || t in KeySet(QueryLemmas(query, m))
    ensures s.allLemmas <= r.allLemmas
    ensures forall l :: l in r.allLemmas[|s.allLemmas|..] <==> l in st.lemmas && l.text in r.lemmasQuery
    ensures r.sortedMap == SortedFrequencies(r.allLemmas)
    ensures r.countResult == |SortedPages(r, st).0| && r.indexes == SortedPages(r, st).1
  {
    var s1 := GetLemmasFromQuery(s, query, m);
    var rows := CollectRows(st.lemmas, s1.lemmasQuery);
    var all := s.allLemmas + rows;
    assert all[|s.allLemmas|..] == rows;
    var s2 := s1.(allLemmas := all, sortedMap := SortedFrequencies(all));
    var found := SortedPages(s2, st);
    s2.(countResult := |found.0|, indexes := found.1)
  }

  /** `sortWords(getLemmasWithFrequency())`: the summed frequencies, smallest first. */
  function SortedFrequencies(all: seq<Lemma>): seq<(string, nat)> {
    SortWords([], Tally([], all))
  }

  /**
   * The sorted map holds each text of the rows once, with its summed frequency, in
   * non-decreasing order of frequency.
   */
  lemma SortedFrequenciesEntries(all: seq<Lemma>)
    ensures var r := SortedFrequencies(all);
      && NonDecreasing(r) && DistinctKeys(r)
      && (forall e :: e in r ==> e.0 in Texts(all) && e.1 == FreqOf(all, e.0))
      && (forall t :: t in Texts(all) ==> (t, FreqOf(all, t)) in r)
  {
    var tally := Tally([], all);
    var r := SortWords([], tally);
    TallyEntries(all);
    assert multiset(r) == multiset(tally);
    SortedKeysDistinct(tally, r);
    assert forall e :: e in r <==> e in tally by {
      forall e ensures e in r <==> e in tally {
        assert e in r <==> e in multiset(r);
        assert e in tally <==> e in multiset(tally);
      }
    }
  }

  /** A multiset count of at most one for every entry of a list without repeated keys. */
  lemma {:induction false} DistinctKeysOnce<V>(e: seq<(string, V)>, x: (string, V))
    requires DistinctKeys(e)
    ensures multiset(e)[x] <= 1
  {
    if |e| > 0 {
      assert e == [e[0]] + e[1..];
      DistinctKeysOnce(e[1..], x);
      if e[0] == x {
        assert x !in e[1..] by {
          forall i | 0 <= i < |e[1..]| ensures e[1..][i] != x {
            assert e[1..][i] == e[i + 1];
          }
        }
      }
    }
  }

  /** A permutation of a list with distinct keys has distinct keys. */
  lemma SortedKeysDistinct<V>(e: seq<(string, V)>, r: seq<(string, V)>)
    requires DistinctKeys(e) && multiset(r) == multiset(e)
    ensures DistinctKeys(r)
  {
    forall i, j | 0 <= i < j < |r| ensures r[i].0 != r[j].0 {
      if r[i].0 == r[j].0 {
        assert r[i] in multiset(e) && r[j] in multiset(e);
        var a :| 0 <= a < |e| && e[a] == r[i];
        var b :| 0 <= b < |e| && e[b] == r[j];
        assert a == b;
        TwiceInSeq(r, i, j);
        DistinctKeysOnce(e, r[i]);
        assert false;
      }
    }
  }

  lemma TwiceInSeq<T>(s: seq<T>, i: int, j: int)
    requires 0 <= i < j < |s| && s[i] == s[j]
    ensures multiset(s)[s[i]] >= 2
  {
    assert s == s[..j] + s[j..];
    assert s[i] in s[..j];
    assert s[j..][0] == s[j];
  }

  /** What `searchInfo` does to the two accumulating fields. */
  lemma SearchInfoSteps(s: Searcher, query: string, st: Store, m: Morphology)
    ensures var r := SearchInfo(s, query, st, m);
      && r.lemmasQuery == AddAll(s.lemmasQuery, Keys(QueryLemmas(query, m)))
      && r.allLemmas == s.allLemmas + CollectRows(st.lemmas, r.lemmasQuery)
  {
  }

  lemma TextsAppend(a: seq<Lemma>, b: seq<Lemma>)
    ensures Texts(a) <= Texts(a + b) && Texts(b) <= Texts(a + b)
  {
    forall t | t in Texts(a) ensures t in Texts(a + b) {
      var i :| 0 <= i < |a| && a[i].text == t;
      assert (a + b)[i] == a[i];
    }
    forall t | t in Texts(b) ensures t in Texts(a + b) {
      var i :| 0 <= i < |b| && b[i].text == t;
      assert (a + b)[|a| + i] == b[i];
    }
  }

  /**
   * Lemmas leak from one search into the next: a stored lemma of the first query is
   * still among the sorted lemmas of the second, whatever the second query asks.
   */
  lemma LemmasLeak(s: Searcher, q1: string, q2: string, st: Store, m: Morphology, l: Lemma)
    requires l in st.lemmas && l.text in KeySet(QueryLemmas(q1, m))
    ensures l.text in KeySet(SearchInfo(SearchInfo(s, q1, st, m), q2, st, m).sortedMap)
  {
    var s1 := SearchInfo(s, q1, st, m);
    var s2 := SearchInfo(s1, q2, st, m);
    SearchInfoSteps(s1, q2, st, m);
    var rows := CollectRows(st.lemmas, s2.lemmasQuery);
    assert l.text in s1.lemmasQuery && l.text in s2.lemmasQuery;
    assert l in rows;
    RowSorted(s1.allLemmas, rows, l);
  }

  /** A row appended to the lemma list is among the sorted keys. */
  lemma RowSorted(prev: seq<Lemma>, rows: seq<Lemma>, l: Lemma)
    requires l in rows
    ensures l.text in KeySet(SortedFrequencies(prev + rows))
  {
    var k :| 0 <= k < |rows| && rows[k] == l;
    assert l.text in Texts(rows);
    TextsAppend(prev, rows);
    SortedFrequenciesEntries(prev + rows);
    var e := (l.text, FreqOf(prev + rows, l.text));
    assert e in SortedFrequencies(prev + rows);
    var i :| 0 <= i < |SortedFrequencies(prev + rows)| && SortedFrequencies(prev + rows)[i] == e;
  }

  /** Repeating a search from a fresh service doubles every summed frequency: the rows are appended again. */
  lemma SearchTwiceDoubles(query: string, st: Store, m: Morphology)
    ensures var s1 := SearchInfo(Fresh(), query, st, m);
      var s2 := SearchInfo(s1, query, st, m);
      forall e :: e in s1.sortedMap ==> (e.0, 2 * e.1) in s2.sortedMap
  {
    var s1 := SearchInfo(Fresh(), query, st, m);
    var s2 := SearchInfo(s1, query, st, m);
    var keys := Keys(QueryLemmas(query, m));
    SearchInfoSteps(Fresh(), query, st, m);
    SearchInfoSteps(s1, query, st, m);
    assert forall y :: y in keys ==> y in s1.lemmasQuery;
    assert s2.lemmasQuery == s1.lemmasQuery;
    var rows := CollectRows(st.lemmas, s1.lemmasQuery);
    assert s1.allLemmas == rows;
    assert s2.allLemmas == rows + rows;
    assert s1.sortedMap == SortedFrequencies(rows);
    assert s2.sortedMap == SortedFrequencies(rows + rows);
    forall e | e in s1.sortedMap ensures (e.0, 2 * e.1) in s2.sortedMap {
      DoubledEntry(rows, e);
    }
  }

  lemma DoubledEntry(rows: seq<Lemma>, e: (string, nat))
    requires e in SortedFrequencies(rows)
    ensures (e.0, 2 * e.1) in SortedFrequencies(rows + rows)
  {
    SortedFrequenciesEntries(rows);
    SortedFrequenciesEntries(rows + rows);
    TextsAppend(rows, rows);
    FreqOfAppend(rows, rows, e.0);
    var f := FreqOf(rows + rows, e.0);
    assert f == 2 * e.1;
    assert (e.0, f) in SortedFrequencies(rows + rows);
  }

  // ---------------------------------------------------------------- relevance

  /** The summed rank of a page over the last lemma's postings, as a float. */
  function RankSum(idx: seq<Posting>, p: nat): real {
    if |idx| == 0 then 0.0 else (if idx[0].pageId == p then idx[0].rank as real else 0.0) + RankSum(idx[1..], p)
  }

  lemma {:induction false} RankSumPositive(idx: seq<Posting>, p: nat, i: int)
    requires 0 <= i < |idx| && idx[i].pageId == p && forall j :: 0 <= j < |idx| ==> idx[j].rank >= 1
    ensures RankSum(idx, p) >= 1.0
  {
    RankSumNonNegative(idx[1..], p);
    if i > 0 {
      RankSumPositive(idx[1..], p, i - 1);
    }
  }

  lemma {:induction false} RankSumNonNegative(idx: seq<Posting>, p: nat)
    ensures RankSum(idx, p) >= 0.0
  {
    if |idx| > 0 {
      RankSumNonNegative(idx[1..], p);
    }
  }

  /** The keys of a `HashMap<Page, Float>` filled in page order: each page once. */
  function Dedup(xs: seq<nat>): (r: seq<nat>)
    ensures Distinct(r)
    ensures forall x :: x in r <==> x in xs
  {
    DedupFrom([], xs)
  }

  function DedupFrom(acc: seq<nat>, xs: seq<nat>): (r: seq<nat>)
    requires Distinct(acc)
    ensures Distinct(r)
    ensures forall x :: x in r <==> x in acc || x in xs
    decreases |xs|
  {
    if |xs| == 0 then acc
    else
      assert forall x :: x in xs <==> x == xs[0] || x in xs[1..];
      DedupFrom(if xs[0] in acc then acc else acc + [xs[0]], xs[1..])
  }

  function Raw(ps: seq<nat>, idx: seq<Posting>): (r: seq<(nat, real)>)
    ensures |r| == |ps| && forall i :: 0 <= i < |ps| ==> r[i] == (ps[i], RankSum(idx, ps[i]))
  {
    seq(|ps|, i requires 0 <= i < |ps| => (ps[i], RankSum(idx, ps[i])))
  }

  /** `Collections.max(values)`. */
  function MaxValue(e: seq<(nat, real)>): (r: real)
    requires |e| > 0
    ensures forall i :: 0 <= i < |e| ==> e[i].1 <= r
    ensures exists i :: 0 <= i < |e| && e[i].1 == r
  {
    if |e| == 1 then e[0].1
    else
      var m := MaxValue(e[1..]);
      assert forall i :: 1 <= i < |e| ==> e[i] == e[1..][i - 1];
      if e[0].1 >= m then e[0].1 else m
  }

  /** Each relevance divided by the largest. */
  function Normalize(e: seq<(nat, real)>, mx: real): (r: seq<(nat, real)>)
    requires mx > 0.0
    ensures |r| == |e| && forall i :: 0 <= i < |e| ==> r[i] == (e[i].0, e[i].1 / mx)
  {
    seq(|e|, i requires 0 <= i < |e| => (e[i].0, e[i].1 / mx))
  }

  predicate Descending(e: seq<(nat, real)>) {
    forall i, j :: 0 <= i < j < |e| ==> e[i].1 >= e[j].1
  }

  /** Stable insertion by descending value: after every entry with a value at least its own. */
  function InsertDesc(e: seq<(nat, real)>, x: (nat, real)): (r: seq<(nat, real)>)
    ensures multiset(r) == multiset(e) + multiset{x}
    ensures Descending(e) ==> Descending(r)
  {
    if |e| == 0 then [x]
    else if e[0].1 < x.1 then [x] + e
    else
      var t := InsertDesc(e[1..], x);
      InsertBelow(e, x, t);
      [e[0]] + t
  }

  /** An entry no larger than the head is inserted into the tail, below the head. */
  lemma InsertBelow(e: seq<(nat, real)>, x: (nat, real), t: seq<(nat, real)>)
    requires |e| > 0 && e[0].1 >= x.1
    requires multiset(t) == multiset(e[1..]) + multiset{x}
    requires Descending(e[1..]) ==> Descending(t)
    ensures multiset([e[0]] + t) == multiset(e) + multiset{x}
    ensures Descending(e) ==> Descending([e[0]] + t)
  {
    assert e == [e[0]] + e[1..];
    if Descending(e) {
      assert Descending(e[1..]);
      HeadAtLeast(e, x, t);
      ConsDescending(e[0], t);
    }
  }

  /** In a descending list the head is at least every later entry, and so at least the tail with `x`. */
  lemma HeadAtLeast(e: seq<(nat, real)>, x: (nat, real), t: seq<(nat, real)>)
    requires |e| > 0 && e[0].1 >= x.1 && Descending(e)
    requires multiset(t) == multiset(e[1..]) + multiset{x}
    ensures forall j :: 0 <= j < |t| ==> e[0].1 >= t[j].1
  {
    forall j | 0 <= j < |t| ensures e[0].1 >= t[j].1 {
      assert t[j] in multiset(t);
      if t[j] != x {
        assert t[j] in multiset(e[1..]);
        var k :| 0 <= k < |e[1..]| && e[1..][k] == t[j];
        assert e[k + 1] == t[j];
      }
    }
  }

  lemma ConsDescending(h: (nat, real), t: seq<(nat, real)>)
    requires Descending(t) && forall j :: 0 <= j < |t| ==> h.1 >= t[j].1
    ensures Descending([h] + t)
  {
    var r := [h] + t;
    forall i, j | 0 <= i < j < |r| ensures r[i].1 >= r[j].1 {
      assert r[j] == t[j - 1];
      if i > 0 {
        assert r[i] == t[i - 1];
      }
    }
  }

  /** `sorted(comparingByValue(reverseOrder()))`. */
  function SortDesc(acc: seq<(nat, real)>, e: seq<(nat, real)>): (r: seq<(nat, real)>)
    ensures multiset(r) == multiset(acc) + multiset(e)
    ensures Descending(acc) ==> Descending(r)
    decreases |e|
  {
    if |e| == 0 then acc
    else
      assert e == [e[0]] + e[1..];
      SortDesc(InsertDesc(acc, e[0]), e[1..])
  }

  /** Every page once, its rank sum over the largest, best first. */
  function Relevances(pages: seq<nat>, idx: seq<Posting>): seq<(nat, real)> {
    var raw := Raw(Dedup(pages), idx);
    var mx := if |raw| == 0 then 0.0 else MaxValue(raw);
    if mx <= 0.0 then [] else SortDesc([], Normalize(raw, mx))
  }

  /** `calculateRelevance()`, over the pages and postings `getSortedPages()` leaves. */
  function CalculateRelevance(s: Searcher, st: Store): (r: seq<(nat, real)>)
    ensures PositiveRanks(st) ==> RelevanceList(r, SortedPages(s, st).0, SortedPages(s, st).1)
  {
    RelevanceShape(s, st);
    Relevances(SortedPages(s, st).0, SortedPages(s, st).1)
  }

  /** Sorting keeps exactly the entries it was given. */
  lemma SortDescEntries(e: seq<(nat, real)>)
    ensures var r := SortDesc([], e);
      && Descending(r) && multiset(r) == multiset(e)
      && (forall x :: x in r <==> x in e)
  {
    var r := SortDesc([], e);
    assert multiset(r) == multiset(e);
    forall x ensures x in r <==> x in e {
      assert x in r <==> x in multiset(r);
      assert x in e <==> x in multiset(e);
    }
  }

  lemma DivideByLarger(v: real, mx: real)
    requires 0.0 < v <= mx
    ensures 0.0 < v / mx <= 1.0
  {
    var q := v / mx;
    assert q * mx == v;
    assert (1.0 - q) * mx == mx - v;
  }

  lemma SelfDivide(x: real)
    requires x > 0.0
    ensures x / x == 1.0
  {
  }

  /** Dividing by the largest of positive values gives values in (0, 1], one of them 1. */
  lemma NormalizeBounds(raw: seq<(nat, real)>)
    requires |raw| > 0 && forall i :: 0 <= i < |raw| ==> raw[i].1 > 0.0
    ensures MaxValue(raw) > 0.0
    ensures forall i :: 0 <= i < |raw| ==> 0.0 < Normalize(raw, MaxValue(raw))[i].1 <= 1.0
    ensures exists i :: 0 <= i < |raw| && Normalize(raw, MaxValue(raw))[i].1 == 1.0
  {
    var mx := MaxValue(raw);
    var n := Normalize(raw, mx);
    forall i | 0 <= i < |n| ensures 0.0 < n[i].1 <= 1.0 {
      DivideByLarger(raw[i].1, mx);
    }
    var top :| 0 <= top < |raw| && raw[top].1 == mx;
    DivideByLarger(mx, mx);
    SelfDivide(mx);
    assert 0 <= top < |n| && n[top].1 == 1.0;
    assert exists i :: 0 <= i < |n| && n[i].1 == 1.0;
  }

  /**
   * When every page has a positive rank sum, each page gets one entry whose value is its
   * rank sum over the largest rank sum, the best is 1, and the entries are ordered best first.
   */
  lemma RelevancesShape(pages: seq<nat>, idx: seq<Posting>)
    requires forall p :: p in pages ==> RankSum(idx, p) > 0.0
    ensures RelevanceList(Relevances(pages, idx), pages, idx)
  {
    var ps := Dedup(pages);
    var raw := Raw(ps, idx);
    if |raw| > 0 {
      forall i | 0 <= i < |raw| ensures raw[i].1 > 0.0 {
        assert ps[i] in pages;
      }
      NormalizeBounds(raw);
      var mx := MaxValue(raw);
      var n := Normalize(raw, mx);
      var r := SortDesc([], n);
      assert Relevances(pages, idx) == r;
      SortedShape(n, ps);
      RelevanceListSamePages(r, ps, pages);
      MaxOfPages(raw, ps, pages, idx);
      SortDescEntries(n);
      SameRatios(n, r, idx, mx);
      assert RanksOver(r, mx, pages, idx);
    } else {
      assert ps == [];
      assert forall p :: p !in pages;
    }
  }

  /** `m` is the largest rank sum of the pages, reached by one of them. */
  ghost predicate IsMaxRank(m: real, pages: seq<nat>, idx: seq<Posting>) {
    && (forall p :: p in pages ==> RankSum(idx, p) <= m)
    && (exists p :: p in pages && RankSum(idx, p) == m)
  }

  /**
   * A relevance list for the pages: values in (0, 1], the first one 1, best first, each
   * of the pages named by exactly one entry, and each value the page's rank sum divided
   * by the largest rank sum of the pages.
   */
  ghost predicate RelevanceList(r: seq<(nat, real)>, pages: seq<nat>, idx: seq<Posting>) {
    && BestFirstOnce(r, pages)
    && (|r| > 0 ==> exists m :: RanksOver(r, m, pages, idx))
  }

  /** Each value is its page's rank sum over `m`, the positive largest rank sum of the pages. */
  ghost predicate RanksOver(r: seq<(nat, real)>, m: real, pages: seq<nat>, idx: seq<Posting>) {
    m > 0.0 && IsMaxRank(m, pages, idx) && forall i :: 0 <= i < |r| ==> r[i].1 == RankSum(idx, r[i].0) / m
  }

  /** Values in (0, 1], the first one 1, best first, and each page named by exactly one entry. */
  ghost predicate BestFirstOnce(r: seq<(nat, real)>, pages: seq<nat>) {
    && (forall i :: 0 <= i < |r| ==> 0.0 < r[i].1 <= 1.0)
    && (|r| > 0 ==> r[0].1 == 1.0)
    && Descending(r)
    && (forall p :: p in pages <==> exists i :: 0 <= i < |r| && r[i].0 == p)
    && DistinctKeysNat(r)
  }

  lemma RelevanceListSamePages(r: seq<(nat, real)>, ps: seq<nat>, pages: seq<nat>)
    requires BestFirstOnce(r, ps) && forall p :: p in ps <==> p in pages
    ensures BestFirstOnce(r, pages)
  {
  }

  /** The largest of the raw entries is the largest rank sum of the pages. */
  lemma MaxOfPages(raw: seq<(nat, real)>, ps: seq<nat>, pages: seq<nat>, idx: seq<Posting>)
    requires |raw| > 0 && raw == Raw(ps, idx) && forall p :: p in ps <==> p in pages
    ensures IsMaxRank(MaxValue(raw), pages, idx)
  {
    var mx := MaxValue(raw);
    forall p | p in pages ensures RankSum(idx, p) <= mx {
      var k :| 0 <= k < |ps| && ps[k] == p;
      assert raw[k].1 <= mx;
    }
    var top :| 0 <= top < |raw| && raw[top].1 == mx;
    assert ps[top] in pages && RankSum(idx, ps[top]) == mx;
  }

  /** Rearranging entries keeps every value equal to its page's rank sum over `m`. */
  lemma SameRatios(n: seq<(nat, real)>, r: seq<(nat, real)>, idx: seq<Posting>, m: real)
    requires forall x :: x in r <==> x in n
    requires m > 0.0 && forall k :: 0 <= k < |n| ==> n[k].1 == RankSum(idx, n[k].0) / m
    ensures forall i :: 0 <= i < |r| ==> r[i].1 == RankSum(idx, r[i].0) / m
  {
    forall i | 0 <= i < |r| ensures r[i].1 == RankSum(idx, r[i].0) / m {
      assert r[i] in n;
      var k :| 0 <= k < |n| && n[k] == r[i];
    }
  }

  /** Sorting entries for distinct pages with values in (0, 1], one of them 1. */
  lemma SortedShape(n: seq<(nat, real)>, ps: seq<nat>)
    requires |n| == |ps| && Distinct(ps) && (forall k :: 0 <= k < |n| ==> n[k].0 == ps[k])
    requires forall i :: 0 <= i < |n| ==> 0.0 < n[i].1 <= 1.0
    requires exists i :: 0 <= i < |n| && n[i].1 == 1.0
    ensures BestFirstOnce(SortDesc([], n), ps)
  {
    var r := SortDesc([], n);
    SortDescEntries(n);
    SameValues(n, r);
    TopFirst(n, r);
    SameFirsts(r, n, ps);
    PagesDistinctKeys(n, ps);
    PermutationKeepsDistinct(n, r);
  }

  /** Values in (0, 1] stay so when the entries are rearranged. */
  lemma SameValues(n: seq<(nat, real)>, r: seq<(nat, real)>)
    requires forall x :: x in r <==> x in n
    requires forall i :: 0 <= i < |n| ==> 0.0 < n[i].1 <= 1.0
    ensures forall i :: 0 <= i < |r| ==> 0.0 < r[i].1 <= 1.0
  {
    forall i | 0 <= i < |r| ensures 0.0 < r[i].1 <= 1.0 {
      assert r[i] in n;
      var k :| 0 <= k < |n| && n[k] == r[i];
    }
  }

  /** Best first, with 1 the largest value present: the first value is 1. */
  lemma TopFirst(n: seq<(nat, real)>, r: seq<(nat, real)>)
    requires forall x :: x in r <==> x in n
    requires Descending(r) && forall i :: 0 <= i < |r| ==> r[i].1 <= 1.0
    requires exists i :: 0 <= i < |n| && n[i].1 == 1.0
    ensures |r| > 0 && r[0].1 == 1.0
  {
    var top :| 0 <= top < |n| && n[top].1 == 1.0;
    assert n[top] in r;
    var t :| 0 <= t < |r| && r[t] == n[top];
    assert r[0].1 >= r[t].1;
  }

  /** Entries made one per distinct page have distinct keys. */
  lemma PagesDistinctKeys(n: seq<(nat, real)>, ps: seq<nat>)
    requires |n| == |ps| && Distinct(ps) && (forall k :: 0 <= k < |n| ==> n[k].0 == ps[k])
    ensures DistinctKeysNat(n)
  {
    forall i, j | 0 <= i < j < |n| ensures n[i].0 != n[j].0 {
      assert n[i].0 == ps[i] && n[j].0 == ps[j];
    }
  }

  /** Two lists with the same entries name the same pages. */
  lemma SameFirsts(r: seq<(nat, real)>, n: seq<(nat, real)>, ps: seq<nat>)
    requires |n| == |ps| && (forall k :: 0 <= k < |n| ==> n[k].0 == ps[k])
    requires forall x :: x in r <==> x in n
    ensures forall p :: p in ps <==> exists i :: 0 <= i < |r| && r[i].0 == p
  {
    forall p ensures p in ps <==> exists i :: 0 <= i < |r| && r[i].0 == p {
      if p in ps {
        var k :| 0 <= k < |ps| && ps[k] == p;
        assert n[k] in r;
        var i :| 0 <= i < |r| && r[i] == n[k];
      }
      if exists i :: 0 <= i < |r| && r[i].0 == p {
        var i :| 0 <= i < |r| && r[i].0 == p;
        assert r[i] in n;
        var k :| 0 <= k < |n| && n[k] == r[i];
      }
    }
  }

  /** Every page of the search has a positive rank sum when the stored ranks are positive. */
  lemma SortedPagesRanked(s: Searcher, st: Store)
    requires PositiveRanks(st)
    ensures forall p :: p in SortedPages(s, st).0 ==> RankSum(SortedPages(s, st).1, p) >= 1.0
  {
    var pages := SortedPages(s, st).0;
    var idx := SortedPages(s, st).1;
    if |Keys(s.sortedMap)| > 0 {
      forall j | 0 <= j < |idx| ensures idx[j].rank >= 1 {
        assert idx[j] in st.postings;
      }
      forall p | p in pages ensures RankSum(idx, p) >= 1.0 {
        var k :| 0 <= k < |PageIds(idx)| && PageIds(idx)[k] == p;
        RankSumPositive(idx, p, k);
      }
    } else {
      assert pages == [];
    }
  }

  /** With positive ranks the pages and postings the search leaves make a relevance list. */
  lemma RelevanceShape(s: Searcher, st: Store)
    ensures PositiveRanks(st) ==> RelevanceList(Relevances(SortedPages(s, st).0, SortedPages(s, st).1), SortedPages(s, st).0, SortedPages(s, st).1)
  {
    if PositiveRanks(st) {
      SortedPagesRanked(s, st);
      RelevancesShape(SortedPages(s, st).0, SortedPages(s, st).1);
    }
  }

  predicate DistinctKeysNat(e: seq<(nat, real)>) {
    forall i, j :: 0 <= i < j < |e| ==> e[i].0 != e[j].0
  }

  lemma {:induction false} DistinctNatOnce(e: seq<(nat, real)>, x: (nat, real))
    requires DistinctKeysNat(e)
    ensures multiset(e)[x] <= 1
  {
    if |e| > 0 {
      assert e == [e[0]] + e[1..];
      DistinctNatOnce(e[1..], x);
      if e[0] == x {
        assert x !in e[1..] by {
          forall i | 0 <= i < |e[1..]| ensures e[1..][i] != x {
            assert e[1..][i] == e[i + 1];
          }
        }
      }
    }
  }

  lemma PermutationKeepsDistinct(e: seq<(nat, real)>, r: seq<(nat, real)>)
    requires DistinctKeysNat(e) && multiset(r) == multiset(e)
    ensures DistinctKeysNat(r)
  {
    forall i, j | 0 <= i < j < |r| ensures r[i].0 != r[j].0 {
      if r[i].0 == r[j].0 {
        assert r[i] in multiset(e) && r[j] in multiset(e);
        var a :| 0 <= a < |e| && e[a] == r[i];
        var b :| 0 <= b < |e| && e[b] == r[j];
        assert a == b;
        TwiceInSeq(r, i, j);
        DistinctNatOnce(e, r[i]);
        assert false;
      }
    }
  }

  // ---------------------------------------------------------------- the response

  /** Jsoup's view of a stored page: its title and its body text. */
  datatype Html = Html(title: string -> string, bodyText: string -> string)

  datatype Item = Item(site: string, siteName: string, uri: string, title: string, snippet: string, relevance: real)

  /** `result`, `count`, and `data` (`None` when it is never set). */
  datatype Response = Response(result: bool, count: int, data: Option<seq<Item>>)

  /** The page and site rows behind a relevance entry; a missing row raises. */
  predicate Resolvable(st: Store, pid: nat) {
    PageById(st.pages, pid).Some? && SiteById(st.sites, PageById(st.pages, pid).value.siteId).Some?
  }

  /**
   * The result entry of a resolvable page; its `site` is the page's site url either way.
   * `snippet` maps a page's stored content to its snippet.
   */
  function ItemOf(st: Store, pid: nat, relevance: real, html: Html, snippet: string -> string): Item
    requires Resolvable(st, pid)
  {
    var page := PageById(st.pages, pid).value;
    var site := SiteById(st.sites, page.siteId).value;
    Item(site.url, site.name, page.path, html.title(page.content), snippet(page.content), relevance)
  }

  /** `buildSnippet(page, query)` on the page's body text. */
  function SnippetOf(html: Html, query: string, m: Morphology): string -> string {
    content => BuildSnippet(html.bodyText(content), query, m)
  }

  /** The loop of `getResultResponse` over the relevance entries, with the site filter. */
  function Items(rel: seq<(nat, real)>, st: Store, siteUrl: Option<string>, html: Html, snippet: string -> string): (r: Result<seq<Item>>)
    ensures r.Ok? <==> forall i :: 0 <= i < |rel| ==> Resolvable(st, rel[i].0)
    ensures r.Ok? ==> |r.value| <= |rel|
    ensures r.Ok? && siteUrl.None? ==> |r.value| == |rel|
    ensures r.Ok? && siteUrl.Some? ==> forall i :: 0 <= i < |r.value| ==> r.value[i].site == siteUrl.value
    decreases |rel|
  {
    if |rel| == 0 then Ok([])
    else
      assert forall i :: 0 < i < |rel| ==> rel[i] == rel[1..][i - 1];
      if !Resolvable(st, rel[0].0) then Err("missing page or site row")
      else
        var item := ItemOf(st, rel[0].0, rel[0].1, html, snippet);
        match Items(rel[1..], st, siteUrl, html, snippet)
        case Err(e) => Err(e)
        case Ok(rest) =>
          if siteUrl.None? || item.site == siteUrl.value then
            var r := [item] + rest;
            assert forall i :: 0 < i < |r| ==> r[i] == rest[i - 1];
            Ok(r)
          else Ok(rest)
  }

  /** Without a site filter every entry becomes an item, in relevance order, with its relevance and path. */
  lemma {:induction false} ItemsUnfiltered(rel: seq<(nat, real)>, st: Store, html: Html, snippet: string -> string)
    requires Items(rel, st, None, html, snippet).Ok?
    ensures var items := Items(rel, st, None, html, snippet).value;
      forall i :: 0 <= i < |rel| ==> items[i].relevance == rel[i].1 && items[i].uri == PageById(st.pages, rel[i].0).value.path
    decreases |rel|
  {
    if |rel| > 0 {
      assert forall i :: 0 < i < |rel| ==> rel[i] == rel[1..][i - 1];
      ItemsUnfiltered(rel[1..], st, html, snippet);
    }
  }

  /** The url of the site row of a resolvable page. */
  function SiteUrlOf(st: Store, pid: nat): string
    requires Resolvable(st, pid)
  {
    SiteById(st.sites, PageById(st.pages, pid).value.siteId).value.url
  }

  /** The relevance entries whose page belongs to the site with url `u`, in order. */
  function OfSite(rel: seq<(nat, real)>, st: Store, u: string): (r: seq<(nat, real)>)
    requires forall i :: 0 <= i < |rel| ==> Resolvable(st, rel[i].0)
    ensures forall x :: x in r <==> x in rel && SiteUrlOf(st, x.0) == u
    decreases |rel|
  {
    if |rel| == 0 then []
    else
      assert forall i :: 0 < i < |rel| ==> rel[i] == rel[1..][i - 1];
      assert forall x :: x in rel <==> x == rel[0] || x in rel[1..];
      (if SiteUrlOf(st, rel[0].0) == u then [rel[0]] else []) + OfSite(rel[1..], st, u)
  }

  /**
   * With a site filter the items are exactly the entries of that site, in relevance order,
   * each with its relevance, its page's path and the site's url.
   */
  lemma {:induction false} ItemsFiltered(rel: seq<(nat, real)>, st: Store, u: string, html: Html, snippet: string -> string)
    requires Items(rel, st, Some(u), html, snippet).Ok?
    ensures var items := Items(rel, st, Some(u), html, snippet).value;
      var sel := OfSite(rel, st, u);
      && |items| == |sel|
      && forall i :: 0 <= i < |sel| ==>
           items[i].relevance == sel[i].1 && items[i].uri == PageById(st.pages, sel[i].0).value.path && items[i].site == u
    decreases |rel|
  {
    if |rel| > 0 {
      assert forall i :: 0 < i < |rel| ==> rel[i] == rel[1..][i - 1];
      ItemsFiltered(rel[1..], st, u, html, snippet);
      var items := Items(rel, st, Some(u), html, snippet).value;
      var rest := Items(rel[1..], st, Some(u), html, snippet).value;
      var sel := OfSite(rel, st, u);
      var selRest := OfSite(rel[1..], st, u);
      if SiteUrlOf(st, rel[0].0) == u {
        assert sel == [rel[0]] + selRest;
        assert items == [ItemOf(st, rel[0].0, rel[0].1, html, snippet)] + rest;
      } else {
        assert sel == selRest;
        assert items == rest;
      }
    }
  }

  /** `subList(offset, offset + limit)` when there are more items than `limit`. */
  function Paginate(items: seq<Item>, offset: int, limit: int): (r: Result<seq<Item>>)
    ensures r.Err? <==> |items| > limit && (offset < 0 || limit < 0 || offset + limit > |items|)
    ensures r.Ok? && |items| > limit ==> |r.value| == limit && r.value == items[offset..offset + limit]
    ensures r.Ok? && |items| <= limit ==> r.value == items
    ensures r.Ok? ==> forall i :: 0 <= i < |r.value| ==> r.value[i] in items
  {
    if |items| > limit then
      if offset < 0 || limit < 0 || offset + limit > |items| then Err("sub-list bounds")
      else
        var page := items[offset..offset + limit];
        assert forall i :: 0 <= i < |page| ==> page[i] == items[offset + i];
        Ok(page)
    else Ok(items)
  }

  /** `getResultResponse(query, siteUrl, offset, limit)`. */
  function GetResultResponse(s: Searcher, st: Store, query: string, siteUrl: Option<string>, offset: int, limit: int, html: Html, m: Morphology): (r: Result<Response>)
    ensures CalculateRelevance(s, st) == [] ==> r == Ok(Response(true, 0, None))
    ensures CalculateRelevance(s, st) != [] && r.Ok? ==> r.value.result && r.value.count == s.countResult && r.value.data.Some?
    ensures r.Ok? && r.value.data.Some? ==> |r.value.data.value| <= limit
    ensures r.Ok? && r.value.data.Some? && siteUrl.Some? ==> forall i :: 0 <= i < |r.value.data.value| ==> r.value.data.value[i].site == siteUrl.value
  {
    var rel := CalculateRelevance(s, st);
    if rel == [] then Ok(Response(true, 0, None))
    else
      match Items(rel, st, siteUrl, html, SnippetOf(html, query, m))
      case Err(e) => Err(e)
      case Ok(items) =>
        match Paginate(items, offset, limit)
        case Err(e) => Err(e)
        case Ok(data) =>
          Ok(Response(true, s.countResult, Some(data)))
  }

  /** The count is the one `searchInfo` stored: the site filter does not change it. */
  lemma CountIgnoresSiteFilter(s: Searcher, st: Store, query: string, a: Option<string>, b: Option<string>, offset: int, limit: int, html: Html, m: Morphology)
    requires GetResultResponse(s, st, query, a, offset, limit, html, m).Ok?
    requires GetResultResponse(s, st, query, b, offset, limit, html, m).Ok?
    ensures GetResultResponse(s, st, query, a, offset, limit, html, m).value.count
         == GetResultResponse(s, st, query, b, offset, limit, html, m).value.count
  {
  }

  /** When the items fit in `limit`, the offset is ignored: every offset, even a negative one, gives all items. */
  lemma OffsetIgnoredWhenFew(s: Searcher, st: Store, query: string, siteUrl: Option<string>, o1: int, o2: int, limit: int, html: Html, m: Morphology)
    requires var items := Items(CalculateRelevance(s, st), st, siteUrl, html, SnippetOf(html, query, m)); items.Ok? && |items.value| <= limit
    ensures GetResultResponse(s, st, query, siteUrl, o1, limit, html, m) == GetResultResponse(s, st, query, siteUrl, o2, limit, html, m)
    ensures GetResultResponse(s, st, query, siteUrl, o1, limit, html, m).Ok?
  {
  }
}

=== FILE: snippet.dfy ===
/**
 * The snippet of a search hit. The query words and the page's words are matched by
 * their first normal form; for every matched word the first sentence of the page text
 * that mentions it (ignoring case) is appended with the word in bold and "...".
 */
module Snippets {
  import opened Wrappers
  import opened Text
  import opened TreeMap
  import opened Lemmatizer

  predicate IsBlank(c: char) {
    c == ' '
  }

  /** The separators of `split("[\\.\\!\\?]")`. */
  predicate IsSentenceEnd(c: char) {
    c == '.' || c == '!' || c == '?'
  }

  /** The page-word test `matches("[а-я]+")`: lower-case letters only. */
  predicate IsLowerWord(w: string) {
    |w| > 0 && forall i :: 0 <= i < |w| ==> IsCyrillicLower(w[i])
  }

  // ---------------------------------------------------------------- page words

  /** The last five characters of the clean-up pattern. */
  const JunkTail: string := "@,\\_—"

  /** The clean-up pattern `\.\!\?[0-9]@,\\_—` matches at the start of `s`: ".!?", a digit, "@,\_—". */
  predicate JunkAt(s: string) {
    |s| >= 9 && s[..3] == ".!?" && '0' <= s[3] <= '9' && s[4..9] == JunkTail
  }

  /** `replaceAll` of the clean-up pattern by a space, leftmost and non-overlapping. */
  function ReplaceJunk(s: string): (r: string)
    ensures (forall i :: 0 <= i <= |s| ==> !JunkAt(s[i..])) ==> r == s
    ensures |r| <= |s|
    decreases |s|
  {
    if JunkAt(s) then
      assert s[0..] == s;
      " " + ReplaceJunk(s[9..])
    else if |s| == 0 then []
    else
      assert forall i :: 0 <= i <= |s| - 1 ==> s[1..][i..] == s[i + 1..];
      [s[0]] + ReplaceJunk(s[1..])
  }

  /** `content.replaceAll(...).split(" ")`. */
  function PageWords(content: string): seq<string> {
    JavaSplit(ReplaceJunk(content), IsBlank)
  }

  // ---------------------------------------------------------------- the two maps

  /** Every entry of a form map is keyed by the first normal form of its word, as `key` computes it. */
  predicate KeyedBy(e: seq<(string, string)>, key: string -> string) {
    forall i :: 0 <= i < |e| ==> e[i].0 == key(e[i].1)
  }

  /** An entry that `Get` finds is an entry of the list. */
  lemma {:induction false} GetIn<V>(e: seq<(string, V)>, k: string)
    requires Get(e, k).Some?
    ensures (k, Get(e, k).value) in e
  {
    if e[0].0 != k {
      GetIn(e[1..], k);
    }
  }

  /** `put` keeps a map keyed by `key` when the new entry is. */
  lemma PutKeyed(e: seq<(string, string)>, v: string, key: string -> string)
    requires Sorted(e) && KeyedBy(e, key)
    ensures KeyedBy(Put(e, key(v), v), key)
  {
    var r := Put(e, key(v), v);
    forall i | 0 <= i < |r| ensures r[i].0 == key(r[i].1) {
      GetAt(r, i);
      if r[i].0 != key(v) {
        GetIn(e, r[i].0);
        var j :| 0 <= j < |e| && e[j] == (r[i].0, Get(e, r[i].0).value);
      }
    }
  }

  function QueryKey(m: Morphology): string -> string {
    w => NormalWord(m, w)
  }

  function PageKey(m: Morphology): string -> string {
    w => NormalWord(m, Lower(w))
  }

  /**
   * The loop over the query words: `fromText.put(normalForm(word), word)`. A word the
   * morphology rejects raises and ends the whole lookup (`None`).
   */
  function QueryMap(acc: seq<(string, string)>, words: seq<string>, m: Morphology): (r: Option<seq<(string, string)>>)
    requires Sorted(acc) && KeyedBy(acc, QueryKey(m))
    ensures r.None? <==> exists i :: 0 <= i < |words| && !m.accepts(words[i])
    ensures r.Some? ==> Sorted(r.value) && KeyedBy(r.value, QueryKey(m))
    ensures r.Some? ==> KeySet(r.value) == KeySet(acc) + (set i | 0 <= i < |words| :: NormalWord(m, words[i]))
    ensures r.Some? ==> forall e :: e in r.value ==> e in acc || e.1 in words
    decreases |words|
  {
    if |words| == 0 then Some(acc)
    else if !m.accepts(words[0]) then None
    else
      var w := words[0];
      var acc' := Put(acc, NormalWord(m, w), w);
      PutKeyed(acc, w, QueryKey(m));
      var r := QueryMap(acc', words[1..], m);
      QueryWordsCons(words, m);
      PutEntries(acc, NormalWord(m, w), w);
      r
  }

  /** The query words split into the first and the rest, for the loop's step. */
  lemma QueryWordsCons(words: seq<string>, m: Morphology)
    requires |words| > 0
    ensures (set i | 0 <= i < |words| :: NormalWord(m, words[i]))
      == {NormalWord(m, words[0])} + (set i | 0 <= i < |words[1..]| :: NormalWord(m, words[1..][i]))
    ensures (exists i :: 0 <= i < |words| && !m.accepts(words[i]))
      <==> !m.accepts(words[0]) || exists i :: 0 <= i < |words[1..]| && !m.accepts(words[1..][i])
    ensures forall x :: x in words[1..] ==> x in words
  {
    assert forall i :: 0 < i < |words| ==> words[i] == words[1..][i - 1];
  }

  /** Every entry after a `put` is an old entry or the new one. */
  lemma PutEntries<V>(e: seq<(string, V)>, k: string, v: V)
    requires Sorted(e)
    ensures forall x :: x in Put(e, k, v) ==> x in e || x == (k, v)
  {
    var r := Put(e, k, v);
    forall x | x in r ensures x in e || x == (k, v) {
      var i :| 0 <= i < |r| && r[i] == x;
      GetAt(r, i);
      if x.0 != k {
        GetIn(e, x.0);
      }
    }
  }

  /**
   * The loop over the page words: lower-case words only, `fromText2.put(normalForm(word), word)`.
   * A word the morphology rejects raises and ends the loop, keeping what was put so far.
   */
  function PageMap(acc: seq<(string, string)>, ws: seq<string>, m: Morphology): (r: seq<(string, string)>)
    requires Sorted(acc) && KeyedBy(acc, PageKey(m))
    ensures Sorted(r) && KeyedBy(r, PageKey(m))
    ensures forall e :: e in r ==> e in acc || (e.1 in ws && IsLowerWord(e.1))
    ensures KeySet(acc) <= KeySet(r)
    decreases |ws|
  {
    if |ws| == 0 then acc
    else if !IsLowerWord(ws[0]) then
      var r := PageMap(acc, ws[1..], m);
      assert forall i :: 0 < i < |ws| ==> ws[i] == ws[1..][i - 1];
      r
    else if !m.accepts(Lower(ws[0])) then acc
    else
      var w := ws[0];
      var acc' := Put(acc, NormalWord(m, Lower(w)), w);
      PutKeyed(acc, w, PageKey(m));
      PutEntries(acc, NormalWord(m, Lower(w)), w);
      var r := PageMap(acc', ws[1..], m);
      assert forall i :: 0 < i < |ws| ==> ws[i] == ws[1..][i - 1];
      r
  }

  /** When the morphology accepts every lower-case page word, the form of each of them is a key. */
  lemma {:induction false} PageMapCovers(acc: seq<(string, string)>, ws: seq<string>, m: Morphology, j: int)
    requires Sorted(acc) && KeyedBy(acc, PageKey(m))
    requires forall i :: 0 <= i < |ws| && IsLowerWord(ws[i]) ==> m.accepts(Lower(ws[i]))
    requires 0 <= j < |ws| && IsLowerWord(ws[j])
    ensures NormalWord(m, Lower(ws[j])) in KeySet(PageMap(acc, ws, m))
    decreases |ws|
  {
    var acc' := PageMapStep(acc, ws, m);
    if j > 0 {
      assert ws[j] == ws[1..][j - 1];
      assert forall i :: 0 <= i < |ws[1..]| ==> ws[1..][i] == ws[i + 1];
      PageMapCovers(acc', ws[1..], m, j - 1);
    }
  }

  /** One step of the page loop over an accepted word. */
  lemma PageMapStep(acc: seq<(string, string)>, ws: seq<string>, m: Morphology) returns (acc': seq<(string, string)>)
    requires Sorted(acc) && KeyedBy(acc, PageKey(m)) && |ws| > 0
    requires IsLowerWord(ws[0]) ==> m.accepts(Lower(ws[0]))
    ensures Sorted(acc') && KeyedBy(acc', PageKey(m))
    ensures IsLowerWord(ws[0]) ==> NormalWord(m, Lower(ws[0])) in KeySet(acc')
    ensures PageMap(acc, ws, m) == PageMap(acc', ws[1..], m)
  {
    if IsLowerWord(ws[0]) {
      acc' := Put(acc, NormalWord(m, Lower(ws[0])), ws[0]);
      PutKeyed(acc, ws[0], PageKey(m));
    } else {
      acc' := acc;
    }
  }

  // ---------------------------------------------------------------- the join

  /** `Set.add` on a list without repeats. */
  function AddDistinct(xs: seq<string>, x: string): (r: seq<string>)
    ensures forall y :: y in r <==> y in xs || y == x
    ensures Distinct(xs) ==> Distinct(r)
    ensures xs <= r && (x in xs ==> r == xs)
  {
    if x in xs then xs else xs + [x]
  }

  predicate Distinct<T(==)>(xs: seq<T>) {
    forall i, j :: 0 <= i < j < |xs| ==> xs[i] != xs[j]
  }

  /** A form the two maps share contributes the query word and the page word. */
  ghost predicate Shared(ft: seq<(string, string)>, ft2: seq<(string, string)>, v: string) {
    exists i :: 0 <= i < |ft| && ft[i].0 in KeySet(ft2) && (v == ft[i].1 || Get(ft2, ft[i].0) == Some(v))
  }

  /** The nested loop over both key sets. */
  function Join(acc: seq<string>, ft: seq<(string, string)>, ft2: seq<(string, string)>): (r: seq<string>)
    requires Distinct(acc)
    ensures Distinct(r)
    ensures forall v :: v in r <==> v in acc || Shared(ft, ft2, v)
    decreases |ft|
  {
    if |ft| == 0 then acc
    else
      var acc' := if ft[0].0 in KeySet(ft2) then AddDistinct(AddDistinct(acc, ft[0].1), Get(ft2, ft[0].0).value) else acc;
      var r := Join(acc', ft[1..], ft2);
      assert forall v :: Shared(ft, ft2, v) <==>
        (ft[0].0 in KeySet(ft2) && (v == ft[0].1 || Get(ft2, ft[0].0) == Some(v))) || Shared(ft[1..], ft2, v) by {
        forall v | Shared(ft, ft2, v) && !(ft[0].0 in KeySet(ft2) && (v == ft[0].1 || Get(ft2, ft[0].0) == Some(v)))
          ensures Shared(ft[1..], ft2, v)
        {
          var i :| 0 <= i < |ft| && ft[i].0 in KeySet(ft2) && (v == ft[i].1 || Get(ft2, ft[i].0) == Some(v));
          assert ft[1..][i - 1] == ft[i];
        }
        forall v | Shared(ft[1..], ft2, v) ensures Shared(ft, ft2, v) {
          var i :| 0 <= i < |ft[1..]| && ft[1..][i].0 in KeySet(ft2) && (v == ft[1..][i].1 || Get(ft2, ft[1..][i].0) == Some(v));
          assert ft[i + 1] == ft[1..][i];
        }
      }
      r
  }

  /** `getWordsValues(content, words)`: the words of both sides whose normal forms meet. */
  function WordsValues(content: string, words: seq<string>, m: Morphology): (r: seq<string>)
    ensures Distinct(r)
  {
    match QueryMap([], words, m)
    case None => []
    case Some(ft) => Join([], ft, PageMap([], PageWords(content), m))
  }

  /** A query word the morphology rejects leaves no values at all. */
  lemma RejectedQueryWord(content: string, words: seq<string>, m: Morphology, i: int)
    requires 0 <= i < |words| && !m.accepts(words[i])
    ensures WordsValues(content, words, m) == []
  {
  }

  /** Every value is a query word or a lower-case word of the page. */
  lemma ValuesFromInputs(content: string, words: seq<string>, m: Morphology)
    ensures forall v :: v in WordsValues(content, words, m) ==> v in words || (v in PageWords(content) && IsLowerWord(v))
  {
    var q := QueryMap([], words, m);
    if q.Some? {
      var ws := PageWords(content);
      var ft2 := PageMap([], ws, m);
      assert WordsValues(content, words, m) == Join([], q.value, ft2);
      JoinSources(q.value, ft2, words, ws);
    }
  }

  lemma JoinSources(ft: seq<(string, string)>, ft2: seq<(string, string)>, words: seq<string>, ws: seq<string>)
    requires forall e :: e in ft ==> e.1 in words
    requires forall e :: e in ft2 ==> e.1 in ws && IsLowerWord(e.1)
    ensures forall v :: v in Join([], ft, ft2) ==> v in words || (v in ws && IsLowerWord(v))
  {
    forall v | v in Join([], ft, ft2) ensures v in words || (v in ws && IsLowerWord(v)) {
      assert Shared(ft, ft2, v);
      var i :| 0 <= i < |ft| && ft[i].0 in KeySet(ft2) && (v == ft[i].1 || Get(ft2, ft[i].0) == Some(v));
      if v == ft[i].1 {
        assert ft[i] in ft;
      } else {
        GetIn(ft2, ft[i].0);
      }
    }
  }

  /**
   * When every word is accepted, a query word that shares its normal form with a
   * lower-case page word is found: some value has that normal form.
   */
  lemma SharedFormFound(content: string, words: seq<string>, m: Morphology, i: int, j: int)
    requires forall k :: 0 <= k < |words| ==> m.accepts(words[k])
    requires var ws := PageWords(content); forall k :: 0 <= k < |ws| && IsLowerWord(ws[k]) ==> m.accepts(Lower(ws[k]))
    requires 0 <= i < |words| && 0 <= j < |PageWords(content)| && IsLowerWord(PageWords(content)[j])
    requires NormalWord(m, words[i]) == NormalWord(m, Lower(PageWords(content)[j]))
    ensures exists v :: v in WordsValues(content, words, m) && NormalWord(m, v) == NormalWord(m, words[i])
  {
    SharedFormIn(PageWords(content), words, m, i, j);
  }

  /** `SharedFormFound` over the page's words. */
  lemma SharedFormIn(ws: seq<string>, words: seq<string>, m: Morphology, i: int, j: int)
    requires forall k :: 0 <= k < |words| ==> m.accepts(words[k])
    requires forall k :: 0 <= k < |ws| && IsLowerWord(ws[k]) ==> m.accepts(Lower(ws[k]))
    requires 0 <= i < |words| && 0 <= j < |ws| && IsLowerWord(ws[j])
    requires NormalWord(m, words[i]) == NormalWord(m, Lower(ws[j]))
    ensures QueryMap([], words, m).Some?
    ensures exists v :: v in Join([], QueryMap([], words, m).value, PageMap([], ws, m)) && NormalWord(m, v) == NormalWord(m, words[i])
  {
    QueryKeyFound(words, m, i);
    PageKeyFound(ws, m, j);
    SharedInJoin(QueryMap([], words, m).value, PageMap([], ws, m), NormalWord(m, words[i]), m);
  }

  lemma QueryKeyFound(words: seq<string>, m: Morphology, i: int)
    requires forall k :: 0 <= k < |words| ==> m.accepts(words[k])
    requires 0 <= i < |words|
    ensures QueryMap([], words, m).Some?
    ensures KeyedBy(QueryMap([], words, m).value, QueryKey(m))
    ensures NormalWord(m, words[i]) in KeySet(QueryMap([], words, m).value)
  {
    assert NormalWord(m, words[i]) in (set i' | 0 <= i' < |words| :: NormalWord(m, words[i']));
  }

  lemma PageKeyFound(ws: seq<string>, m: Morphology, j: int)
    requires forall k :: 0 <= k < |ws| && IsLowerWord(ws[k]) ==> m.accepts(Lower(ws[k]))
    requires 0 <= j < |ws| && IsLowerWord(ws[j])
    ensures NormalWord(m, Lower(ws[j])) in KeySet(PageMap([], ws, m))
  {
    PageMapCovers([], ws, m, j);
  }

  lemma SharedInJoin(ft: seq<(string, string)>, ft2: seq<(string, string)>, k: string, m: Morphology)
    requires KeyedBy(ft, QueryKey(m)) && k in KeySet(ft) && k in KeySet(ft2)
    ensures exists v :: v in Join([], ft, ft2) && NormalWord(m, v) == k
  {
    var a :| 0 <= a < |ft| && ft[a].0 == k;
    assert Shared(ft, ft2, ft[a].1);
    assert NormalWord(m, ft[a].1) == k;
  }

  /** A lower-case word is its own lower case. */
  lemma LowerOfLowerWord(w: string)
    requires IsLowerWord(w)
    ensures Lower(w) == w
  {
  }

  /** A lower-case page word that shares its normal form with `v`. */
  ghost predicate MeetsPage(ws: seq<string>, v: string, m: Morphology) {
    exists j :: 0 <= j < |ws| && IsLowerWord(ws[j]) && NormalWord(m, Lower(ws[j])) == NormalWord(m, v)
  }

  /**
   * Every value shares its normal form with a lower-case word of the page: a query word
   * through its key, a page word through itself.
   */
  lemma ValuesMeetPage(content: string, words: seq<string>, m: Morphology)
    ensures forall v :: v in WordsValues(content, words, m) ==> MeetsPage(PageWords(content), v, m)
  {
    var q := QueryMap([], words, m);
    if q.Some? {
      var ws := PageWords(content);
      var ft2 := PageMap([], ws, m);
      assert WordsValues(content, words, m) == Join([], q.value, ft2);
      forall v | v in Join([], q.value, ft2) ensures MeetsPage(ws, v, m) {
        assert Shared(q.value, ft2, v);
        JoinValueMeetsPage(q.value, ft2, ws, m, v);
      }
    }
  }

  lemma JoinValueMeetsPage(ft: seq<(string, string)>, ft2: seq<(string, string)>, ws: seq<string>, m: Morphology, v: string)
    requires KeyedBy(ft, QueryKey(m)) && KeyedBy(ft2, PageKey(m))
    requires forall e :: e in ft2 ==> e.1 in ws && IsLowerWord(e.1)
    requires Shared(ft, ft2, v)
    ensures MeetsPage(ws, v, m)
  {
    var i :| 0 <= i < |ft| && ft[i].0 in KeySet(ft2) && (v == ft[i].1 || Get(ft2, ft[i].0) == Some(v));
    if v == ft[i].1 {
      assert ft[i].0 == QueryKey(m)(ft[i].1);
      KeyMeetsPage(ft2, ws, m, v);
    } else {
      EntryMeetsPage(ft2, ws, m, ft[i].0, v);
    }
  }

  /** A word whose normal form is a key of the page map. */
  lemma KeyMeetsPage(ft2: seq<(string, string)>, ws: seq<string>, m: Morphology, v: string)
    requires KeyedBy(ft2, PageKey(m))
    requires forall e :: e in ft2 ==> e.1 in ws && IsLowerWord(e.1)
    requires NormalWord(m, v) in KeySet(ft2)
    ensures MeetsPage(ws, v, m)
  {
    var a :| 0 <= a < |ft2| && ft2[a].0 == NormalWord(m, v);
    assert ft2[a] in ft2;
    var j :| 0 <= j < |ws| && ws[j] == ft2[a].1;
    assert NormalWord(m, Lower(ws[j])) == ft2[a].0;
  }

  /** A word the page map holds. */
  lemma EntryMeetsPage(ft2: seq<(string, string)>, ws: seq<string>, m: Morphology, k: string, v: string)
    requires forall e :: e in ft2 ==> e.1 in ws && IsLowerWord(e.1)
    requires Get(ft2, k) == Some(v)
    ensures MeetsPage(ws, v, m)
  {
    GetIn(ft2, k);
    var j :| 0 <= j < |ws| && ws[j] == v;
    LowerOfLowerWord(v);
    assert NormalWord(m, Lower(ws[j])) == NormalWord(m, v);
  }

  /** A query word whose normal form no lower-case page word shares is not a value. */
  lemma UnmatchedQueryWordDropped(content: string, words: seq<string>, m: Morphology, w: string)
    requires w in words && !MeetsPage(PageWords(content), w, m)
    ensures w !in WordsValues(content, words, m)
  {
    ValuesMeetPage(content, words, m);
  }

  // ---------------------------------------------------------------- bold

  function Bold(w: string): string {
    "<b>" + w + "</b>"
  }

  /** Deleting the bold markers: the inverse of bolding for text without `<`. */
  function Unbold(s: string): string
    decreases |s|
  {
    if HasPrefix(s, "<b>") then Unbold(s[3..])
    else if HasPrefix(s, "</b>") then Unbold(s[4..])
    else if |s| == 0 then []
    else [s[0]] + Unbold(s[1..])
  }

  /** Text without `<` passes through `Unbold` unchanged. */
  lemma {:induction false} UnboldPlain(x: string, y: string)
    requires '<' !in x
    ensures Unbold(x + y) == x + Unbold(y)
    decreases |x|
  {
    if |x| > 0 {
      assert (x + y)[0] == x[0] && x[0] != '<';
      assert !HasPrefix(x + y, "<b>") && !HasPrefix(x + y, "</b>") by {
        assert "<b>"[0] == '<' && "</b>"[0] == '<';
        if |x + y| >= 3 {
          assert (x + y)[..3][0] == x[0];
        }
        if |x + y| >= 4 {
          assert (x + y)[..4][0] == x[0];
        }
      }
      assert (x + y)[1..] == x[1..] + y;
      assert Unbold(x + y) == [x[0]] + Unbold(x[1..] + y);
      UnboldPlain(x[1..], y);
      assert x == [x[0]] + x[1..];
    } else {
      assert x + y == y;
    }
  }

  lemma UnboldBold(w: string, y: string)
    requires '<' !in w
    ensures Unbold(Bold(w) + y) == w + Unbold(y)
  {
    var s := Bold(w) + y;
    assert HasPrefix(s, "<b>") && s[3..] == w + ("</b>" + y);
    UnboldPlain(w, "</b>" + y);
    var t := "</b>" + y;
    assert !HasPrefix(t, "<b>") by {
      assert t[..3][1] == '/' && "<b>"[1] == 'b';
    }
    assert HasPrefix(t, "</b>") && t[4..] == y;
  }

  /** Bolding every occurrence of a word and deleting the markers gives the sentence back. */
  lemma {:induction false} BoldRoundTrip(s: string, w: string)
    requires '<' !in s && '<' !in w
    ensures Unbold(ReplaceAll(s, w, Bold(w), false)) == s
    decreases |s|
  {
    if |w| == 0 {
      if |s| == 0 {
        UnboldBold(w, []);
        assert Bold(w) + [] == Bold(w) && w == [];
      } else {
        BoldRoundTrip(s[1..], w);
        assert Bold(w) + [s[0]] + ReplaceAll(s[1..], w, Bold(w), false)
          == Bold(w) + ([s[0]] + ReplaceAll(s[1..], w, Bold(w), false));
        UnboldBold(w, [s[0]] + ReplaceAll(s[1..], w, Bold(w), false));
        UnboldPlain([s[0]], ReplaceAll(s[1..], w, Bold(w), false));
        assert s == [s[0]] + s[1..];
      }
    } else if MatchesAt(s, w, false) {
      MatchesAtLiteral(s, w);
      BoldRoundTrip(s[|w|..], w);
      UnboldBold(w, ReplaceAll(s[|w|..], w, Bold(w), false));
      assert s == w + s[|w|..];
    } else if |s| > 0 {
      BoldRoundTrip(s[1..], w);
      UnboldPlain([s[0]], ReplaceAll(s[1..], w, Bold(w), false));
      assert s == [s[0]] + s[1..];
    }
  }

  // ---------------------------------------------------------------- the snippet

  /** The first sentence that mentions the word, ignoring case, bolded and followed by "..."; none gives "". */
  function SnippetPart(sentences: seq<string>, w: string): (r: string)
    ensures r == "" <==> forall i :: 0 <= i < |sentences| ==> !Contains(Lower(sentences[i]), Lower(w))
  {
    if |sentences| == 0 then ""
    else if Contains(Lower(sentences[0]), Lower(w)) then ReplaceAll(sentences[0], w, Bold(w), false) + "..."
    else
      assert forall i :: 0 < i < |sentences| ==> sentences[i] == sentences[1..][i - 1];
      SnippetPart(sentences[1..], w)
  }

  /** The first sentence that mentions the word, when there is one. */
  lemma {:induction false} SnippetPartSentence(sentences: seq<string>, w: string)
    requires '<' !in w && forall i :: 0 <= i < |sentences| ==> '<' !in sentences[i]
    requires SnippetPart(sentences, w) != ""
    ensures var r := SnippetPart(sentences, w);
      |r| >= 3 && r[|r| - 3..] == "..."
      && exists i :: 0 <= i < |sentences| && Contains(Lower(sentences[i]), Lower(w))
           && Unbold(r[..|r| - 3]) == sentences[i]
           && forall j :: 0 <= j < i ==> !Contains(Lower(sentences[j]), Lower(w))
  {
    if Contains(Lower(sentences[0]), Lower(w)) {
      var part := ReplaceAll(sentences[0], w, Bold(w), false);
      var r := part + "...";
      assert r[..|r| - 3] == part;
      BoldRoundTrip(sentences[0], w);
    } else {
      SnippetPartSentence(sentences[1..], w);
      var r := SnippetPart(sentences[1..], w);
      var i :| 0 <= i < |sentences[1..]| && Contains(Lower(sentences[1..][i]), Lower(w))
        && Unbold(r[..|r| - 3]) == sentences[1..][i]
        && forall j :: 0 <= j < i ==> !Contains(Lower(sentences[1..][j]), Lower(w));
      assert sentences[i + 1] == sentences[1..][i];
      forall j | 0 <= j < i + 1 ensures !Contains(Lower(sentences[j]), Lower(w)) {
        if j > 0 {
          assert sentences[j] == sentences[1..][j - 1];
        }
      }
    }
  }

  /** A sentence that mentions the word only in another case is appended without bold. */
  lemma CaseOnlyMention(s: string, w: string)
    requires |w| > 0 && Contains(Lower(s), Lower(w)) && !Contains(s, w)
    ensures SnippetPart([s], w) == s + "..."
  {
    ReplaceAbsent(s, w, Bold(w));
  }

  function SnippetParts(sentences: seq<string>, values: seq<string>): (r: seq<string>)
    ensures |r| == |values| && forall i :: 0 <= i < |values| ==> r[i] == SnippetPart(sentences, values[i])
  {
    seq(|values|, i requires 0 <= i < |values| => SnippetPart(sentences, values[i]))
  }

  /** `buildSnippet(page, query)` on the page's body text. */
  function BuildSnippet(text: string, query: string, m: Morphology): string {
    var sentences := JavaSplit(text, IsSentenceEnd);
    Concat(SnippetParts(sentences, WordsValues(text, JavaSplit(query, IsBlank), m)))
  }

  /**
   * The snippet is the fragments of the selected words joined in their order: around the
   * fragment of any one word lie those of the words before it and of the words after it.
   * No selected word gives the empty snippet.
   */
  lemma BuildSnippetInOrder(text: string, query: string, m: Morphology)
    ensures var sentences := JavaSplit(text, IsSentenceEnd);
      var vs := WordsValues(text, JavaSplit(query, IsBlank), m);
      var r := BuildSnippet(text, query, m);
      && (|vs| == 0 ==> r == "")
      && forall j :: 0 <= j < |vs| ==>
           r == Concat(SnippetParts(sentences, vs[..j])) + SnippetPart(sentences, vs[j]) + Concat(SnippetParts(sentences, vs[j + 1..]))
  {
    var sentences := JavaSplit(text, IsSentenceEnd);
    var vs := WordsValues(text, JavaSplit(query, IsBlank), m);
    forall j | 0 <= j < |vs|
      ensures BuildSnippet(text, query, m)
        == Concat(SnippetParts(sentences, vs[..j])) + SnippetPart(sentences, vs[j]) + Concat(SnippetParts(sentences, vs[j + 1..]))
    {
      SplitParts(sentences, vs, j);
    }
  }

  lemma SplitParts(sentences: seq<string>, vs: seq<string>, j: int)
    requires 0 <= j < |vs|
    ensures Concat(SnippetParts(sentences, vs))
      == Concat(SnippetParts(sentences, vs[..j])) + SnippetPart(sentences, vs[j]) + Concat(SnippetParts(sentences, vs[j + 1..]))
  {
    var parts := SnippetParts(sentences, vs);
    assert SnippetParts(sentences, vs[..j]) == parts[..j];
    assert SnippetParts(sentences, vs[j + 1..]) == parts[j + 1..];
    ConcatSplit(parts, j);
  }

  /** The snippet is empty exactly when no sentence mentions any selected word, ignoring case. */
  lemma BuildSnippetEmpty(text: string, query: string, m: Morphology)
    ensures var sentences := JavaSplit(text, IsSentenceEnd);
      var vs := WordsValues(text, JavaSplit(query, IsBlank), m);
      BuildSnippet(text, query, m) == "" <==>
        forall j, i :: 0 <= j < |vs| && 0 <= i < |sentences| ==> !Contains(Lower(sentences[i]), Lower(vs[j]))
  {
    PartsEmpty(JavaSplit(text, IsSentenceEnd), WordsValues(text, JavaSplit(query, IsBlank), m));
  }

  lemma PartsEmpty(sentences: seq<string>, vs: seq<string>)
    ensures Concat(SnippetParts(sentences, vs)) == "" <==>
      forall j, i :: 0 <= j < |vs| && 0 <= i < |sentences| ==> !Contains(Lower(sentences[i]), Lower(vs[j]))
  {
    var parts := SnippetParts(sentences, vs);
    ConcatEmpty(parts);
    assert (forall j :: 0 <= j < |vs| ==> parts[j] == "") <==>
      forall j :: 0 <= j < |vs| ==> forall i :: 0 <= i < |sentences| ==> !Contains(Lower(sentences[i]), Lower(vs[j]));
  }

  /** A query word the morphology rejects leaves the snippet empty. */
  lemma RejectedWordEmptySnippet(text: string, query: string, m: Morphology, i: int)
    requires 0 <= i < |JavaSplit(query, IsBlank)| && !m.accepts(JavaSplit(query, IsBlank)[i])
    ensures BuildSnippet(text, query, m) == ""
  {
    RejectedQueryWord(text, JavaSplit(query, IsBlank), m, i);
  }
}

=== FILE: text.dfy ===
/**
 * Character classes and the few `java.lang.String` operations the services use,
 * stated on `seq<char>`.
 */
module Text {

  /** Characters that `.` in a Java regular expression does not match (no DOTALL flag). */
  predicate IsLineTerminator(c: char) {
    c == '\n' || c == '\r' || c == '\U{0085}' || c == '\U{2028}' || c == '\U{2029}'
  }

  /** The range `а-я` of the lemmatizer's character class: U+0430..U+044F (so `ё` is outside). */
  predicate IsCyrillicLower(c: char) {
    'а' <= c <= 'я'
  }

  /** Characters removed by `String.trim()`: every code point up to U+0020. */
  predicate IsTrimmed(c: char) {
    c <= ' '
  }

  /**
   * `Character.toLowerCase` on the letters the model distinguishes: Latin `A-Z`,
   * Cyrillic `А-Я` (U+0410..U+042F) and `Ѐ-Џ` (U+0400..U+040F, which includes `Ё`).
   */
  function LowerChar(c: char): (r: char)
    ensures !('A' <= r <= 'Z') && !('А' <= r <= 'Я') && !('\U{0400}' <= r <= '\U{040F}')
    ensures r == c || UpperChar(r) == c
  {
    if 'A' <= c <= 'Z' then (c as int + 32) as char
    else if 'А' <= c <= 'Я' then (c as int + 32) as char
    else if '\U{0400}' <= c <= '\U{040F}' then (c as int + 80) as char
    else c
  }

  /** `Character.toUpperCase` on the same letters: the inverse of `LowerChar` on them. */
  function UpperChar(c: char): char {
    if 'a' <= c <= 'z' then (c as int - 32) as char
    else if 'а' <= c <= 'я' then (c as int - 32) as char
    else if '\U{0450}' <= c <= '\U{045F}' then (c as int - 80) as char
    else c
  }

  /** `String.toLowerCase()`, character by character. */
  function Lower(s: string): (r: string)
    ensures |r| == |s|
    ensures forall i :: 0 <= i < |s| ==> r[i] == LowerChar(s[i])
  {
    seq(|s|, i requires 0 <= i < |s| => LowerChar(s[i]))
  }

  /** Lowercasing works character by character, so it splits around any one character. */
  lemma LowerAround(a: string, c: char, b: string)
    ensures Lower(a + [c] + b) == Lower(a) + [LowerChar(c)] + Lower(b)
  {
    var s, r := a + [c] + b, Lower(a) + [LowerChar(c)] + Lower(b);
    forall i | 0 <= i < |s|
      ensures Lower(s)[i] == r[i]
    {
      if i < |a| {
        assert s[i] == a[i];
      } else if i > |a| {
        assert s[i] == b[i - |a| - 1];
      }
    }
  }

  /** `String.toUpperCase()`, character by character. */
  function Upper(s: string): (r: string)
    ensures |r| == |s|
    ensures forall i :: 0 <= i < |s| ==> r[i] == UpperChar(s[i])
  {
    seq(|s|, i requires 0 <= i < |s| => UpperChar(s[i]))
  }

  /** Lowercasing is idempotent: a lowercased string is its own lower case. */
  lemma LowerIdempotent(s: string)
    ensures Lower(Lower(s)) == Lower(s)
  {
    forall i | 0 <= i < |s|
      ensures Lower(Lower(s))[i] == Lower(s)[i]
    {
      var c := LowerChar(s[i]);
      assert LowerChar(c) == c;
    }
  }

  /** Lowercasing does not move a character that is not a letter of the modelled ranges. */
  lemma LowerKeepsChar(s: string, c: char)
    requires LowerChar(c) == c && UpperChar(c) == c
    ensures c in Lower(s) <==> c in s
  {
    if c in s {
      var i :| 0 <= i < |s| && s[i] == c;
      assert Lower(s)[i] == c;
    }
    if c in Lower(s) {
      var i :| 0 <= i < |s| && Lower(s)[i] == c;
      assert LowerChar(s[i]) == c;
    }
  }

  predicate HasPrefix(s: string, p: string) {
    |p| <= |s| && s[..|p|] == p
  }

  predicate HasSuffix(s: string, t: string) {
    |t| <= |s| && s[|s| - |t|..] == t
  }

  /** `sub` occurs in `s` starting at index `i`. */
  predicate OccursAt(s: string, sub: string, i: int) {
    0 <= i && i + |sub| <= |s| && s[i..i + |sub|] == sub
  }

  /** `String.contains`: `sub` occurs in `s` at some index. */
  function Contains(s: string, sub: string): (r: bool)
    ensures r <==> exists i :: OccursAt(s, sub, i)
    decreases |s|
  {
    if HasPrefix(s, sub) then
      assert OccursAt(s, sub, 0);
      true
    else if |s| == 0 then
      false
    else
      ShiftOccurrence(s, sub);
      Contains(s[1..], sub)
  }

  /** An occurrence in `s` not at index 0 is an occurrence in `s[1..]`, and conversely. */
  lemma ShiftOccurrence(s: string, sub: string)
    requires |s| > 0 && !HasPrefix(s, sub)
    ensures (exists i :: OccursAt(s, sub, i)) <==> (exists j :: OccursAt(s[1..], sub, j))
  {
    if exists i :: OccursAt(s, sub, i) {
      var i :| OccursAt(s, sub, i);
      assert i != 0;
      assert s[1..][i - 1..i - 1 + |sub|] == s[i..i + |sub|];
      assert OccursAt(s[1..], sub, i - 1);
    }
    if exists j :: OccursAt(s[1..], sub, j) {
      var j :| OccursAt(s[1..], sub, j);
      assert s[1..][j..j + |sub|] == s[j + 1..j + 1 + |sub|];
      assert OccursAt(s, sub, j + 1);
    }
  }

  /** A one-character string occurs exactly where the character does. */
  lemma ContainsChar(s: string, c: char)
    ensures Contains(s, [c]) <==> c in s
  {
    if c in s {
      var i :| 0 <= i < |s| && s[i] == c;
      assert OccursAt(s, [c], i);
    }
    if Contains(s, [c]) {
      var i :| OccursAt(s, [c], i);
      assert s[i] == s[i..i + 1][0];
    }
  }

  /** `String.trim()`: drops leading and trailing characters up to U+0020. */
  function Trim(s: string): (r: string)
    ensures |r| == 0 || (!IsTrimmed(r[0]) && !IsTrimmed(r[|r| - 1]))
  {
    TrimEnd(TrimStart(s))
  }

  function TrimStart(s: string): (r: string)
    ensures |r| == 0 || !IsTrimmed(r[0])
    decreases |s|
  {
    if |s| > 0 && IsTrimmed(s[0]) then TrimStart(s[1..]) else s
  }

  function TrimEnd(s: string): (r: string)
    ensures |r| == 0 || !IsTrimmed(r[|r| - 1])
    ensures |r| > 0 && |s| > 0 ==> r[0] == s[0]
    decreases |s|
  {
    if |s| > 0 && IsTrimmed(s[|s| - 1]) then TrimEnd(s[..|s| - 1]) else s
  }

  /** Trimming removes only characters that a filter keeping no trimmed character drops anyway. */
  lemma {:induction false} TrimFilter(s: string, keep: char -> bool)
    requires forall c :: IsTrimmed(c) ==> !keep(c)
    ensures FilterChars(Trim(s), keep) == FilterChars(s, keep)
  {
    TrimStartFilter(s, keep);
    TrimEndFilter(TrimStart(s), keep);
  }

  lemma {:induction false} TrimStartFilter(s: string, keep: char -> bool)
    requires forall c :: IsTrimmed(c) ==> !keep(c)
    ensures FilterChars(TrimStart(s), keep) == FilterChars(s, keep)
    decreases |s|
  {
    if |s| > 0 && IsTrimmed(s[0]) {
      TrimStartFilter(s[1..], keep);
    }
  }

  lemma {:induction false} TrimEndFilter(s: string, keep: char -> bool)
    requires forall c :: IsTrimmed(c) ==> !keep(c)
    ensures FilterChars(TrimEnd(s), keep) == FilterChars(s, keep)
    decreases |s|
  {
    if |s| > 0 && IsTrimmed(s[|s| - 1]) {
      var t := s[..|s| - 1];
      TrimEndFilter(t, keep);
      assert s == t + [s[|s| - 1]];
      FilterCharsAppend(t, [s[|s| - 1]], keep);
    }
  }

  /** The characters of `s` that satisfy `keep`, in order. */
  function FilterChars(s: string, keep: char -> bool): (r: string)
    ensures forall i :: 0 <= i < |r| ==> keep(r[i])
    ensures |r| <= |s|
  {
    if |s| == 0 then []
    else if keep(s[0]) then [s[0]] + FilterChars(s[1..], keep)
    else FilterChars(s[1..], keep)
  }

  lemma FilterCharsAppend(a: string, b: string, keep: char -> bool)
    ensures FilterChars(a + b, keep) == FilterChars(a, keep) + FilterChars(b, keep)
  {
    if |a| == 0 {
      assert a + b == b;
    } else {
      assert (a + b)[1..] == a[1..] + b;
    }
  }

  /** Filtering a string none of whose characters is kept gives the empty string. */
  lemma FilterCharsNone(s: string, keep: char -> bool)
    requires forall i :: 0 <= i < |s| ==> !keep(s[i])
    ensures FilterChars(s, keep) == []
  {
  }

  /** Concatenation of a sequence of strings. */
  function Concat(xs: seq<string>): string {
    if |xs| == 0 then [] else xs[0] + Concat(xs[1..])
  }

  lemma ConcatAppend(xs: seq<string>, ys: seq<string>)
    ensures Concat(xs + ys) == Concat(xs) + Concat(ys)
  {
    if |xs| == 0 {
      assert xs + ys == ys;
    } else {
      assert (xs + ys)[1..] == xs[1..] + ys;
    }
  }

  /** Around any one piece lie the pieces before it and the pieces after it. */
  lemma {:induction false} ConcatSplit(xs: seq<string>, j: int)
    requires 0 <= j < |xs|
    ensures Concat(xs) == Concat(xs[..j]) + xs[j] + Concat(xs[j + 1..])
  {
    var before, rest := xs[..j], xs[j..];
    assert xs == before + rest;
    ConcatAppend(before, rest);
    assert rest[1..] == xs[j + 1..];
  }

  /** The concatenation is empty exactly when every piece is. */
  lemma {:induction false} ConcatEmpty(xs: seq<string>)
    ensures Concat(xs) == [] <==> forall i :: 0 <= i < |xs| ==> xs[i] == []
  {
    if |xs| > 0 {
      ConcatEmpty(xs[1..]);
      assert forall i :: 0 < i < |xs| ==> xs[i] == xs[1..][i - 1];
    }
  }

  /** The non-empty elements of `xs`, in order. */
  function NonEmpty(xs: seq<string>): (r: seq<string>)
    ensures forall i :: 0 <= i < |r| ==> |r[i]| > 0
    ensures forall x :: x in r ==> x in xs
  {
    if |xs| == 0 then []
    else if |xs[0]| > 0 then [xs[0]] + NonEmpty(xs[1..])
    else NonEmpty(xs[1..])
  }

  lemma NonEmptyAppend(xs: seq<string>, ys: seq<string>)
    ensures NonEmpty(xs + ys) == NonEmpty(xs) + NonEmpty(ys)
  {
    if |xs| == 0 {
      assert xs + ys == ys;
    } else {
      assert (xs + ys)[1..] == xs[1..] + ys;
    }
  }

  lemma ConcatNonEmpty(xs: seq<string>)
    ensures Concat(NonEmpty(xs)) == Concat(xs)
  {
    if |xs| > 0 {
      ConcatNonEmpty(xs[1..]);
    }
  }

  /**
   * The pieces between separator characters, the last one being `cur` extended by
   * the rest of `s`; `Pieces(s, sep, [])` has one more element than `s` has separators.
   */
  function Pieces(s: string, isSep: char -> bool, cur: string): (r: seq<string>)
    ensures |r| > 0
    decreases |s|
  {
    if |s| == 0 then [cur]
    else if isSep(s[0]) then [cur] + Pieces(s[1..], isSep, [])
    else Pieces(s[1..], isSep, cur + [s[0]])
  }

  /** Joining the pieces gives back the string without its separators. */
  lemma PiecesConcat(s: string, isSep: char -> bool, keep: char -> bool, cur: string)
    requires forall c :: keep(c) <==> !isSep(c)
    ensures Concat(Pieces(s, isSep, cur)) == cur + FilterChars(s, keep)
    decreases |s|
  {
    if |s| > 0 {
      PiecesConcat(s[1..], isSep, keep, if isSep(s[0]) then [] else cur + [s[0]]);
    }
  }

  /** No piece contains a separator (given the partial piece does not). */
  lemma PiecesHaveNoSeparator(s: string, isSep: char -> bool, cur: string)
    requires forall i :: 0 <= i < |cur| ==> !isSep(cur[i])
    ensures forall p, i :: p in Pieces(s, isSep, cur) && 0 <= i < |p| ==> !isSep(p[i])
    decreases |s|
  {
    if |s| > 0 {
      PiecesHaveNoSeparator(s[1..], isSep, if isSep(s[0]) then [] else cur + [s[0]]);
    }
  }

  /** A separator cuts the pieces in two: those before it, and those after it from scratch. */
  lemma {:induction false} PiecesAtSeparator(x: string, c: char, y: string, isSep: char -> bool, cur: string)
    requires isSep(c)
    ensures Pieces(x + [c] + y, isSep, cur) == Pieces(x, isSep, cur) + Pieces(y, isSep, [])
    decreases |x|
  {
    var s := x + [c] + y;
    if |x| == 0 {
      assert s == [c] + y && s[1..] == y;
    } else {
      assert s[0] == x[0] && s[1..] == x[1..] + [c] + y;
      PiecesAtSeparator(x[1..], c, y, isSep, if isSep(x[0]) then [] else cur + [x[0]]);
    }
  }

  /** Without a separator everything joins the current piece. */
  lemma {:induction false} PiecesWithoutSeparator(s: string, isSep: char -> bool, cur: string)
    requires forall i :: 0 <= i < |s| ==> !isSep(s[i])
    ensures Pieces(s, isSep, cur) == [cur + s]
    decreases |s|
  {
    if |s| > 0 {
      assert !isSep(s[0]);
      PiecesWithoutSeparator(s[1..], isSep, cur + [s[0]]);
      assert cur + [s[0]] + s[1..] == cur + s;
    } else {
      assert cur + s == cur;
    }
  }

  /** Trimming only drops separators at the ends, which leave no non-empty piece. */
  lemma {:induction false} TrimStartPieces(s: string, isSep: char -> bool)
    requires forall c :: IsTrimmed(c) ==> isSep(c)
    ensures NonEmpty(Pieces(TrimStart(s), isSep, [])) == NonEmpty(Pieces(s, isSep, []))
    decreases |s|
  {
    if |s| > 0 && IsTrimmed(s[0]) {
      TrimStartPieces(s[1..], isSep);
      assert s == [] + [s[0]] + s[1..];
      PiecesAtSeparator([], s[0], s[1..], isSep, []);
      NonEmptyAppend(Pieces([], isSep, []), Pieces(s[1..], isSep, []));
    }
  }

  lemma {:induction false} TrimEndPieces(s: string, isSep: char -> bool)
    requires forall c :: IsTrimmed(c) ==> isSep(c)
    ensures NonEmpty(Pieces(TrimEnd(s), isSep, [])) == NonEmpty(Pieces(s, isSep, []))
    decreases |s|
  {
    if |s| > 0 && IsTrimmed(s[|s| - 1]) {
      var x := s[..|s| - 1];
      TrimEndPieces(x, isSep);
      assert s == x + [s[|s| - 1]] + [];
      PiecesAtSeparator(x, s[|s| - 1], [], isSep, []);
      NonEmptyAppend(Pieces(x, isSep, []), Pieces([], isSep, []));
    }
  }

  lemma TrimPieces(s: string, isSep: char -> bool)
    requires forall c :: IsTrimmed(c) ==> isSep(c)
    ensures NonEmpty(Pieces(Trim(s), isSep, [])) == NonEmpty(Pieces(s, isSep, []))
  {
    TrimEndPieces(TrimStart(s), isSep);
    TrimStartPieces(s, isSep);
  }

  /** `xs` without its trailing empty strings. */
  function DropTrailingEmpty(xs: seq<string>): (r: seq<string>)
    ensures |r| <= |xs| && r == xs[..|r|]
    ensures |r| == 0 || |r[|r| - 1]| > 0
    ensures forall i :: |r| <= i < |xs| ==> |xs[i]| == 0
  {
    if |xs| == 0 then []
    else if |xs[|xs| - 1]| == 0 then DropTrailingEmpty(xs[..|xs| - 1])
    else xs
  }

  lemma NonEmptyDropTrailing(xs: seq<string>)
    ensures NonEmpty(DropTrailingEmpty(xs)) == NonEmpty(xs)
  {
    var r := DropTrailingEmpty(xs);
    assert xs == r + xs[|r|..];
    NonEmptyAppend(r, xs[|r|..]);
    NonEmptyOfEmpties(xs[|r|..]);
  }

  lemma NonEmptyOfEmpties(xs: seq<string>)
    requires forall i :: 0 <= i < |xs| ==> |xs[i]| == 0
    ensures NonEmpty(xs) == []
  {
  }

  /**
   * `String.split` with a one-character separator class: a string with no separator
   * splits into itself; otherwise the pieces, without trailing empty ones.
   */
  function JavaSplit(s: string, isSep: char -> bool): (r: seq<string>)
    ensures (forall i :: 0 <= i < |s| ==> !isSep(s[i])) ==> r == [s]
  {
    if forall i :: 0 <= i < |s| ==> !isSep(s[i]) then [s]
    else DropTrailingEmpty(Pieces(s, isSep, []))
  }

  /** Whatever the split, its non-empty pieces spell the string without separators. */
  lemma JavaSplitNonEmptyConcat(s: string, isSep: char -> bool, keep: char -> bool)
    requires forall c :: keep(c) <==> !isSep(c)
    ensures Concat(NonEmpty(JavaSplit(s, isSep))) == FilterChars(s, keep)
  {
    if forall i :: 0 <= i < |s| ==> !isSep(s[i]) {
      FilterAllKept(s, keep);
      ConcatNonEmpty([s]);
    } else {
      NonEmptyDropTrailing(Pieces(s, isSep, []));
      ConcatNonEmpty(Pieces(s, isSep, []));
      PiecesConcat(s, isSep, keep, []);
    }
  }

  /** Up to empty pieces, the split is the list of pieces. */
  lemma JavaSplitPieces(s: string, isSep: char -> bool)
    ensures NonEmpty(JavaSplit(s, isSep)) == NonEmpty(Pieces(s, isSep, []))
  {
    if forall i :: 0 <= i < |s| ==> !isSep(s[i]) {
      PiecesWithoutSeparator(s, isSep, []);
      assert [] + s == s;
    } else {
      NonEmptyDropTrailing(Pieces(s, isSep, []));
    }
  }

  lemma FilterAllKept(s: string, keep: char -> bool)
    requires forall i :: 0 <= i < |s| ==> keep(s[i])
    ensures FilterChars(s, keep) == s
  {
    if |s| > 0 {
      FilterAllKept(s[1..], keep);
    }
  }

  /** No element of a split contains a separator. */
  lemma JavaSplitNoSeparator(s: string, isSep: char -> bool)
    ensures forall p, i :: p in JavaSplit(s, isSep) && 0 <= i < |p| ==> !isSep(p[i])
  {
    if !(forall i :: 0 <= i < |s| ==> !isSep(s[i])) {
      PiecesHaveNoSeparator(s, isSep, []);
      var xs := Pieces(s, isSep, []);
      var r := DropTrailingEmpty(xs);
      forall p | p in r ensures p in xs {
        var k :| 0 <= k < |r| && r[k] == p;
        assert xs[k] == p;
      }
    }
  }

  /**
   * `String.replaceAll(pat, rep)` for a pattern whose characters match themselves,
   * except that, when `dotIsWild`, a `.` matches any character but a line terminator.
   * Matches are leftmost and non-overlapping; an empty pattern matches between every
   * two characters and at both ends.
   */
  function ReplaceAll(s: string, pat: string, rep: string, dotIsWild: bool): string
    decreases |s|
  {
    if |pat| == 0 then
      if |s| == 0 then rep else rep + [s[0]] + ReplaceAll(s[1..], pat, rep, dotIsWild)
    else if MatchesAt(s, pat, dotIsWild) then
      rep + ReplaceAll(s[|pat|..], pat, rep, dotIsWild)
    else if |s| == 0 then []
    else [s[0]] + ReplaceAll(s[1..], pat, rep, dotIsWild)
  }

  predicate CharMatches(p: char, c: char, dotIsWild: bool) {
    if dotIsWild && p == '.' then !IsLineTerminator(c) else p == c
  }

  /** The pattern matches the prefix of `s` of its own length. */
  predicate MatchesAt(s: string, pat: string, dotIsWild: bool) {
    |pat| <= |s| && forall i :: 0 <= i < |pat| ==> CharMatches(pat[i], s[i], dotIsWild)
  }

  /** A literal pattern matches a prefix exactly when it is that prefix. */
  lemma MatchesAtLiteral(s: string, pat: string)
    ensures MatchesAt(s, pat, false) <==> HasPrefix(s, pat)
  {
    if MatchesAt(s, pat, false) {
      assert s[..|pat|] == pat;
    }
  }

  /** Replacing a non-empty literal that does not occur changes nothing. */
  lemma ReplaceAbsent(s: string, pat: string, rep: string)
    requires |pat| > 0 && !Contains(s, pat)
    ensures ReplaceAll(s, pat, rep, false) == s
    decreases |s|
  {
    MatchesAtLiteral(s, pat);
    if |s| > 0 {
      assert !HasPrefix(s, pat);
      ShiftOccurrence(s, pat);
      ReplaceAbsent(s[1..], pat, rep);
    }
  }

  /** A matched prefix is replaced, and the replacement goes on after it. */
  lemma ReplaceAtPrefix(p: string, rest: string, rep: string, dotIsWild: bool)
    requires |p| > 0
    ensures ReplaceAll(p + rest, p, rep, dotIsWild) == rep + ReplaceAll(rest, p, rep, dotIsWild)
  {
    assert MatchesAt(p + rest, p, dotIsWild) by {
      forall i | 0 <= i < |p| ensures CharMatches(p[i], (p + rest)[i], dotIsWild) {
        if dotIsWild && p[i] == '.' {
          assert (p + rest)[i] == '.';
        }
      }
    }
    assert (p + rest)[|p|..] == rest;
  }
}

=== FILE: treemap.dfy ===
/**
 * `java.util.TreeMap<String, V>` with natural ordering, as a list of entries kept
 * strictly increasing by key. Iterating a TreeMap is walking this list.
 */
module TreeMap {
  import opened Wrappers

  /** `a.compareTo(b) < 0`: lexicographic order on characters, a proper prefix first. */
  predicate Less(a: string, b: string)
    decreases |a|
  {
    if |a| == 0 then |b| > 0
    else |b| > 0 && (a[0] < b[0] || (a[0] == b[0] && Less(a[1..], b[1..])))
  }

  lemma {:induction false} LessIrreflexive(a: string)
    ensures !Less(a, a)
    decreases |a|
  {
    if |a| > 0 {
      LessIrreflexive(a[1..]);
    }
  }

  lemma {:induction false} LessTransitive(a: string, b: string, c: string)
    requires Less(a, b) && Less(b, c)
    ensures Less(a, c)
    decreases |a|
  {
    if |a| > 0 && a[0] == b[0] && b[0] == c[0] {
      LessTransitive(a[1..], b[1..], c[1..]);
    }
  }

  lemma {:induction false} LessTotal(a: string, b: string)
    ensures a == b || Less(a, b) || Less(b, a)
    decreases |a|
  {
    if |a| > 0 && |b| > 0 && a[0] == b[0] {
      LessTotal(a[1..], b[1..]);
      if a[1..] == b[1..] {
        assert a == [a[0]] + a[1..] && b == [b[0]] + b[1..];
      }
    }
  }

  lemma LessAsymmetric(a: string, b: string)
    requires Less(a, b)
    ensures !Less(b, a) && a != b
  {
    if Less(b, a) {
      LessTransitive(a, b, a);
      LessIrreflexive(a);
    }
    LessIrreflexive(a);
  }

  /** Keys strictly increasing: in particular no key occurs twice. */
  predicate Sorted<V>(e: seq<(string, V)>) {
    forall i, j :: 0 <= i < j < |e| ==> Less(e[i].0, e[j].0)
  }

  function KeySet<V>(e: seq<(string, V)>): set<string> {
    set i | 0 <= i < |e| :: e[i].0
  }

  /** The keys in iteration order. */
  function Keys<V>(e: seq<(string, V)>): (r: seq<string>)
    ensures |r| == |e| && forall i :: 0 <= i < |e| ==> r[i] == e[i].0
  {
    seq(|e|, i requires 0 <= i < |e| => e[i].0)
  }

  /** `get(k)`: the value of the first entry with key `k`, `None` for a missing key. */
  function Get<V>(e: seq<(string, V)>, k: string): (r: Option<V>)
    ensures r.Some? <==> k in KeySet(e)
  {
    if |e| == 0 then None
    else if e[0].0 == k then Some(e[0].1)
    else
      assert KeySet(e) == {e[0].0} + KeySet(e[1..]) by {
        assert forall i :: 0 < i < |e| ==> e[i].0 == e[1..][i - 1].0;
      }
      Get(e[1..], k)
  }

  /** In a sorted list `Get` finds the unique entry with that key. */
  lemma {:induction false} GetAt<V>(e: seq<(string, V)>, i: int)
    requires Sorted(e) && 0 <= i < |e|
    ensures Get(e, e[i].0) == Some(e[i].1)
  {
    if i > 0 {
      LessAsymmetric(e[0].0, e[i].0);
      assert e[1..][i - 1] == e[i];
      GetAt(e[1..], i - 1);
    }
  }

  /** `put(k, v)`: overwrite the value of `k`, or insert it at its ordered position. */
  function Put<V>(e: seq<(string, V)>, k: string, v: V): (r: seq<(string, V)>)
    requires Sorted(e)
    ensures Sorted(r)
    ensures KeySet(r) == KeySet(e) + {k}
    ensures Get(r, k) == Some(v)
    ensures forall k' :: k' != k ==> Get(r, k') == Get(e, k')
    ensures |r| == if k in KeySet(e) then |e| else |e| + 1
  {
    if |e| == 0 then
      KeySetCons((k, v), e);
      assert [(k, v)] + e == [(k, v)];
      [(k, v)]
    else if e[0].0 == k then
      PutHere(e, k, v);
      [(k, v)] + e[1..]
    else if Less(k, e[0].0) then
      PutBefore(e, k, v);
      [(k, v)] + e
    else
      var t := Put(e[1..], k, v);
      PutAfter(e, k, t);
      [e[0]] + t
  }

  /** Overwriting the first entry keeps the keys and their order. */
  lemma PutHere<V>(e: seq<(string, V)>, k: string, v: V)
    requires Sorted(e) && |e| > 0 && e[0].0 == k
    ensures Sorted([(k, v)] + e[1..])
    ensures KeySet([(k, v)] + e[1..]) == KeySet(e) && KeySet(e) == {k} + KeySet(e[1..])
  {
    var r := [(k, v)] + e[1..];
    assert forall j :: 0 < j < |r| ==> r[j] == e[j];
    KeySetCons((k, v), e[1..]);
    KeySetCons(e[0], e[1..]);
    assert e == [e[0]] + e[1..];
  }

  /** A key below the first one goes in front, and was not there before. */
  lemma PutBefore<V>(e: seq<(string, V)>, k: string, v: V)
    requires Sorted(e) && |e| > 0 && Less(k, e[0].0)
    ensures Sorted([(k, v)] + e)
    ensures KeySet([(k, v)] + e) == KeySet(e) + {k} && k !in KeySet(e)
  {
    var r := [(k, v)] + e;
    forall j | 0 < j < |r| ensures Less(k, r[j].0) {
      if j > 1 {
        LessTransitive(k, e[0].0, e[j - 1].0);
      }
    }
    assert forall j :: 0 < j < |r| ==> r[j] == e[j - 1];
    KeySetCons((k, v), e);
    forall i | 0 <= i < |e| ensures e[i].0 != k {
      if i > 0 {
        LessTransitive(k, e[0].0, e[i].0);
      }
      LessIrreflexive(k);
    }
  }

  /** A key above the first one goes into the rest, which stays above the first key. */
  lemma PutAfter<V>(e: seq<(string, V)>, k: string, t: seq<(string, V)>)
    requires Sorted(e) && |e| > 0 && e[0].0 != k && !Less(k, e[0].0)
    requires Sorted(t) && KeySet(t) == KeySet(e[1..]) + {k}
    ensures Sorted([e[0]] + t)
    ensures KeySet([e[0]] + t) == KeySet(e) + {k}
    ensures KeySet(e) == {e[0].0} + KeySet(e[1..]) && e[0].0 !in KeySet(t)
  {
    LessTotal(k, e[0].0);
    var r := [e[0]] + t;
    KeySetCons(e[0], e[1..]);
    assert e == [e[0]] + e[1..];
    KeySetCons(e[0], t);
    forall j | 0 < j < |r| ensures Less(e[0].0, r[j].0) {
      assert r[j] == t[j - 1];
      assert r[j].0 in KeySet(t);
      if r[j].0 != k {
        assert r[j].0 in KeySet(e[1..]);
        var m' :| 0 <= m' < |e[1..]| && e[1..][m'].0 == r[j].0;
        assert e[m' + 1].0 == r[j].0;
      }
    }
    forall i | 0 <= i < |t| ensures t[i].0 != e[0].0 {
      assert Less(e[0].0, r[i + 1].0);
      LessAsymmetric(e[0].0, r[i + 1].0);
    }
  }

  lemma KeySetCons<V>(x: (string, V), e: seq<(string, V)>)
    ensures KeySet([x] + e) == {x.0} + KeySet(e)
  {
    var l := [x] + e;
    forall k | k in KeySet(l) ensures k in {x.0} + KeySet(e) {
      var i :| 0 <= i < |l| && l[i].0 == k;
      if i > 0 {
        assert e[i - 1].0 == k;
      }
    }
    forall k | k in KeySet(e) ensures k in KeySet(l) {
      var i :| 0 <= i < |e| && e[i].0 == k;
      assert l[i + 1].0 == k;
    }
    assert l[0].0 == x.0;
  }

  /** The sum of the values of a counter map. */
  function SumValues(e: seq<(string, nat)>): nat {
    if |e| == 0 then 0 else e[0].1 + SumValues(e[1..])
  }

  /** Overwriting a value changes the sum by the difference. */
  lemma {:induction false} SumPut(e: seq<(string, nat)>, k: string, v: nat)
    requires Sorted(e)
    ensures SumValues(Put(e, k, v)) + Get(e, k).GetOr(0) == SumValues(e) + v
  {
    if |e| == 0 {
    } else if e[0].0 == k {
      assert Put(e, k, v)[1..] == e[1..];
    } else if Less(k, e[0].0) {
      assert Put(e, k, v)[1..] == e;
      assert Get(e, k) == None by {
        forall i | 0 <= i < |e| ensures e[i].0 != k {
          if i > 0 {
            LessTransitive(k, e[0].0, e[i].0);
          }
          LessIrreflexive(k);
        }
      }
    } else {
      SumPut(e[1..], k, v);
      assert Put(e, k, v)[1..] == Put(e[1..], k, v);
    }
  }

  /** A sub-list of a sorted list is sorted. */
  lemma SortedTail<V>(e: seq<(string, V)>)
    requires Sorted(e) && |e| > 0
    ensures Sorted(e[1..])
  {
  }
}

=== FILE: wrappers.dfy ===
/** Small failure-carrying datatypes shared by the whole model. */
module Wrappers {

  /** A value that may be absent; stands for a Java reference that may be null. */
  datatype Option<+T> = None | Some(value: T) {
    function GetOr(default: T): T {
      match this
      case Some(v) => v
      case None => default
    }
  }

  /** Either a value or the description of the exception that replaced it. */
  datatype Result<+T> = Ok(value: T) | Err(error: string)
}
